=== FILE: README.md ===
# aio-cli-lib-app-config: include resolution and legacy merge, in Dafny

This project models the core of `src/index.js` of the Adobe I/O app
configuration loader and proves properties of that model.

- **`coalesce`** resolves the includes of `app.config.yaml`.
  - It walks the root document with a last-in-first-out work list.
  - It records where every key came from in an *include index*: merged dotted key ↦ `{file, key}`.
  - It rewrites the string leaves of path-valued keys (the `PATH_KEYS` table) relative to the root with `resolveToRoot`.
  - It splices each `$include` target into the object holding the directive. Local keys win, and cycles and bad targets fail.
- **The legacy adapter** covers `loadUserConfigLegacy`, `mergeLegacyUserConfig` and the index merge of `loadUserConfig`.
  - It folds the `.aio` `app`/`cna` settings, a top-level `manifest.yml` and the `package.json` hook scripts into `{application: ...}`, with an index of their own.
  - It then merges all of that under the resolved configuration.
- **The small pure pieces** of the final configuration:
  - the `package.json` name and version defaults and the OpenWhisk package name;
  - the distribution subfolder name;
  - the sorted `implements` list;
  - the `operations` check of extensions, with the ways building an extension's configuration can throw before it;
  - the S3 credentials and token vending machine URL.

Layout, one module per file:

| file | module | contents |
|---|---|---|
| `results.dfy` | `Results` | `Option` and `Result` with `:-` support |
| `strings.dfy` | `Strings` | `split`/`join` on one separator, decimal rendering of indices |
| `posix_path.dfy` | `PosixPath` | Node's POSIX `normalize`, `join`, `dirname`, `resolve` |
| `config_tree.dfy` | `ConfigTree` | parsed YAML/JSON trees; objects as ordered field lists; `delete`, spread, `{...a, ...b}`, location-based get and set |
| `path_keys.dfy` | `PathKeys` | the `PATH_KEYS` table as segment patterns over the dotted key split at dots |
| `resolver.dfy` | `Resolver` | `resolveToRoot`, one iteration of the work loop, the loop, `coalesce` |
| `resolver_proofs.dfy` | `ResolverProofs` | error cases, splice semantics, re-enqueued items, rewrite and descent, the loop invariant, index coverage |
| `legacy.dfy` | `Legacy` | `loadUserConfigLegacy`, `mergeLegacyUserConfig`, `loadUserConfig` |
| `legacy_proofs.dfy` | `LegacyProofs` | which legacy entries the index holds, and what the merge keeps |
| `projection.dfy` | `Projection` | name and version defaults, subfolder name, `implements`, `operations`, S3 settings |
| `projection_proofs.dfy` | `ProjectionProofs` | uniqueness and idempotence facts, and the concrete cases of the tests |

## How the model reads the program

- **Trees.** A parsed document is a `Value`: `undefined`, `null`, a boolean, an integer, a string, an array, or an object.
  - An object is an ordered list of fields, so key order (and with it the work-list order) is kept.
  - Parsed YAML and JSON never repeat a key. Lemmas that need this take `UniqueKeys` as a precondition.
- **Files.** The files the resolver can load are a map `Docs` from POSIX path to parsed tree. "Exists on disk" means "is a key of that map". `process.cwd()` is the parameter `cwd`.
- **Locations.** A work item names its parent object by its location in the current tree, not by reference. The resolver never replaces an object node: it only deletes the directive, overwrites string leaves and adds keys. So the location stays valid.
- **Loop.** `while (traverseStack.length > 0)` becomes `Loop` with a `fuel` argument. It fails with `OutOfFuel` when fuel runs out.
- **JavaScript details.**
  - A property read on a non-object gives `undefined`.
  - `{...v}` of a string or array lists its indices.
  - Truthiness follows JavaScript.
  - `Array.prototype.sort` on strings compares code units, modelled as a lexicographic order on characters.

Where the program's behaviour is easy to misread, the model follows the program:

- The directive item is itself popped and indexed, under `<parent>.$include`, because the index write at lines 262-266 runs before the directive check at line 281. So the final index keeps entries whose keys contain `$include`; only the keys put back on the work list from the included file have `.$include` stripped.
- A key the including object already had is put back on the work list if the included document also has it. This happens because the re-enqueue filter is *all* keys of the included document. Its index entry can then end up naming the included file. So no lemma claims that such a key's provenance names the including file.
- Path rewriting is interleaved with traversal. It uses the file the item was reached through, not a later pass over the index.
- `fullKey.split('.$include').join('')` removes every `.$include` substring of the merged key, not only the last segment. `StripDirective` models exactly that.
- A target that parses to `null` passes the object check at line 302. It then fails at line 313, where `Object.keys(null)` throws. The model returns `NullTarget` there.
- An included document is shared by reference between its cache entry and every splice site; the model does not share it (see "## Left out").

## Model

| member | source | states |
|---|---|---|
| Resolver.ResolveToRoot | src/index.js:599-606 | undefined exactly when the value or the file is empty; in absolute mode with an absolute working directory the result is absolute; in relative mode it is absolute exactly when the defining file's path is |
| ResolverProofs.AbsoluteRewriteIdempotent | src/index.js:603-605 | rewriting an already rewritten path again in absolute mode, from any file, gives it back unchanged, so revisiting a leaf is harmless |
| ResolverProofs.ResolveToRootRelative | src/index.js:599-606 | in relative mode a value of plain segments written in the file `d/f` becomes `d/value`: the file's directory joined with the value |
| ResolverProofs.ResolveToRootAbsolute | src/index.js:599-606 | in absolute mode, with working directory `/c`, the same value becomes `/c/d/value` |
| ResolverProofs.ExtensionActionsFolder | test/index.test.js:942 | `actions` written in `src/dx-excshell-1/ext.config.yaml` becomes `src/dx-excshell-1/actions` |
| PosixPath.DirnameOfFile | src/index.js:605 | `path.dirname` of `d/f` is `d`, and `.` for a bare file name |
| PosixPath.JoinDirValue | src/index.js:605 | `path.join` of a directory and a plain relative value is the directory's segments followed by the value's |
| PosixPath.ResolveDirValue | src/index.js:605 | `path.resolve` of a directory and a plain relative value against `/c` is `/c` followed by the directory's and the value's segments |
| PosixPath.ResolveIdempotent | src/index.js:605 | `path.resolve` of an absolute result, against any directory, is that result |
| PosixPath.ResolveIsAbsolute | src/index.js:605 | `path.resolve` against an absolute working directory always gives an absolute path |
| PathKeys.PathKeyLastPiece | src/index.js:57-66 | every path-valued key starts with `application` or `extensions` and ends in `web`, `src`, `actions`, `unitTest`, `e2eTest`, `dist`, `function` or the `0` of an include tuple |
| PathKeys.TableEntryIsPathKey | src/index.js:57-66 | a dotted key whose pieces match any one of the eight patterns is path-valued |
| PathKeys.FunctionIsPathKey | src/index.js:64 | `application.runtimeManifest.packages.<p>.actions.<a>.function` is path-valued for dot-free non-empty names |
| PathKeys.ExtensionWebSrcIsPathKey | src/index.js:59 | `extensions.<name>.web.src` is path-valued for a dot-free non-empty name |
| PathKeys.IncludeDestinationIsNotPathKey | src/index.js:65 | element 1 of a manifest action's include tuple is never path-valued; only element 0 is |
| PathKeys.DirectiveIsNotPathKey | src/index.js:276-281 | a key ending in the `$include` segment is never path-valued, so a directive's value is never rewritten before it is followed |
| Resolver.Step | src/index.js:256-317 | an iteration fails only on a directive whose value is not an object; on success it records the popped key under its merged key with the last file of its chain and its file-relative key, changes no other index entry, and only pushes on top of the rest of the work list |
| ResolverProofs.StepFailures | src/index.js:281-304 | a directive whose value is a number or boolean fails (an object, array or `null` value is descended into at lines 270-274 instead); a target already on the include chain fails with the whole chain plus the repeated file; a target neither cached nor on disk is unresolvable; a non-object target fails as not an object, a null one as null; an object target succeeds |
| ResolverProofs.StepSplice | src/index.js:298-307 | after an include the object keeps its own keys other than the directive first and in order, with their values; keys only the target has are added with the target's values; the directive survives only if the target has one; nothing outside the object changes |
| ResolverProofs.StepInclude | src/index.js:301-313 | an include writes the spliced object at the directive's location, caches the target, and pushes exactly the merged keys that the target has, with the chain extended by the target |
| ResolverProofs.RequeuedItems | src/index.js:311-313 | every re-enqueued item addresses the same object, carries the extended chain, has its relative key reset to its own name, and has a merged key with every directive segment removed; every key of the target is re-enqueued |
| ResolverProofs.StripDirectiveAppend | src/index.js:313 | removing the directive segments from a merged key that ends in `.$include` is removing them from the key without it |
| ResolverProofs.StripDirectiveFree | src/index.js:313 | a merged key without a directive segment is left unchanged |
| ResolverProofs.StepRewrite | src/index.js:276-279 | a non-directive scalar is rewritten only when it is a string under a path-valued key, to the value `resolveToRoot` gives relative to its defining file; the tree's shape, the rest of the tree, the cache and the work list below are untouched |
| ResolverProofs.StepDescend | src/index.js:270-274 | an object or array pushes one item per key or index, in order, under the same chain, with the merged and relative keys extended by the child's name; the tree is unchanged |
| ResolverProofs.StepInvariant | src/index.js:252-317 | every iteration keeps the cache equal to the files on disk, every chain starting at the root file and continuing with distinct existing files, and every index entry naming the root or an existing file |
| ResolverProofs.RunInvariant | src/index.js:256-317 | the whole work loop keeps that invariant |
| ResolverProofs.CoalesceIndexFiles | src/index.js:224-321 | every index entry of a successful resolution names the root file or an existing document |
| ResolverProofs.RunCoversWork | src/index.js:256-266 | a successful loop records every key that was on the work list and keeps every entry it started with |
| ResolverProofs.CoalesceIndexesRootKeys | src/index.js:252-266 | every top-level key of the root document is in the index of a successful resolution |
| ResolverProofs.ChainBounded | src/index.js:290-311 | an include chain is no longer than the number of documents plus one, which bounds include nesting |
| Resolver.Coalesce | src/index.js:224-228 | without `app.config.yaml` the result is an empty configuration and an empty index |
| ConfigTree.SpliceSpec | src/index.js:306-307 | `{...loaded, ...local}` written back into `local`: local keys first and winning, then keys only the loaded object has, with unique keys |
| ConfigTree.MergeLookup | src/index.js:408 | in `{...a, ...b}` a key of `b` reads from `b`, any other key from `a`, and the keys are those of either |
| ConfigTree.Remove | src/index.js:298 | `delete obj[k]` removes `k` and keeps every other key and value |
| Legacy.ManifestIndex | src/index.js:343-359 | a `null` or `undefined` manifest fails, since `Object.keys` throws; otherwise `application.runtimeManifest` is indexed to the whole of `manifest.yml` |
| Legacy.HookNamesMembers | src/index.js:363-373 | a hook name is read exactly when `scripts` is truthy, the name is in the closed hook list and its script is truthy |
| Legacy.TruthyScriptsMembers | src/index.js:368-373 | a name is kept exactly when it is one of the names looked at and its script is truthy |
| Legacy.LoadLegacy | src/index.js:324-397 | fails exactly for a `null`/`undefined` manifest; otherwise gives `{application: ...}` with the legacy application object and the legacy index |
| LegacyProofs.LegacyAppFields | src/index.js:336-378 | the legacy application holds the manifest as a whole and the hooks object; any other field comes from `.aio` `cna` over `app` |
| LegacyProofs.AioIndexed | src/index.js:337-340 | each `.aio` setting `k` is indexed as `application.k` from `.aio` under `app.k` whenever neither the manifest nor the hooks write an entry for that same key |
| LegacyProofs.AioKeyOutsideLaterParts | src/index.js:337-389 | a setting whose name starts with neither `runtimeManifest` nor `hooks` has a key that the manifest and hook entries never write |
| LegacyProofs.ManifestRootIndexed | src/index.js:348-349 | `application.runtimeManifest` is indexed to `manifest.yml` with an empty key |
| LegacyProofs.ManifestIndexed | src/index.js:350-359 | every key path of the manifest, objects and arrays alike, is indexed under `application.runtimeManifest` to `manifest.yml` with its dotted path |
| LegacyProofs.HooksIndexed | src/index.js:368-387 | each hook read is indexed to `package.json` under `scripts.<name>`, and `application.hooks` to `scripts` |
| LegacyProofs.HooksAreNotManifest | src/index.js:362-389 | no hook entry falls under the manifest's keys |
| LegacyProofs.ApplicationEntry | src/index.js:391-394 | the `application` entry exists exactly when some `.aio` setting, a manifest or a hook was found, and then names `.aio` under `app` |
| Legacy.MergeLegacy | src/index.js:400-426 | fails exactly when the new configuration is `null` or `undefined`, where reading its `application` throws; otherwise an object whose `application` is the merged application and whose every other top-level key is the new configuration's |
| LegacyProofs.MergedAppLookup | src/index.js:407-408 | outside merged hooks, each application field is the new one if the new application has it, else the legacy one; the fields are those of either |
| LegacyProofs.MergedHooks | src/index.js:416-419 | when both applications have hooks the merged hooks are their union, new hooks winning |
| LegacyProofs.NewManifestWins | src/index.js:411-415 | a new `runtimeManifest` replaces the legacy one whole |
| Legacy.LoadUserConfig | src/index.js:205-216 | a legacy failure or an include failure is passed on; a resolved configuration that is `null` or `undefined` fails; it succeeds exactly when none of these happens, and then the configuration is the merge and the index holds the keys of both indexes with new entries winning on collision |
| LegacyProofs.EmptyUserConfigFails | src/index.js:205-211 | an `app.config.yaml` that parses to `null` or `undefined` makes loading fail, once the legacy part loads |
| LegacyProofs.CoalesceNothing | src/index.js:240-252 | a root document that is `null` or `undefined` gives no work, so it comes back unchanged with an empty index |
| LegacyProofs.MissingUserConfigIsLegacy | src/index.js:205-228 | without `app.config.yaml` the result is the legacy configuration merged into an empty one, with exactly the legacy index |
| Projection.UnqualifiedName | src/index.js:173-177 | a falsy name gives `unnamed-app`; a truthy non-string fails; a string gives the text after its last slash |
| ProjectionProofs.AfterLastSlashUnique | src/index.js:175 | only one string is the text after the last slash, so that property fixes the name |
| ProjectionProofs.ScopeDropped | src/index.js:172-175 | `@scope/name` becomes `name` for a slash-free name |
| ProjectionProofs.UnqualifiedNameIdempotent | src/index.js:173-177 | unqualifying a non-empty unqualified name changes nothing |
| Projection.Version | src/index.js:178 | the version is always truthy: a truthy version is kept, and a falsy one (`undefined`, `null`, `false`, `0`, `''`) becomes `0.1.0` |
| Projection.PackageDefaults | src/index.js:173-185 | fails exactly when the name does; the package name is the name, a dash and the version as a template literal renders it |
| ProjectionProofs.NumericVersion | src/index.js:185 | a numeric version is rendered in decimal: `app` at version `2` gives `app-2`, at `-3` gives `app--3` |
| ProjectionProofs.DefaultPackage | test/index.test.js:107-119 | an empty `package.json` gives `unnamed-app`, `0.1.0` and `unnamed-app-0.1.0` |
| ProjectionProofs.PackageVersion | src/index.js:185 | with a non-empty string version the package name ends in exactly that version |
| Projection.SubfolderName | src/index.js:470 | same length, no slash, every non-slash character kept in place |
| ProjectionProofs.SubfolderJoinSplit | src/index.js:468-470 | the subfolder name is the configuration name split at `/` and joined with `-` |
| Projection.Sort | src/index.js:146 | the result is sorted and a permutation of the input |
| Projection.Implements | src/index.js:146-149 | fails with the no-implementation message exactly when the list is empty and that is not allowed; otherwise a sorted permutation of the keys |
| ProjectionProofs.SortedUnique | src/index.js:146 | two sorted arrangements of the same strings are equal |
| ProjectionProofs.ImplementsIsTheSortedKeys | src/index.js:146 | the `implements` list is the one sorted arrangement of the configuration keys |
| Projection.CheckOperations | src/index.js:437-550 | succeeds exactly when no extension meets one of the modelled failures, pairing each with its operations; the failures are an extension that is `null` or `undefined`, an indexed one whose first own key has no index entry, a `null` `web`, a path setting that is a truthy non-string or falls back to a missing default, and falsy `operations` |
| Projection.FailsAtFirstUndeclared | src/index.js:440-446 | the check fails with exactly the failure of the first extension that cannot be built or has no operations |
| ProjectionProofs.NoOwnKeysFails | src/index.js:471-495 | an indexed extension with no own keys (`{}`, `[]`, a number or a boolean) fails reading the file of `<key>.undefined`, where `<key>` is `application` for an extension so named and `extensions.<name>` otherwise, unless the index has that entry |
| ProjectionProofs.FirstOwnKeyListed | src/index.js:494 | the key looked up is the first one `Object.keys` lists, spelled as a property name, or `undefined` when it lists none |
| ProjectionProofs.UnindexedDeclared | src/index.js:440-489 | when no extension is indexed under its key (`application` for an extension so named, `extensions.<name>` otherwise), the check succeeds exactly when each extension is neither `null` nor `undefined` and has truthy `operations` |
| ProjectionProofs.ApplicationNamedIndexed | src/index.js:471-495 | an extension named `application` is looked up under the application's index key, so with `application` indexed but not its first key it fails, whatever `extensions.application` holds |
| ProjectionProofs.ApplicationNamedUnindexed | src/index.js:471-489 | an extension named `application` with `application` not indexed gets an empty configuration and fails only for missing `operations` |
| ProjectionProofs.ApplicationNamedExample | src/index.js:471-495 | a top-level `application` with `actions` next to an extension `application` with operations fails, as `application.operations` is not indexed |
| ProjectionProofs.WebNullFails | src/index.js:511-514 | an indexed extension whose `web` is `null` fails reading `web.src`, even with operations declared |
| ProjectionProofs.StringSettingsResolve | src/index.js:504-550 | path settings that are strings or absent, and a `web` that is a string, absent, or an object with a string or absent `src`, all resolve once the defining file is known |
| ProjectionProofs.NonStringActionsFails | src/index.js:504-536 | a truthy non-string `actions` stops an indexed extension whose earlier settings resolve, with a path error naming `actions` |
| ProjectionProofs.ZeroActionsResolves | src/index.js:504-536 | a zero `actions` is falsy, so the default folder is taken and no setting fails |
| Projection.ExtensionOperations | src/index.js:437-450 | no `extensions` gives nothing to check; otherwise succeeds exactly when no extension meets a modelled failure |
| Projection.S3Creds | src/index.js:562-570 | credentials exist exactly when the key id, secret and bucket are all truthy, and then read back as `accessKeyId`, `secretAccessKey` and `params.Bucket` |
| Projection.TvmUrl | src/index.js:571-575 | the URL is set exactly when it is not the default URL, to the configured value even if that is `undefined` |
| ProjectionProofs.TvmUrlCases | test/index.test.js:161-188 | a custom URL is kept, the default URL is dropped, and a missing one is kept as `undefined` |
| Projection.S3Settings | src/index.js:562-575 | without a frontend there are no S3 fields; with one, `creds` and `tvmUrl` read back as computed |

## Left out

- File reading and YAML/JSON parsing are left out. Documents are the given map `Docs`, an optional parsed `manifest.yml` and the `.aio` value. `process.cwd()` is a parameter.
- The logger calls (`aioLogger.error`/`warn`) are left out: they only print.
- Windows separator conversion (line 287) is left out: paths are POSIX only.
- Resolver.Loop: termination of the work loop is not proved. The loop takes fuel and fails with `OutOfFuel` when fuel runs out, which the program cannot do. ChainBounded bounds include nesting, but the loop itself is not shown to stop.
- Object sharing between the include cache and the splice sites (lines 301, 306-309) is not modelled. The program puts the same nested objects into every site, so a file included twice can see rewrites made at an earlier site. The model copies trees by value.
- JavaScript's enumeration order of integer-like keys (listed first, ascending) is not modelled. Objects keep insertion order.
- Numbers are integers; floating point is left out.
- Projection.NotAfter: sorting compares characters, not UTF-16 code units, so strings outside the basic plane can order differently.
- ResolverProofs.StepSplice: stated for objects with unique keys (`UniqueKeys`, `DocsUnique`), as parsed YAML gives; duplicate keys are not modelled.
- Resolver.Step: a directive whose value is not a string fails with `IncludeNotString`. That stands for the TypeError `path.join` throws; its message is not modelled.
- Resolver.Message: the `NullTarget` and `IncludeNotString` errors are runtime TypeErrors with engine-specific messages, so they have no message.
- Projection.PackageDefaults: the OpenWhisk `apihost` and `apiversion` defaults (lines 180-183) come from the `.aio` runtime settings and fixed defaults and feed nothing else here, so they are left out.
- Projection.ExtensionOperations: of `buildSingleConfig` only its failures are modelled, not the configuration it builds: the path values, `fs.existsSync` for `hasFrontend`, `credsCacheFile`, `s3.folder`, hostnames and cache durations are left out. The application configuration, built before the extensions, is left out with it.
- Projection.CheckOperations: the throws of `buildSingleConfig` that depend on the common configuration are not modelled, because the common configuration is no input here: `commonConfig.ow.namespace` at line 560 (reached only when `fs.existsSync` finds the web folder) and `commonConfig.packagejson` at lines 589-590. Nor is a throw from `getCliEnv` at line 580. Its success condition is exact only up to these.
- Projection.UnqualifiedName: the empty name that `"@scope/"` produces is kept as the empty string, as the program keeps it; it is not replaced by the default.
- Schema validation: this program has none. Its `validate` export is commented out at line 612 and nothing loads a schema library, so a configuration is never checked against a schema.
- Legacy.MergeLegacy: the key-by-key facts about the merged application are stated as separate lemmas (MergedAppLookup, MergedHooks, NewManifestWins) rather than in its own contract.

=== FILE: config_tree.dfy ===
/**
 * Configuration trees: the untyped values a YAML or JSON document parses to,
 * as a tagged union. Objects are ordered key/value lists, so the enumeration
 * order of `Object.keys` is kept. Also the object operations the resolver uses:
 * lookup, property assignment, `delete`, object spread `{...a, ...b}`, and
 * addressing a node by a path of keys.
 */
module ConfigTree {
  import opened Results
  import opened Strings

  datatype Value =
    | Undefined
    | Null
    | Bool(b: bool)
    | Num(n: int)
    | Str(s: string)
    | Arr(items: seq<Value>)
    | Obj(fields: seq<(string, Value)>)

  type Fields = seq<(string, Value)>

  /** One step of a location: an object key or an array (or string) index. */
  datatype Seg = Key(name: string) | Index(i: nat)

  /** A segment as `Object.keys` spells it. */
  function SegName(k: Seg): string
  {
    match k
    case Key(name) => name
    case Index(i) => NatToString(i)
  }

  /** `typeof v === 'object'`: objects, arrays and null. */
  predicate IsObjectLike(v: Value)
  {
    v.Obj? || v.Arr? || v.Null?
  }

  /** JavaScript truthiness. */
  predicate Truthy(v: Value)
  {
    match v
    case Undefined => false
    case Null => false
    case Bool(b) => b
    case Num(n) => n != 0
    case Str(s) => |s| > 0
    case Arr(_) => true
    case Obj(_) => true
  }

  /** The keys of an object's field list, in order. */
  function Keys(fs: Fields): (ks: seq<string>)
    ensures |ks| == |fs|
    ensures forall i :: 0 <= i < |fs| ==> ks[i] == fs[i].0
  {
    seq(|fs|, i requires 0 <= i < |fs| => fs[i].0)
  }

  ghost predicate UniqueKeys(fs: Fields)
  {
    forall i, j :: 0 <= i < j < |fs| ==> fs[i].0 != fs[j].0
  }

  /** Position of the first field named `k`, or `|fs|` when there is none. */
  function IndexOf(fs: Fields, k: string): (i: nat)
    ensures i <= |fs|
    ensures i < |fs| ==> fs[i].0 == k
    ensures forall j :: 0 <= j < i ==> fs[j].0 != k
    ensures i == |fs| <==> k !in Keys(fs)
  {
    if |fs| == 0 then 0
    else if fs[0].0 == k then 0
    else
      var j := IndexOf(fs[1..], k);
      assert j == |fs[1..]| <==> k !in Keys(fs[1..]) by {
        assert forall x :: x in Keys(fs[1..]) <==> x in Keys(fs)[1..];
      }
      assert Keys(fs) == [fs[0].0] + Keys(fs[1..]);
      1 + j
  }

  /** Property read `obj[k]`; `None` is `undefined`. */
  function Lookup(fs: Fields, k: string): (r: Option<Value>)
    ensures r.Some? <==> k in Keys(fs)
  {
    var i := IndexOf(fs, k);
    if i < |fs| then Some(fs[i].1) else None
  }

  /** Property assignment `obj[k] = v`: an existing key keeps its position, a new key goes last. */
  function Put(fs: Fields, k: string, v: Value): (r: Fields)
    ensures Lookup(r, k) == Some(v)
    ensures forall j :: j != k ==> Lookup(r, j) == Lookup(fs, j)
    ensures k in Keys(fs) ==> Keys(r) == Keys(fs)
    ensures k !in Keys(fs) ==> Keys(r) == Keys(fs) + [k]
  {
    var i := IndexOf(fs, k);
    if i < |fs| then
      var r := fs[i := (k, v)];
      assert Keys(r) == Keys(fs);
      assert forall j :: j != k ==> IndexOf(r, j) == IndexOf(fs, j) by {
        forall j | j != k
          ensures IndexOf(r, j) == IndexOf(fs, j)
        {
          IndexOfSameKeys(r, fs, j);
        }
      }
      r
    else
      var r := fs + [(k, v)];
      assert forall j :: j != k ==> Lookup(r, j) == Lookup(fs, j) by {
        forall j | j != k
          ensures Lookup(r, j) == Lookup(fs, j)
        {
          IndexOfAppend(fs, (k, v), j);
        }
      }
      IndexOfAppend(fs, (k, v), k);
      assert Keys(r) == Keys(fs) + [k];
      r
  }

  lemma IndexOfSameKeys(a: Fields, b: Fields, k: string)
    requires Keys(a) == Keys(b)
    ensures IndexOf(a, k) == IndexOf(b, k)
  {
    assert |a| == |b|;
    forall x | 0 <= x < |a|
      ensures a[x].0 == b[x].0
    {
      assert Keys(a)[x] == Keys(b)[x];
    }
  }

  lemma {:induction false} IndexOfAppend(fs: Fields, f: (string, Value), k: string)
    ensures IndexOf(fs + [f], k) == (if k in Keys(fs) then IndexOf(fs, k) else if f.0 == k then |fs| else |fs| + 1)
    decreases |fs|
  {
    if |fs| > 0 {
      var r := fs + [f];
      assert r[0] == fs[0];
      assert r[1..] == fs[1..] + [f];
      assert Keys(fs) == [fs[0].0] + Keys(fs[1..]);
      IndexOfAppend(fs[1..], f, k);
    } else {
      assert [] + [f] == [f];
    }
  }

  /** `delete obj[k]`. */
  function Remove(fs: Fields, k: string): (r: Fields)
    ensures RemovedFrom(r, fs, k)
  {
    if |fs| == 0 then []
    else
      var rest := Remove(fs[1..], k);
      if fs[0].0 == k then
        RemoveHead(fs, k, rest);
        rest
      else
        RemoveKeep(fs, k, rest);
        [fs[0]] + rest
  }

  /** `r` is `fs` without the field `k`: nothing else is lost or changed, and unique keys stay unique. */
  ghost predicate RemovedFrom(r: Fields, fs: Fields, k: string)
  {
    && k !in Keys(r)
    && (forall j :: j != k ==> Lookup(r, j) == Lookup(fs, j))
    && (forall j :: j in Keys(r) <==> j in Keys(fs) && j != k)
    && (UniqueKeys(fs) ==> UniqueKeys(r))
  }

  lemma RemoveHead(fs: Fields, k: string, rest: Fields)
    requires |fs| > 0 && fs[0].0 == k && RemovedFrom(rest, fs[1..], k)
    ensures RemovedFrom(rest, fs, k)
  {
    KeysCons(fs);
    LookupCons(fs);
    UniqueTail(fs);
  }

  lemma RemoveKeep(fs: Fields, k: string, rest: Fields)
    requires |fs| > 0 && fs[0].0 != k && RemovedFrom(rest, fs[1..], k)
    ensures RemovedFrom([fs[0]] + rest, fs, k)
  {
    var r := [fs[0]] + rest;
    assert r[0] == fs[0] && r[1..] == rest;
    KeysCons(fs);
    KeysCons(r);
    RemoveKeepLookup(fs, k, rest);
    UniqueTail(fs);
    UniqueCons(r);
  }

  lemma RemoveKeepLookup(fs: Fields, k: string, rest: Fields)
    requires |fs| > 0 && fs[0].0 != k
    requires forall j :: j != k ==> Lookup(rest, j) == Lookup(fs[1..], j)
    ensures forall j :: j != k ==> Lookup([fs[0]] + rest, j) == Lookup(fs, j)
  {
    var r := [fs[0]] + rest;
    assert r[0] == fs[0] && r[1..] == rest;
    LookupCons(fs);
    LookupCons(r);
    LookupFirst(fs);
    LookupFirst(r);
  }

  /** The keys of a non-empty field list: its first key, then the rest. */
  lemma KeysCons(fs: Fields)
    requires |fs| > 0
    ensures Keys(fs) == [fs[0].0] + Keys(fs[1..])
    ensures forall j :: j in Keys(fs) <==> j == fs[0].0 || j in Keys(fs[1..])
  {
    assert Keys(fs) == [fs[0].0] + Keys(fs[1..]);
  }

  /** A read past the first field reads the rest of the list. */
  lemma LookupCons(fs: Fields)
    requires |fs| > 0
    ensures forall j :: j != fs[0].0 ==> Lookup(fs, j) == Lookup(fs[1..], j)
  {
    forall j | j != fs[0].0
      ensures Lookup(fs, j) == Lookup(fs[1..], j)
    {
      assert IndexOf(fs, j) == 1 + IndexOf(fs[1..], j);
    }
  }

  /** The first field is found first. */
  lemma LookupFirst(fs: Fields)
    requires |fs| > 0
    ensures Lookup(fs, fs[0].0) == Some(fs[0].1)
  {
    assert IndexOf(fs, fs[0].0) == 0;
  }

  lemma UniqueTail(fs: Fields)
    requires |fs| > 0
    ensures UniqueKeys(fs) ==> UniqueKeys(fs[1..]) && fs[0].0 !in Keys(fs[1..])
  {
    if !UniqueKeys(fs) { return; }
    forall x | 0 <= x < |fs[1..]|
      ensures fs[1..][x].0 != fs[0].0
    {
      assert fs[1..][x] == fs[x + 1];
    }
    forall a, b | 0 <= a < b < |fs[1..]|
      ensures fs[1..][a].0 != fs[1..][b].0
    {
      assert fs[1..][a] == fs[a + 1] && fs[1..][b] == fs[b + 1];
    }
  }

  lemma UniqueCons(fs: Fields)
    requires |fs| > 0
    ensures UniqueKeys(fs[1..]) && fs[0].0 !in Keys(fs[1..]) ==> UniqueKeys(fs)
  {
    if !(UniqueKeys(fs[1..]) && fs[0].0 !in Keys(fs[1..])) { return; }
    forall a, b | 0 <= a < b < |fs|
      ensures fs[a].0 != fs[b].0
    {
      assert fs[b] == fs[1..][b - 1];
      if a > 0 {
        assert fs[a] == fs[1..][a - 1];
      } else {
        assert Keys(fs[1..])[b - 1] == fs[b].0;
      }
    }
  }

  /** `Object.assign`-like fold: assigns every field of `source`, in order, into `target`. */
  function Assign(target: Fields, source: Fields): Fields
    decreases |source|
  {
    if |source| == 0 then target
    else Assign(Put(target, source[0].0, source[0].1), source[1..])
  }

  /** A later assignment wins; keys not assigned keep their old value. */
  lemma {:induction false} AssignLookup(target: Fields, source: Fields, k: string)
    requires UniqueKeys(source)
    ensures Lookup(Assign(target, source), k) ==
            (if k in Keys(source) then Lookup(source, k) else Lookup(target, k))
    decreases |source|
  {
    if |source| > 0 {
      var next := Put(target, source[0].0, source[0].1);
      KeysCons(source);
      LookupCons(source);
      UniqueTail(source);
      AssignLookup(next, source[1..], k);
    }
  }

  /** Assigning into a key-unique object keeps it key-unique. */
  lemma PutUnique(target: Fields, k: string, v: Value)
    requires UniqueKeys(target)
    ensures UniqueKeys(Put(target, k, v))
  {
    var next := Put(target, k, v);
    forall a, b | 0 <= a < b < |next|
      ensures next[a].0 != next[b].0
    {
      assert Keys(next)[a] == next[a].0 && Keys(next)[b] == next[b].0;
      if k in Keys(target) {
        assert Keys(target)[a] == target[a].0 && Keys(target)[b] == target[b].0;
      } else if b < |target| {
        assert Keys(target)[a] == target[a].0 && Keys(target)[b] == target[b].0;
      } else {
        assert Keys(target)[a] == target[a].0;
      }
    }
  }

  /** Assignment keeps the target's keys first, in their order, and adds the new ones after. */
  lemma AssignKeys(target: Fields, source: Fields)
    ensures |Assign(target, source)| >= |target|
    ensures Keys(Assign(target, source))[..|target|] == Keys(target)
    ensures forall k :: k in Keys(Assign(target, source)) <==> k in Keys(target) || k in Keys(source)
  {
    AssignPrefix(target, source);
    AssignMembers(target, source);
    var r := Assign(target, source);
    assert forall i :: 0 <= i < |target| ==> Keys(r)[..|target|][i] == Keys(target)[i];
  }

  /** Assignment leaves the name at every position of the target in place. */
  lemma {:induction false} AssignPrefix(target: Fields, source: Fields)
    ensures |Assign(target, source)| >= |target|
    ensures forall i :: 0 <= i < |target| ==> Assign(target, source)[i].0 == target[i].0
    decreases |source|
  {
    if |source| > 0 {
      var next := Put(target, source[0].0, source[0].1);
      PutPrefix(target, source[0].0, source[0].1);
      AssignPrefix(next, source[1..]);
    }
  }

  lemma PutPrefix(fs: Fields, k: string, v: Value)
    ensures |Put(fs, k, v)| >= |fs|
    ensures forall i :: 0 <= i < |fs| ==> Put(fs, k, v)[i].0 == fs[i].0
  {
    var r := Put(fs, k, v);
    forall i | 0 <= i < |fs|
      ensures r[i].0 == fs[i].0
    {
      assert Keys(r)[i] == Keys(fs)[i] by {
        if k !in Keys(fs) {
          assert Keys(r) == Keys(fs) + [k];
        }
      }
    }
  }

  /** After an assignment the object has the keys of both sides. */
  lemma {:induction false} AssignMembers(target: Fields, source: Fields)
    ensures forall k :: k in Keys(Assign(target, source)) <==> k in Keys(target) || k in Keys(source)
    decreases |source|
  {
    if |source| > 0 {
      var next := Put(target, source[0].0, source[0].1);
      assert forall k :: k in Keys(next) <==> k in Keys(target) || k == source[0].0;
      KeysCons(source);
      AssignMembers(next, source[1..]);
    }
  }

  /** Assignment into a key-unique object keeps it key-unique. */
  lemma {:induction false} AssignUnique(target: Fields, source: Fields)
    requires UniqueKeys(target)
    ensures UniqueKeys(Assign(target, source))
    decreases |source|
  {
    if |source| > 0 {
      PutUnique(target, source[0].0, source[0].1);
      AssignUnique(Put(target, source[0].0, source[0].1), source[1..]);
    }
  }

  /** An assignment into an empty object copies a key-unique list unchanged. */
  lemma {:induction false} AssignEmpty(prefix: Fields, source: Fields)
    requires UniqueKeys(prefix + source)
    ensures Assign(prefix, source) == prefix + source
    decreases |source|
  {
    if |source| > 0 {
      var k := source[0].0;
      assert k !in Keys(prefix) by {
        forall x | 0 <= x < |prefix|
          ensures prefix[x].0 != k
        {
          assert (prefix + source)[x] == prefix[x];
          assert (prefix + source)[|prefix|] == source[0];
        }
      }
      assert Put(prefix, k, source[0].1) == prefix + [source[0]];
      assert (prefix + [source[0]]) + source[1..] == prefix + source;
      AssignEmpty(prefix + [source[0]], source[1..]);
    } else {
      assert prefix + source == prefix;
    }
  }

  /**
   * The splice of an included document into the object that included it:
   * `Object.entries({...loaded, ...local}).forEach(([k, v]) => { local[k] = v })`.
   */
  function Splice(local: Fields, loaded: Fields): Fields
  {
    Assign(local, Assign(Assign([], loaded), local))
  }

  /**
   * Local keys win: every key the including object had keeps its value and
   * its position, keys only in the included document are added with the
   * included value, and the top level is the only level merged.
   */
  lemma SpliceSpec(local: Fields, loaded: Fields)
    requires UniqueKeys(local) && UniqueKeys(loaded)
    ensures UniqueKeys(Splice(local, loaded))
    ensures |Splice(local, loaded)| >= |local|
    ensures Keys(Splice(local, loaded))[..|local|] == Keys(local)
    ensures forall k :: k in Keys(Splice(local, loaded)) <==> k in Keys(local) || k in Keys(loaded)
    ensures forall k :: k in Keys(local) ==> Lookup(Splice(local, loaded), k) == Lookup(local, k)
    ensures forall k :: k !in Keys(local) ==> Lookup(Splice(local, loaded), k) == Lookup(loaded, k)
  {
    var copy := Assign([], loaded);
    AssignKeys([], loaded);
    AssignUnique([], loaded);
    var resolved := Assign(copy, local);
    AssignKeys(copy, local);
    AssignUnique(copy, local);
    AssignKeys(local, resolved);
    AssignUnique(local, resolved);
    var r := Splice(local, loaded);
    forall k
      ensures Lookup(r, k) == (if k in Keys(local) then Lookup(local, k) else Lookup(loaded, k))
    {
      AssignLookup([], loaded, k);
      AssignLookup(copy, local, k);
      AssignLookup(local, resolved, k);
    }
  }

  /** `{...v}`: the own enumerable properties of `v` as a fresh object. */
  function Spread(v: Value): Fields
  {
    match v
    case Obj(fs) => Assign([], fs)
    case Arr(items) => seq(|items|, i requires 0 <= i < |items| => (NatToString(i), items[i]))
    case Str(s) => seq(|s|, i requires 0 <= i < |s| => (NatToString(i), Str([s[i]])))
    case _ => []
  }

  /** Spreading never produces a key twice: object spread is a fold of assignments, index keys are distinct numbers. */
  lemma SpreadUnique(v: Value)
    ensures UniqueKeys(Spread(v))
  {
    match v
    case Obj(fs) =>
      AssignUnique([], fs);
    case Arr(items) =>
      forall i, j | 0 <= i < j < |items|
        ensures Spread(v)[i].0 != Spread(v)[j].0
      {
        if NatToString(i) == NatToString(j) {
          NatToStringInjective(i, j);
        }
      }
    case Str(s) =>
      forall i, j | 0 <= i < j < |s|
        ensures Spread(v)[i].0 != Spread(v)[j].0
      {
        if NatToString(i) == NatToString(j) {
          NatToStringInjective(i, j);
        }
      }
    case _ =>
  }

  /** The spread of an object with distinct keys is that object, field for field. */
  lemma SpreadObject(fs: Fields)
    requires UniqueKeys(fs)
    ensures Spread(Obj(fs)) == fs
  {
    assert [] + fs == fs;
    AssignEmpty([], fs);
  }

  /** A named property `v.name`: an object's field, `undefined` on anything else. */
  function Property(v: Value, name: string): (r: Value)
    ensures v.Obj? && name in Keys(v.fields) ==> Some(r) == Lookup(v.fields, name)
    ensures !v.Obj? || name !in Keys(v.fields) ==> r == Undefined
  {
    if v.Obj? then Lookup(v.fields, name).GetOr(Undefined) else Undefined
  }

  /** `{...a, ...b}`: the fields of `b` assigned over those of `a`. */
  function Merge(a: Value, b: Value): Fields
  {
    Assign(Spread(a), Spread(b))
  }

  /** In `{...a, ...b}` a key of `b` takes its value from `b`, any other key its value from `a`. */
  lemma MergeLookup(a: Value, b: Value, k: string)
    ensures UniqueKeys(Merge(a, b))
    ensures Lookup(Merge(a, b), k) == if k in Keys(Spread(b)) then Lookup(Spread(b), k) else Lookup(Spread(a), k)
    ensures k in Keys(Merge(a, b)) <==> k in Keys(Spread(a)) || k in Keys(Spread(b))
  {
    SpreadUnique(a);
    SpreadUnique(b);
    AssignLookup(Spread(a), Spread(b), k);
    AssignKeys(Spread(a), Spread(b));
    AssignUnique(Spread(a), Spread(b));
  }

  /** `Object.keys(v || {})`, as the locations of the children. */
  function KeysOf(v: Value): (ks: seq<Seg>)
    ensures v.Obj? ==> |ks| == |v.fields| && forall i :: 0 <= i < |ks| ==> ks[i] == Key(v.fields[i].0)
    ensures v.Arr? ==> |ks| == |v.items| && forall i :: 0 <= i < |ks| ==> ks[i] == Index(i)
    ensures !v.Obj? && !v.Arr? && !v.Str? ==> ks == []
  {
    match v
    case Obj(fs) => seq(|fs|, i requires 0 <= i < |fs| => Key(fs[i].0))
    case Arr(items) => seq(|items|, i requires 0 <= i < |items| => Index(i))
    case Str(s) => seq(|s|, i requires 0 <= i < |s| => Index(i))
    case _ => []
  }

  /** `v[k]` for a child of an object or array: the nodes a location can pass through. */
  function Child(v: Value, k: Seg): Option<Value>
  {
    match (v, k)
    case (Obj(fs), Key(name)) => Lookup(fs, name)
    case (Arr(items), Index(i)) => if i < |items| then Some(items[i]) else None
    case _ => None
  }

  /** `v[k]` for any key `Object.keys` can list, including a character of a string. */
  function Read(v: Value, k: Seg): Option<Value>
  {
    match (v, k)
    case (Str(s), Index(i)) => if i < |s| then Some(Str([s[i]])) else None
    case _ => Child(v, k)
  }

  /** The node at a location, if there is one. */
  function Get(v: Value, path: seq<Seg>): Option<Value>
    decreases |path|
  {
    if |path| == 0 then Some(v)
    else match Child(v, path[0])
      case None => None
      case Some(c) => Get(c, path[1..])
  }

  /** Replaces the node at a location of an object or array; anywhere else nothing changes. */
  function SetAt(v: Value, path: seq<Seg>, w: Value): Value
    decreases |path|
  {
    if |path| == 0 then w
    else match (v, path[0])
      case (Obj(fs), Key(name)) =>
        var i := IndexOf(fs, name);
        if i < |fs| then Obj(fs[i := (name, SetAt(fs[i].1, path[1..], w))]) else v
      case (Arr(items), Index(i)) =>
        if i < |items| then Arr(items[i := SetAt(items[i], path[1..], w)]) else v
      case _ => v
  }

  /** Replacing a field's value in place leaves every key where it was. */
  lemma ReplaceKeepsPositions(fs: Fields, i: nat, x: Value)
    requires i < |fs|
    ensures forall n :: IndexOf(fs[i := (fs[i].0, x)], n) == IndexOf(fs, n)
  {
    var fs' := fs[i := (fs[i].0, x)];
    assert Keys(fs') == Keys(fs);
    forall n
      ensures IndexOf(fs', n) == IndexOf(fs, n)
    {
      IndexOfSameKeys(fs', fs, n);
    }
  }

  /** Replacing the value of the first field named `k` changes what `k` reads and nothing else. */
  lemma ReplaceLookup(fs: Fields, k: string, x: Value)
    requires IndexOf(fs, k) < |fs|
    ensures var i := IndexOf(fs, k); var fs' := fs[i := (k, x)];
      && Lookup(fs', k) == Some(x)
      && forall j :: j != k ==> Lookup(fs', j) == Lookup(fs, j)
  {
    var i := IndexOf(fs, k);
    ReplaceKeepsPositions(fs, i, x);
  }

  /** One step of a replacement: the child on the path is replaced, its siblings are not. */
  lemma ChildSetAt(v: Value, path: seq<Seg>, w: Value)
    requires |path| > 0
    ensures Child(SetAt(v, path, w), path[0]) ==
            (if Child(v, path[0]).Some? then Some(SetAt(Child(v, path[0]).value, path[1..], w)) else None)
    ensures forall k :: k != path[0] ==> Child(SetAt(v, path, w), k) == Child(v, k)
  {
    match (v, path[0]) {
      case (Obj(fs), Key(name)) =>
        if IndexOf(fs, name) < |fs| {
          ReplaceLookup(fs, name, SetAt(fs[IndexOf(fs, name)].1, path[1..], w));
        }
      case (Arr(items), Index(i)) =>
      case _ =>
    }
  }

  /** After a replacement the location holds the new node. */
  lemma {:induction false} GetSetAt(v: Value, path: seq<Seg>, w: Value)
    requires Get(v, path).Some?
    ensures Get(SetAt(v, path, w), path) == Some(w)
    decreases |path|
  {
    if |path| > 0 {
      ChildSetAt(v, path, w);
      GetSetAt(Child(v, path[0]).value, path[1..], w);
    }
  }

  /** Reading one step further than a location reads a child of the node there. */
  lemma {:induction false} GetAppend(v: Value, path: seq<Seg>, k: Seg)
    ensures Get(v, path + [k]) == (if Get(v, path).Some? then Child(Get(v, path).value, k) else None)
    decreases |path|
  {
    if |path| == 0 {
      assert path + [k] == [k];
      assert [k][1..] == [];
    } else {
      assert (path + [k])[0] == path[0];
      assert (path + [k])[1..] == path[1..] + [k];
      if Child(v, path[0]).Some? {
        GetAppend(Child(v, path[0]).value, path[1..], k);
      }
    }
  }

  /** Two locations that part ways at some step. */
  predicate Diverge(p: seq<Seg>, q: seq<Seg>)
  {
    exists i :: 0 <= i < |p| && i < |q| && p[i] != q[i]
  }

  /** A replacement leaves every location that diverges from it untouched. */
  lemma {:induction false} GetSetAtOther(v: Value, p: seq<Seg>, q: seq<Seg>, w: Value)
    requires Diverge(p, q)
    ensures Get(SetAt(v, p, w), q) == Get(v, q)
    decreases |p|
  {
    var d :| 0 <= d < |p| && d < |q| && p[d] != q[d];
    ChildSetAt(v, p, w);
    if q[0] == p[0] && Child(v, p[0]).Some? {
      assert d > 0;
      assert p[1..][d - 1] != q[1..][d - 1];
      GetSetAtOther(Child(v, p[0]).value, p[1..], q[1..], w);
    }
  }

  /** A tree with every scalar forgotten: what a rewrite of leaves must preserve. */
  function Shape(v: Value): Value
  {
    match v
    case Obj(fs) => Obj(seq(|fs|, i requires 0 <= i < |fs| => (fs[i].0, Shape(fs[i].1))))
    case Arr(items) => Arr(seq(|items|, i requires 0 <= i < |items| => Shape(items[i])))
    case _ => Null
  }

  predicate IsScalar(v: Value)
  {
    !v.Obj? && !v.Arr?
  }

  /** Replacing a scalar leaf by a scalar keeps the shape of the whole tree. */
  lemma {:induction false} SetLeafKeepsShape(v: Value, path: seq<Seg>, w: Value)
    requires IsScalar(w)
    requires Get(v, path).Some? ==> IsScalar(Get(v, path).value)
    ensures Shape(SetAt(v, path, w)) == Shape(v)
    decreases |path|
  {
    if |path| > 0 {
      match (v, path[0]) {
        case (Obj(fs), Key(name)) =>
          var i := IndexOf(fs, name);
          if i < |fs| {
            SetLeafKeepsShape(fs[i].1, path[1..], w);
            ShapeReplaceField(fs, i, SetAt(fs[i].1, path[1..], w));
          }
        case (Arr(items), Index(i)) =>
          if i < |items| {
            SetLeafKeepsShape(items[i], path[1..], w);
            ShapeReplaceItem(items, i, SetAt(items[i], path[1..], w));
          }
        case _ =>
      }
    } else {
      assert Get(v, path) == Some(v);
    }
  }

  lemma ShapeReplaceField(fs: Fields, i: nat, x: Value)
    requires i < |fs| && Shape(x) == Shape(fs[i].1)
    ensures Shape(Obj(fs[i := (fs[i].0, x)])) == Shape(Obj(fs))
  {
    var fs' := fs[i := (fs[i].0, x)];
    assert Shape(Obj(fs')).fields == Shape(Obj(fs)).fields by {
      forall j | 0 <= j < |fs|
        ensures Shape(Obj(fs')).fields[j] == Shape(Obj(fs)).fields[j]
      {
      }
    }
  }

  lemma ShapeReplaceItem(items: seq<Value>, i: nat, x: Value)
    requires i < |items| && Shape(x) == Shape(items[i])
    ensures Shape(Arr(items[i := x])) == Shape(Arr(items))
  {
    assert Shape(Arr(items[i := x])).items == Shape(Arr(items)).items by {
      forall j | 0 <= j < |items|
        ensures Shape(Arr(items[i := x])).items[j] == Shape(Arr(items)).items[j]
      {
      }
    }
  }

  /** Where a merged key came from: the defining file and the key inside it. */
  datatype Entry = Entry(file: string, key: string)

  /** The provenance index, from dotted merged key to its origin. */
  type Index = map<string, Entry>

  /** The dotted form of a key path, `a.b.c`, as the index spells it. */
  function Dotted(path: seq<string>): string
  {
    Join(path, '.')
  }
}

=== FILE: legacy.dfy ===
/**
 * The legacy configuration system: application settings kept in the `.aio`
 * file (`app` and `cna`), a top-level `manifest.yml`, and hook scripts in
 * `package.json`. They are folded into an `{application: ...}` tree with an
 * include index of its own, and merged under the tree the include resolver
 * builds from `app.config.yaml`.
 */
module Legacy {
  import opened Results
  import opened Strings
  import opened ConfigTree
  import opened Resolver

  const ApplicationKey: string := "application"
  const AioFile: string := ".aio"
  const ManifestFile: string := "manifest.yml"
  const PackageFile: string := "package.json"
  /** Where the legacy manifest sits in the merged configuration. */
  const ManifestBase: string := "application.runtimeManifest"
  /** Where the legacy hooks sit in the merged configuration. */
  const HooksBase: string := "application.hooks"

  /** The only `package.json` scripts that are read as application hooks. */
  const HookKeys: seq<string> := [
    "pre-app-build", "post-app-build", "build-actions", "build-static",
    "pre-app-deploy", "post-app-deploy", "deploy-actions", "deploy-static",
    "pre-app-undeploy", "post-app-undeploy", "undeploy-actions", "undeploy-static",
    "pre-app-run", "post-app-run", "serve-static"
  ]

  /** `Object.keys` of a `null` or `undefined` manifest throws a TypeError. */
  datatype LegacyError = ManifestIsNothing

  datatype Loaded = Loaded(config: Value, index: Index)

  /**
   * Index entries for a list of names: `prefix + n` comes from `file` under
   * the key `keyPrefix + n`.
   */
  function NamedEntries(names: seq<string>, prefix: string, file: string, keyPrefix: string): (idx: Index)
    ensures forall n :: n in names ==> prefix + n in idx && idx[prefix + n] == Entry(file, keyPrefix + n)
    ensures forall k :: k in idx ==> exists n :: n in names && k == prefix + n && idx[k] == Entry(file, keyPrefix + n)
  {
    assert forall a, b :: prefix + a == prefix + b ==> a == b by {
      forall a, b ensures prefix + a == prefix + b ==> a == b {
        PrefixCancel(prefix, a, b);
      }
    }
    map n | n in names :: prefix + n := Entry(file, keyPrefix + n)
  }

  lemma PrefixCancel(p: string, a: string, b: string)
    ensures p + a == p + b ==> a == b
  {
    assert (p + a)[|p|..] == a && (p + b)[|p|..] == b;
  }

  /** Every key of a list of names starts with the prefix. */
  lemma NamedEntriesKey(names: seq<string>, prefix: string, file: string, keyPrefix: string, k: string)
    requires k in NamedEntries(names, prefix, file, keyPrefix)
    ensures HasPrefix(k, prefix)
  {
    var n :| n in names && k == prefix + n;
    assert k[..|prefix|] == prefix;
  }

  // 1. `.aio` app and cna settings

  /** The `.aio` file holds legacy application settings. */
  predicate HasAioApp(aio: Value)
  {
    Property(aio, "cna") != Undefined || Property(aio, "app") != Undefined
  }

  /** `{...aio.app, ...aio.cna}` when either is set, nothing otherwise. */
  function AioFields(aio: Value): Fields
  {
    if HasAioApp(aio) then Merge(Property(aio, "app"), Property(aio, "cna")) else []
  }

  /** Every `.aio` setting `k` is indexed as `application.k`, from `.aio` under `app.k`. */
  function AioIndex(aio: Value): Index
  {
    NamedEntries(Keys(AioFields(aio)), ApplicationKey + ".", AioFile, "app.")
  }

  // 2. the legacy manifest

  /** How many keys `Object.keys` lists for a node. */
  function Width(v: Value): nat
  {
    match v
    case Obj(fs) => |fs|
    case Arr(items) => |items|
    case Str(s) => |s|
    case _ => 0
  }

  /** The `i`-th key `Object.keys` lists for a node: a field name or an index. */
  function NameAt(v: Value, i: nat): string
    requires i < Width(v)
  {
    if v.Obj? then v.fields[i].0 else NatToString(i)
  }

  /** The node under the `i`-th key, when it is one the manifest walk descends from. */
  function ChildAt(v: Value, i: nat): (c: Value)
    requires i < Width(v)
    ensures v.Obj? ==> c == v.fields[i].1
    ensures v.Arr? ==> c == v.items[i]
    ensures !v.Obj? && !v.Arr? ==> c == Undefined
  {
    if v.Obj? then v.fields[i].1 else if v.Arr? then v.items[i] else Undefined
  }

  /** `typeof c === 'object' && c !== null`. */
  predicate Descends(c: Value)
  {
    c.Obj? || c.Arr?
  }

  /**
   * The entries for the children of `v` from position `i` on, and for
   * everything below them: `fullKey.k` of the manifest is indexed as
   * `base.fullKey.k`, where `base` is `application.runtimeManifest`. Only objects and arrays are
   * descended into; the characters of a top-level string are listed, as
   * `Object.keys` does. A parsed object has distinct keys, so the value of
   * its `i`-th key is its `i`-th field. The value of every entry is fixed by
   * its key, so the order in which the work-list writes them does not matter.
   */
  function Below(v: Value, base: string, fullKey: string, i: nat): Index
    decreases v, Width(v) - i
  {
    if i >= Width(v) then map[]
    else
      var key := fullKey + "." + NameAt(v, i);
      var child := ChildAt(v, i);
      var deeper := if Descends(child) then Below(child, base, key, 0) else map[];
      map[base + key := Entry(ManifestFile, key[1..])] + deeper + Below(v, base, fullKey, i + 1)
  }

  /** `k` starts with `p`. */
  predicate HasPrefix(k: string, p: string)
  {
    |p| <= |k| && k[..|p|] == p
  }

  lemma PrefixOfPrefix(k: string, p: string, q: string)
    requires HasPrefix(k, p + q)
    ensures HasPrefix(k, p)
  {
    assert k[..|p|] == k[..|p + q|][..|p|];
  }

  /**
   * Every entry below a node is keyed by the node's own key followed by at
   * least one more segment, and names that key, without its leading dot,
   * as its key in the manifest.
   */
  lemma {:induction false} BelowKey(v: Value, base: string, fullKey: string, i: nat, k: string)
    requires k in Below(v, base, fullKey, i)
    ensures HasPrefix(k, base + fullKey + ".")
    ensures Below(v, base, fullKey, i)[k] == Entry(ManifestFile, k[|base| + 1..])
    decreases v, Width(v) - i
  {
    var name := NameAt(v, i);
    var key := fullKey + "." + name;
    var child := ChildAt(v, i);
    BelowAt(v, base, fullKey, i, k);
    if k in Below(v, base, fullKey, i + 1) && Below(v, base, fullKey, i)[k] == Below(v, base, fullKey, i + 1)[k] {
      BelowKey(v, base, fullKey, i + 1, k);
    } else if Descends(child) && k in Below(child, base, key, 0) && Below(v, base, fullKey, i)[k] == Below(child, base, key, 0)[k] {
      BelowKey(child, base, key, 0, k);
      ChildKeyPrefix(k, base, fullKey, name);
    } else {
      OwnKeyPrefix(base, fullKey, name);
    }
  }

  /** A key below child `name` is also below its parent. */
  lemma ChildKeyPrefix(k: string, base: string, fullKey: string, name: string)
    requires HasPrefix(k, base + (fullKey + "." + name) + ".")
    ensures HasPrefix(k, base + fullKey + ".")
  {
    assert base + (fullKey + "." + name) + "." == (base + fullKey + ".") + (name + ".");
    PrefixOfPrefix(k, base + fullKey + ".", name + ".");
  }

  /** The key of child `name` extends its parent's key, and drops `base` and a dot to give the manifest key. */
  lemma OwnKeyPrefix(base: string, fullKey: string, name: string)
    ensures var k := base + (fullKey + "." + name);
      HasPrefix(k, base + fullKey + ".") && k[|base| + 1..] == (fullKey + "." + name)[1..]
  {
    var k := base + (fullKey + "." + name);
    assert k == (base + fullKey + ".") + name;
  }

  /** Where an entry of the walk from position `i` comes from: a later position, a child, or key `i` itself. */
  lemma BelowAt(v: Value, base: string, fullKey: string, i: nat, k: string)
    requires k in Below(v, base, fullKey, i)
    ensures i < Width(v)
    ensures var key, child := fullKey + "." + NameAt(v, i), ChildAt(v, i);
      || (k in Below(v, base, fullKey, i + 1) && Below(v, base, fullKey, i)[k] == Below(v, base, fullKey, i + 1)[k])
      || (Descends(child) && k in Below(child, base, key, 0) && Below(v, base, fullKey, i)[k] == Below(child, base, key, 0)[k])
      || (k == base + key && Below(v, base, fullKey, i)[k] == Entry(ManifestFile, key[1..]))
  {
  }

  /** A position path: a key position at each level, through objects and arrays only. */
  ghost predicate PathIn(v: Value, p: seq<nat>)
    decreases |p|
  {
    |p| > 0 && p[0] < Width(v) && (|p| == 1 || (Descends(ChildAt(v, p[0])) && PathIn(ChildAt(v, p[0]), p[1..])))
  }

  /** The dotted key of a position path, each segment preceded by a dot. */
  function DottedAt(v: Value, p: seq<nat>): string
    requires PathIn(v, p)
    decreases |p|
  {
    "." + NameAt(v, p[0]) + (if |p| == 1 then "" else DottedAt(ChildAt(v, p[0]), p[1..]))
  }

  /** The walk reaches every nested key from position `i` on. */
  lemma {:induction false} BelowCovers(v: Value, base: string, fullKey: string, i: nat, p: seq<nat>)
    requires PathIn(v, p) && i <= p[0]
    ensures base + fullKey + DottedAt(v, p) in Below(v, base, fullKey, i)
    decreases v, Width(v) - i
  {
    if i < p[0] {
      BelowCovers(v, base, fullKey, i + 1, p);
      BelowStep(v, base, fullKey, i, base + fullKey + DottedAt(v, p));
    } else if |p| == 1 {
      DottedAtLast(v, p);
      BelowCoversOwn(v, base, fullKey, i);
    } else {
      var key := fullKey + "." + NameAt(v, i);
      BelowCovers(ChildAt(v, i), base, key, 0, p[1..]);
      DottedAtNested(v, p, base, fullKey);
      BelowStep(v, base, fullKey, i, base + key + DottedAt(ChildAt(v, i), p[1..]));
    }
  }

  /** The walk from position `i` reaches key `i` itself. */
  lemma BelowCoversOwn(v: Value, base: string, fullKey: string, i: nat)
    requires i < Width(v)
    ensures base + fullKey + ("." + NameAt(v, i)) in Below(v, base, fullKey, i)
  {
    var name := NameAt(v, i);
    assert base + fullKey + ("." + name) == base + (fullKey + "." + name);
    BelowStep(v, base, fullKey, i, base + (fullKey + "." + name));
  }

  lemma DottedAtLast(v: Value, p: seq<nat>)
    requires PathIn(v, p) && |p| == 1
    ensures DottedAt(v, p) == "." + NameAt(v, p[0])
  {
    assert DottedAt(v, p) == "." + NameAt(v, p[0]) + "";
  }

  lemma DottedAtNested(v: Value, p: seq<nat>, base: string, fullKey: string)
    requires PathIn(v, p) && |p| > 1
    ensures base + fullKey + DottedAt(v, p) ==
      base + (fullKey + "." + NameAt(v, p[0])) + DottedAt(ChildAt(v, p[0]), p[1..])
  {
    var name, rest := NameAt(v, p[0]), DottedAt(ChildAt(v, p[0]), p[1..]);
    assert DottedAt(v, p) == "." + name + rest;
    Regroup(base, fullKey, "." + name, rest);
    assert fullKey + ("." + name) == fullKey + "." + name;
  }

  lemma Regroup(a: string, b: string, c: string, d: string)
    ensures a + b + (c + d) == a + (b + c) + d
  {
  }

  /** An entry of a child, or of something below it, is an entry of the walk. */
  lemma BelowStep(v: Value, base: string, fullKey: string, i: nat, k: string)
    requires i < Width(v)
    ensures var key, child := fullKey + "." + NameAt(v, i), ChildAt(v, i);
      (|| k == base + key
       || (Descends(child) && k in Below(child, base, key, 0))
       || k in Below(v, base, fullKey, i + 1))
      ==> k in Below(v, base, fullKey, i)
  {
  }

  /** The whole manifest indexed: its root under `application.runtimeManifest`, then every nested key. */
  function ManifestIndex(m: Value): (r: Result<Index, LegacyError>)
    ensures r.Err? <==> m.Null? || m.Undefined?
    ensures r.Ok? ==> ManifestBase in r.value && r.value[ManifestBase] == Entry(ManifestFile, "")
  {
    if m.Null? || m.Undefined? then Err(ManifestIsNothing)
    else
      var below := Below(m, ManifestBase, "", 0);
      var idx := map[ManifestBase := Entry(ManifestFile, "")] + below;
      assert ManifestBase !in below by {
        if ManifestBase in below {
          BelowKey(m, ManifestBase, "", 0, ManifestBase);
          assert false;
        }
      }
      Ok(idx)
  }

  // 3. package.json hooks

  /** The names among `names` whose script is truthy, in the order of `names`. */
  function TruthyScripts(scripts: Value, names: seq<string>): (r: seq<string>)
    ensures |r| <= |names|
    decreases |names|
  {
    if |names| == 0 then []
    else
      var rest := TruthyScripts(scripts, names[1..]);
      if Truthy(Property(scripts, names[0])) then [names[0]] + rest else rest
  }

  /** A name is kept exactly when it is listed and its script is truthy. */
  lemma {:induction false} TruthyScriptsMembers(scripts: Value, names: seq<string>, n: string)
    ensures n in TruthyScripts(scripts, names) <==> n in names && Truthy(Property(scripts, n))
    decreases |names|
  {
    if |names| > 0 {
      TruthyScriptsMembers(scripts, names[1..], n);
      assert n in names <==> n == names[0] || n in names[1..];
    }
  }

  /** The hook names read from `package.json`: none unless its `scripts` is truthy. */
  function HookNames(scripts: Value): (r: seq<string>)
    ensures |r| <= |HookKeys|
    ensures !Truthy(scripts) ==> r == []
  {
    if Truthy(scripts) then TruthyScripts(scripts, HookKeys) else []
  }

  /** A hook is read exactly when `scripts` is truthy, the name is a hook key and its script is truthy. */
  lemma HookNamesMembers(scripts: Value, n: string)
    ensures n in HookNames(scripts) <==> Truthy(scripts) && n in HookKeys && Truthy(Property(scripts, n))
  {
    if Truthy(scripts) {
      TruthyScriptsMembers(scripts, HookKeys, n);
    }
  }

  /** The hooks object: each hook name with its script. */
  function HooksObject(scripts: Value, names: seq<string>): (r: Fields)
    ensures |r| == |names|
    ensures forall i :: 0 <= i < |r| ==> r[i].0 == names[i] && r[i].1 == Property(scripts, names[i])
  {
    seq(|names|, i requires 0 <= i < |names| => (names[i], Property(scripts, names[i])))
  }

  /** Each hook `h` is indexed from `package.json` under `scripts.h`, and the hooks object under `scripts`. */
  function HooksIndex(names: seq<string>): Index
  {
    if |names| == 0 then map[]
    else map[HooksBase := Entry(PackageFile, "scripts")] + NamedEntries(names, HooksBase + ".", PackageFile, "scripts.")
  }

  // the whole legacy configuration

  /** The legacy `application` object: `.aio` settings, then the manifest, then the hooks. */
  function LegacyApp(aio: Value, manifest: Option<Value>, scripts: Value): Fields
  {
    var app := AioFields(aio);
    var withManifest := if manifest.Some? then Put(app, "runtimeManifest", manifest.value) else app;
    if |HookNames(scripts)| > 0 then Put(withManifest, "hooks", Obj(HooksObject(scripts, HookNames(scripts)))) else withManifest
  }

  /** The manifest's entries, if there is a manifest. */
  function ManifestPart(manifest: Option<Value>): Index
    requires manifest.Some? ==> ManifestIndex(manifest.value).Ok?
  {
    if manifest.Some? then ManifestIndex(manifest.value).value else map[]
  }

  /**
   * The entries of the three legacy sources, in the order they are written,
   * and the top `application` entry once any entry exists.
   */
  function Compose(aioIndex: Index, manifestIndex: Index, hooksIndex: Index): Index
  {
    var sources := aioIndex + manifestIndex + hooksIndex;
    if sources != map[] then sources[ApplicationKey := Entry(AioFile, "app")] else sources
  }

  /** The legacy include index. */
  function LegacyIndex(aio: Value, manifest: Option<Value>, scripts: Value): Index
    requires manifest.Some? ==> ManifestIndex(manifest.value).Ok?
  {
    Compose(AioIndex(aio), ManifestPart(manifest), HooksIndex(HookNames(scripts)))
  }

  /**
   * `loadUserConfigLegacy`: the legacy tree `{application: ...}` and its
   * index. `manifest` is the parsed `manifest.yml` when that file exists,
   * `aio` the `.aio` configuration and `scripts` the `scripts` of
   * `package.json`.
   */
  function LoadLegacy(aio: Value, manifest: Option<Value>, scripts: Value): (r: Result<Loaded, LegacyError>)
    ensures r.Err? <==> manifest.Some? && (manifest.value.Null? || manifest.value.Undefined?)
    ensures r.Ok? ==> r.value.index == LegacyIndex(aio, manifest, scripts)
    ensures r.Ok? ==> Property(r.value.config, ApplicationKey) == Obj(LegacyApp(aio, manifest, scripts))
  {
    if manifest.Some? && ManifestIndex(manifest.value).Err? then Err(ManifestIsNothing)
    else
      Ok(Loaded(Obj([(ApplicationKey, Obj(LegacyApp(aio, manifest, scripts)))]), LegacyIndex(aio, manifest, scripts)))
  }

  // merging with the new configuration

  /** Both applications are set and both have hooks: only then are the hooks merged. */
  predicate BothHooks(legacyApp: Value, userApp: Value)
  {
    Truthy(legacyApp) && Truthy(userApp) && Truthy(Property(legacyApp, "hooks")) && Truthy(Property(userApp, "hooks"))
  }

  /** The one-level merge of the legacy and new `application` objects. */
  function MergedApp(legacyApp: Value, userApp: Value): Fields
  {
    var merged := Merge(legacyApp, userApp);
    if BothHooks(legacyApp, userApp)
    then Put(merged, "hooks", Obj(Merge(Property(legacyApp, "hooks"), Property(userApp, "hooks"))))
    else merged
  }

  /**
   * `mergeLegacyUserConfig`: the new configuration with its `application`
   * replaced by the merge of the legacy and new applications. Reading
   * `application` of a `null` or `undefined` new configuration, which an
   * empty `app.config.yaml` gives, is a `TypeError`.
   */
  function MergeLegacy(user: Value, legacy: Value): (r: Result<Value, LoadError>)
    ensures r.Err? <==> user.Null? || user.Undefined?
    ensures r.Err? ==> r.error == UserConfigIsNothing
    ensures r.Ok? ==> r.value.Obj?
    ensures r.Ok? ==>
      Lookup(r.value.fields, ApplicationKey) == Some(Obj(MergedApp(Property(legacy, ApplicationKey), Property(user, ApplicationKey))))
    ensures r.Ok? ==> forall k :: k != ApplicationKey ==> Lookup(r.value.fields, k) == Lookup(Spread(user), k)
  {
    if user.Null? || user.Undefined? then Err(UserConfigIsNothing)
    else Ok(Obj(Put(Spread(user), ApplicationKey, Obj(MergedApp(Property(legacy, ApplicationKey), Property(user, ApplicationKey))))))
  }

  /** The file the new configuration system starts from. */
  const UserConfigFile: string := "app.config.yaml"

  /** A legacy failure, an include failure, or a new configuration that is `null` or `undefined`. */
  datatype LoadError =
    | LegacyFailed(legacyError: LegacyError)
    | IncludeFailed(includeError: Error)
    | UserConfigIsNothing

  /**
   * `loadUserConfig`: the legacy configuration, then the new one with its
   * includes resolved to absolute paths, merged; in the merged index the new
   * entries take precedence.
   */
  function LoadUserConfig(aio: Value, manifest: Option<Value>, scripts: Value, docs: Docs, cwd: string, fuel: nat)
    : (r: Result<Coalesced, LoadError>)
    ensures LoadLegacy(aio, manifest, scripts).Err? ==> r == Err(LegacyFailed(LoadLegacy(aio, manifest, scripts).error))
    ensures LoadLegacy(aio, manifest, scripts).Ok? && Coalesce(UserConfigFile, docs, true, cwd, fuel).Err? ==>
      r == Err(IncludeFailed(Coalesce(UserConfigFile, docs, true, cwd, fuel).error))
    ensures LoadLegacy(aio, manifest, scripts).Ok? && Coalesce(UserConfigFile, docs, true, cwd, fuel).Ok? ==>
      var config := Coalesce(UserConfigFile, docs, true, cwd, fuel).value.config;
      (config.Null? || config.Undefined?) <==> r == Err(UserConfigIsNothing)
    ensures r.Ok? <==>
      && LoadLegacy(aio, manifest, scripts).Ok?
      && Coalesce(UserConfigFile, docs, true, cwd, fuel).Ok?
      && !Coalesce(UserConfigFile, docs, true, cwd, fuel).value.config.Null?
      && !Coalesce(UserConfigFile, docs, true, cwd, fuel).value.config.Undefined?
    ensures r.Ok? ==>
      var legacy := LoadLegacy(aio, manifest, scripts).value;
      var coalesced := Coalesce(UserConfigFile, docs, true, cwd, fuel).value;
      && r.value.config == MergeLegacy(coalesced.config, legacy.config).value
      && (forall k :: k in r.value.index <==> k in legacy.index || k in coalesced.index)
      && (forall k :: k in coalesced.index ==> r.value.index[k] == coalesced.index[k])
      && (forall k :: k in legacy.index && k !in coalesced.index ==> r.value.index[k] == legacy.index[k])
  {
    match LoadLegacy(aio, manifest, scripts)
    case Err(e) => Err(LegacyFailed(e))
    case Ok(legacy) =>
      match Coalesce(UserConfigFile, docs, true, cwd, fuel)
      case Err(e) => Err(IncludeFailed(e))
      case Ok(coalesced) =>
        var config :- MergeLegacy(coalesced.config, legacy.config);
        Ok(Coalesced(config, legacy.index + coalesced.index))
  }
}

=== FILE: legacy_proofs.dfy ===
/**
 * What the legacy adapter promises: `.aio.cna` over `.aio.app`, a closed set
 * of hooks, a manifest indexed at every nested key, the top `application`
 * entry exactly when something legacy exists, and new-format fields winning
 * in the merge.
 */
module LegacyProofs {
  import opened Results
  import opened ConfigTree
  import opened Resolver
  import opened Legacy

  /** A list of names gives index entries exactly when it is not empty. */
  lemma NamedEntriesEmpty(names: seq<string>, prefix: string, file: string, keyPrefix: string)
    ensures NamedEntries(names, prefix, file, keyPrefix) != map[] <==> |names| > 0
  {
    var idx := NamedEntries(names, prefix, file, keyPrefix);
    if |names| > 0 {
      assert prefix + names[0] in idx;
    }
    if idx != map[] {
      var k :| k in idx;
      var n :| n in names && k == prefix + n;
    }
  }

  /** Below the top entry, a later source overrides an earlier one. */
  lemma ComposeAt(a: Index, m: Index, h: Index, k: string)
    requires k != ApplicationKey
    ensures k in Compose(a, m, h) <==> k in a || k in m || k in h
    ensures k in h ==> Compose(a, m, h)[k] == h[k]
    ensures k !in h && k in m ==> Compose(a, m, h)[k] == m[k]
    ensures k !in h && k !in m && k in a ==> Compose(a, m, h)[k] == a[k]
  {
  }

  /** The top entry is added exactly when some source wrote an entry. */
  lemma ComposeApplication(a: Index, m: Index, h: Index)
    requires ApplicationKey !in a && ApplicationKey !in m && ApplicationKey !in h
    ensures ApplicationKey in Compose(a, m, h) <==> a != map[] || m != map[] || h != map[]
    ensures ApplicationKey in Compose(a, m, h) ==> Compose(a, m, h)[ApplicationKey] == Entry(AioFile, "app")
  {
    var sources := a + m + h;
    if a != map[] {
      var k :| k in a;
      assert k in sources;
    } else if m != map[] {
      var k :| k in m;
      assert k in sources;
    } else if h != map[] {
      var k :| k in h;
      assert k in sources;
    } else {
      assert a == map[] && m == map[] && h == map[];
      assert sources == map[];
    }
  }

  /** Each `.aio` key sits below `application.`. */
  lemma AioKey(aio: Value, k: string)
    requires k in AioIndex(aio)
    ensures HasPrefix(k, ApplicationKey + ".")
  {
    NamedEntriesKey(Keys(AioFields(aio)), ApplicationKey + ".", AioFile, "app.", k);
  }

  /** The manifest keys are its root key and keys below it. */
  lemma ManifestKey(manifest: Option<Value>, k: string)
    requires manifest.Some? ==> ManifestIndex(manifest.value).Ok?
    requires k in ManifestPart(manifest)
    ensures k == ManifestBase || HasPrefix(k, ManifestBase + ".")
  {
    if k != ManifestBase {
      BelowKey(manifest.value, ManifestBase, "", 0, k);
      assert ManifestBase + "" + "." == ManifestBase + ".";
    }
  }

  /** The hook keys are the hooks key and keys below it. */
  lemma HooksKey(names: seq<string>, k: string)
    requires k in HooksIndex(names)
    ensures k == HooksBase || HasPrefix(k, HooksBase + ".")
  {
    if k != HooksBase {
      NamedEntriesKey(names, HooksBase + ".", PackageFile, "scripts.", k);
    }
  }

  /** Each source writes an entry exactly when it holds something. */
  lemma PartSizes(aio: Value, manifest: Option<Value>, names: seq<string>)
    requires manifest.Some? ==> ManifestIndex(manifest.value).Ok?
    ensures AioIndex(aio) != map[] <==> |AioFields(aio)| > 0
    ensures ManifestPart(manifest) != map[] <==> manifest.Some?
    ensures HooksIndex(names) != map[] <==> |names| > 0
  {
    NamedEntriesEmpty(Keys(AioFields(aio)), ApplicationKey + ".", AioFile, "app.");
    ManifestPartSize(manifest);
    HooksPartSize(names);
  }

  lemma ManifestPartSize(manifest: Option<Value>)
    requires manifest.Some? ==> ManifestIndex(manifest.value).Ok?
    ensures ManifestPart(manifest) != map[] <==> manifest.Some?
  {
    if manifest.Some? {
      assert ManifestBase in ManifestPart(manifest);
    }
  }

  lemma HooksPartSize(names: seq<string>)
    ensures HooksIndex(names) != map[] <==> |names| > 0
  {
    if |names| > 0 {
      assert HooksBase in HooksIndex(names);
    }
  }

  /** No source writes the top `application` key itself. */
  lemma NoPartWritesApplication(aio: Value, manifest: Option<Value>, names: seq<string>)
    requires manifest.Some? ==> ManifestIndex(manifest.value).Ok?
    ensures ApplicationKey !in AioIndex(aio)
    ensures ApplicationKey !in ManifestPart(manifest)
    ensures ApplicationKey !in HooksIndex(names)
  {
    if ApplicationKey in AioIndex(aio) {
      AioKey(aio, ApplicationKey);
    }
    if ApplicationKey in ManifestPart(manifest) {
      ManifestKey(manifest, ApplicationKey);
    }
    if ApplicationKey in HooksIndex(names) {
      HooksKey(names, ApplicationKey);
    }
  }

  /**
   * The top-level `application` entry exists exactly when some `.aio`
   * setting, a manifest or a hook was found, and then points at `.aio`.
   */
  lemma ApplicationEntry(aio: Value, manifest: Option<Value>, scripts: Value)
    requires manifest.Some? ==> ManifestIndex(manifest.value).Ok?
    ensures var index := LegacyIndex(aio, manifest, scripts);
      && (ApplicationKey in index <==> |AioFields(aio)| > 0 || manifest.Some? || |HookNames(scripts)| > 0)
      && (ApplicationKey in index ==> index[ApplicationKey] == Entry(AioFile, "app"))
  {
    NoPartWritesApplication(aio, manifest, HookNames(scripts));
    PartSizes(aio, manifest, HookNames(scripts));
    ComposeApplication(AioIndex(aio), ManifestPart(manifest), HooksIndex(HookNames(scripts)));
  }

  /** Hook keys and manifest keys never meet: they part at `hooks` and `runtimeManifest`. */
  lemma HooksAreNotManifest(names: seq<string>, k: string)
    requires k in HooksIndex(names)
    ensures !HasPrefix(k, ManifestBase)
  {
    HooksKey(names, k);
    HooksKeyIsNotManifest(k);
  }

  lemma HooksKeyIsNotManifest(k: string)
    requires k == HooksBase || HasPrefix(k, HooksBase + ".")
    ensures !HasPrefix(k, ManifestBase)
  {
    if k != HooksBase {
      PrefixOfPrefix(k, HooksBase, ".");
    }
    assert k[..|HooksBase|] == HooksBase;
    assert k[12] == HooksBase[12] != ManifestBase[12];
  }

  lemma ManifestBaseIsNotHook(names: seq<string>)
    ensures ManifestBase !in HooksIndex(names)
  {
    if ManifestBase in HooksIndex(names) {
      HooksKey(names, ManifestBase);
      HooksKeyIsNotManifest(ManifestBase);
      assert HasPrefix(ManifestBase, ManifestBase);
    }
  }

  /** The manifest's own entries: its root and every nested key, pointing into `manifest.yml`. */
  lemma ManifestEntry(m: Value, p: seq<nat>)
    requires !m.Null? && !m.Undefined?
    requires PathIn(m, p)
    ensures var part, k := ManifestPart(Some(m)), ManifestBase + DottedAt(m, p);
      && ManifestBase in part && part[ManifestBase] == Entry(ManifestFile, "")
      && k in part && part[k] == Entry(ManifestFile, DottedAt(m, p)[1..])
      && HasPrefix(k, ManifestBase) && k != ApplicationKey
  {
    var d := DottedAt(m, p);
    var k := ManifestBase + d;
    assert ManifestBase + "" + d == k;
    BelowCovers(m, ManifestBase, "", 0, p);
    BelowKey(m, ManifestBase, "", 0, k);
    BelowInManifest(m, k);
    AfterBase(ManifestBase, d);
  }

  /** Below the root, the manifest part holds exactly what the nested entries hold. */
  lemma BelowInManifest(m: Value, k: string)
    requires !m.Null? && !m.Undefined?
    requires k in Below(m, ManifestBase, "", 0)
    ensures k in ManifestPart(Some(m)) && ManifestPart(Some(m))[k] == Below(m, ManifestBase, "", 0)[k]
  {
  }

  lemma AfterBase(base: string, d: string)
    ensures (base + d)[..|base|] == base
    ensures |d| > 0 ==> (base + d)[|base| + 1..] == d[1..]
  {
  }

  /** A legacy manifest is indexed at its root, pointing at the whole of `manifest.yml`. */
  lemma ManifestRootIndexed(aio: Value, m: Value, scripts: Value)
    requires !m.Null? && !m.Undefined?
    ensures var index := LegacyIndex(aio, Some(m), scripts);
      ManifestBase in index && index[ManifestBase] == Entry(ManifestFile, "")
  {
    var part, h := ManifestPart(Some(m)), HooksIndex(HookNames(scripts));
    assert ManifestBase in part && part[ManifestBase] == Entry(ManifestFile, "");
    ManifestBaseIsNotHook(HookNames(scripts));
    ComposeAt(AioIndex(aio), part, h, ManifestBase);
  }

  /**
   * The legacy manifest is indexed at every nested key, each entry pointing
   * into `manifest.yml` at that key.
   */
  lemma ManifestIndexed(aio: Value, m: Value, scripts: Value, p: seq<nat>)
    requires !m.Null? && !m.Undefined?
    requires PathIn(m, p)
    ensures var index := LegacyIndex(aio, Some(m), scripts);
      && ManifestBase + DottedAt(m, p) in index
      && index[ManifestBase + DottedAt(m, p)] == Entry(ManifestFile, DottedAt(m, p)[1..])
  {
    var k := ManifestBase + DottedAt(m, p);
    var h := HooksIndex(HookNames(scripts));
    ManifestEntry(m, p);
    if k in h {
      HooksAreNotManifest(HookNames(scripts), k);
    }
    ComposeAt(AioIndex(aio), ManifestPart(Some(m)), h, k);
  }

  /**
   * Exactly the hook names with a truthy script become hooks, each indexed
   * from `package.json` at `scripts.<name>`, and the hooks object itself at
   * `scripts`.
   */
  lemma HooksIndexed(aio: Value, manifest: Option<Value>, scripts: Value, h: string)
    requires manifest.Some? ==> ManifestIndex(manifest.value).Ok?
    requires Truthy(scripts) && h in HookKeys && Truthy(Property(scripts, h))
    ensures var index := LegacyIndex(aio, manifest, scripts);
      && HooksBase in index && index[HooksBase] == Entry(PackageFile, "scripts")
      && HooksBase + "." + h in index && index[HooksBase + "." + h] == Entry(PackageFile, "scripts." + h)
  {
    var names := HookNames(scripts);
    var a, m, hi := AioIndex(aio), ManifestPart(manifest), HooksIndex(names);
    HookNamesMembers(scripts, h);
    var k := HooksBase + "." + h;
    assert (HooksBase + ".") + h == k;
    assert k in hi && hi[k] == Entry(PackageFile, "scripts." + h);
    ComposeAt(a, m, hi, k);
    ComposeAt(a, m, hi, HooksBase);
  }

  /** Prefixes survive a common head: `a + k` starts with `a + p` exactly when `k` starts with `p`. */
  lemma HeadPrefix(a: string, k: string, p: string)
    ensures HasPrefix(a + k, a + p) <==> HasPrefix(k, p)
  {
    if HasPrefix(a + k, a + p) {
      assert k[..|p|] == (a + k)[..|a + p|][|a|..];
    }
    if HasPrefix(k, p) {
      assert (a + k)[..|a + p|] == a + k[..|p|];
    }
  }

  /** An `.aio` key outside `runtimeManifest` and `hooks` is none of the keys the later sources write. */
  lemma AioKeyApart(k: string)
    requires !HasPrefix(k, "runtimeManifest") && !HasPrefix(k, "hooks")
    ensures var key := ApplicationKey + "." + k;
      && key != ManifestBase && !HasPrefix(key, ManifestBase + ".")
      && key != HooksBase && !HasPrefix(key, HooksBase + ".")
      && key != ApplicationKey
  {
    var head := ApplicationKey + ".";
    var key := ApplicationKey + "." + k;
    assert head + k == key;
    assert ManifestBase == head + "runtimeManifest";
    assert HooksBase == head + "hooks";
    HeadPrefix(head, k, "runtimeManifest");
    HeadPrefix(head, k, "hooks");
    assert HasPrefix(ManifestBase, ManifestBase) && HasPrefix(HooksBase, HooksBase);
    if HasPrefix(key, ManifestBase + ".") {
      PrefixOfPrefix(key, ManifestBase, ".");
    }
    if HasPrefix(key, HooksBase + ".") {
      PrefixOfPrefix(key, HooksBase, ".");
    }
  }

  /**
   * Each `.aio` setting `k` is indexed at `application.k` from `.aio` under
   * `app.k`, unless the manifest or the hooks, whose entries are written
   * later, have an entry for that same key.
   */
  lemma AioIndexed(aio: Value, manifest: Option<Value>, scripts: Value, k: string)
    requires manifest.Some? ==> ManifestIndex(manifest.value).Ok?
    requires k in Keys(AioFields(aio))
    requires ApplicationKey + "." + k !in ManifestPart(manifest)
    requires ApplicationKey + "." + k !in HooksIndex(HookNames(scripts))
    ensures var index := LegacyIndex(aio, manifest, scripts);
      ApplicationKey + "." + k in index && index[ApplicationKey + "." + k] == Entry(AioFile, "app." + k)
  {
    var key := ApplicationKey + "." + k;
    assert (ApplicationKey + ".") + k == key;
    assert |key| > |ApplicationKey|;
    ComposeAt(AioIndex(aio), ManifestPart(manifest), HooksIndex(HookNames(scripts)), key);
  }

  /**
   * A setting whose name starts with neither `runtimeManifest` nor `hooks`
   * has a key that neither the manifest nor the hooks can write.
   */
  lemma AioKeyOutsideLaterParts(manifest: Option<Value>, scripts: Value, k: string)
    requires manifest.Some? ==> ManifestIndex(manifest.value).Ok?
    requires !HasPrefix(k, "runtimeManifest") && !HasPrefix(k, "hooks")
    ensures ApplicationKey + "." + k !in ManifestPart(manifest)
    ensures ApplicationKey + "." + k !in HooksIndex(HookNames(scripts))
  {
    var key := ApplicationKey + "." + k;
    AioKeyApart(k);
    if key in ManifestPart(manifest) {
      ManifestKey(manifest, key);
    }
    if key in HooksIndex(HookNames(scripts)) {
      HooksKey(HookNames(scripts), key);
    }
  }

  /**
   * The legacy application: the manifest under `runtimeManifest`, the hooks
   * object under `hooks`, and every other key from `.aio`, `cna` winning
   * over `app`.
   */
  lemma LegacyAppFields(aio: Value, manifest: Option<Value>, scripts: Value, k: string)
    ensures manifest.Some? ==> Lookup(LegacyApp(aio, manifest, scripts), "runtimeManifest") == Some(manifest.value)
    ensures |HookNames(scripts)| > 0 ==> Lookup(LegacyApp(aio, manifest, scripts), "hooks") == Some(Obj(HooksObject(scripts, HookNames(scripts))))
    ensures (k != "runtimeManifest" || manifest.None?) && (k != "hooks" || |HookNames(scripts)| == 0) ==>
      Lookup(LegacyApp(aio, manifest, scripts), k) ==
        if !HasAioApp(aio) then None
        else if k in Keys(Spread(Property(aio, "cna"))) then Lookup(Spread(Property(aio, "cna")), k)
        else Lookup(Spread(Property(aio, "app")), k)
  {
    MergeLookup(Property(aio, "app"), Property(aio, "cna"), k);
  }

  /**
   * In the merged application a key of the new application keeps the new
   * value and any other key the legacy value; both hooks objects, when
   * present, merge the same way one level down.
   */
  lemma MergedAppLookup(legacyApp: Value, userApp: Value, k: string)
    ensures k != "hooks" || !BothHooks(legacyApp, userApp) ==>
      Lookup(MergedApp(legacyApp, userApp), k) ==
        if k in Keys(Spread(userApp)) then Lookup(Spread(userApp), k) else Lookup(Spread(legacyApp), k)
    ensures k in Keys(MergedApp(legacyApp, userApp)) <==> k in Keys(Spread(legacyApp)) || k in Keys(Spread(userApp))
  {
    var merged := Merge(legacyApp, userApp);
    MergeLookup(legacyApp, userApp, k);
    if BothHooks(legacyApp, userApp) {
      var hooks := Obj(Merge(Property(legacyApp, "hooks"), Property(userApp, "hooks")));
      assert MergedApp(legacyApp, userApp) == Put(merged, "hooks", hooks);
      MergeLookup(legacyApp, userApp, "hooks");
      AssignKeys([], userApp.fields);
      assert "hooks" in Keys(Spread(userApp));
    } else {
      assert MergedApp(legacyApp, userApp) == merged;
    }
  }

  /** When both sides have hooks, the merged hooks are their union with new-format hooks winning. */
  lemma MergedHooks(legacyApp: Value, userApp: Value, h: string)
    requires BothHooks(legacyApp, userApp)
    ensures var hooks := Lookup(MergedApp(legacyApp, userApp), "hooks");
      var legacyHooks, userHooks := Spread(Property(legacyApp, "hooks")), Spread(Property(userApp, "hooks"));
      && hooks.Some? && hooks.value.Obj?
      && (h in Keys(hooks.value.fields) <==> h in Keys(legacyHooks) || h in Keys(userHooks))
      && Lookup(hooks.value.fields, h) == if h in Keys(userHooks) then Lookup(userHooks, h) else Lookup(legacyHooks, h)
  {
    MergeLookup(Property(legacyApp, "hooks"), Property(userApp, "hooks"), h);
  }

  /** A new `runtimeManifest` replaces the legacy one as a whole: manifests are not merged. */
  lemma NewManifestWins(legacyApp: Value, userApp: Value)
    requires userApp.Obj? && UniqueKeys(userApp.fields) && "runtimeManifest" in Keys(userApp.fields)
    ensures Lookup(MergedApp(legacyApp, userApp), "runtimeManifest") == Lookup(userApp.fields, "runtimeManifest")
  {
    SpreadObject(userApp.fields);
    MergedAppLookup(legacyApp, userApp, "runtimeManifest");
  }

  // loading

  /**
   * An `app.config.yaml` that parses to `null` or `undefined` has no keys to
   * resolve, so the resolver hands it back unchanged and the merge fails on it.
   */
  lemma EmptyUserConfigFails(aio: Value, manifest: Option<Value>, scripts: Value, docs: Docs, cwd: string, fuel: nat)
    requires LoadLegacy(aio, manifest, scripts).Ok?
    requires UserConfigFile in docs && (docs[UserConfigFile].Null? || docs[UserConfigFile].Undefined?)
    ensures LoadUserConfig(aio, manifest, scripts, docs, cwd, fuel) == Err(UserConfigIsNothing)
  {
    CoalesceNothing(UserConfigFile, docs, true, cwd, fuel);
  }

  /** A root document that is `null` or `undefined` comes back unchanged with an empty index. */
  lemma CoalesceNothing(root: string, docs: Docs, absolute: bool, cwd: string, fuel: nat)
    requires root in docs && (docs[root].Null? || docs[root].Undefined?)
    ensures Coalesce(root, docs, absolute, cwd, fuel) == Ok(Coalesced(docs[root], map[]))
  {
    assert |Initial(root, docs[root]).stack| == 0;
  }

  /**
   * Without an `app.config.yaml` the result is the legacy configuration merged
   * into an empty one, with the legacy index as it is.
   */
  lemma MissingUserConfigIsLegacy(aio: Value, manifest: Option<Value>, scripts: Value, docs: Docs, cwd: string, fuel: nat)
    requires LoadLegacy(aio, manifest, scripts).Ok?
    requires UserConfigFile !in docs
    ensures var legacy := LoadLegacy(aio, manifest, scripts).value;
      LoadUserConfig(aio, manifest, scripts, docs, cwd, fuel) == Ok(Coalesced(MergeLegacy(Obj([]), legacy.config).value, legacy.index))
  {
    var legacy := LoadLegacy(aio, manifest, scripts).value;
    NoNewEntries(legacy.index);
  }

  /**
   * Merging in an empty index adds nothing; kept as its own lemma so that the
   * map equality is proved outside the large loading context.
   */
  lemma NoNewEntries(index: Index)
    ensures index + map[] == index
  {
  }
}

=== FILE: path_keys.dfy ===
/**
 * The table of configuration keys whose values are filesystem paths. Each
 * regular expression of the table is anchored and built from literal
 * segments, "any dot-free name" (`[^.]+`) and "digits" (`\d+`) joined by
 * literal dots, so it matches a dotted key exactly when the key's dot-separated
 * pieces match the pattern piece by piece. The table is that list of piece
 * patterns, and matching splits the dotted key at its dots.
 */
module PathKeys {
  import opened Strings

  /** One piece of a key pattern. */
  datatype Piece = Lit(text: string) | AnyName | Digits

  predicate PieceMatches(p: Piece, s: string)
  {
    if p.Lit? then s == p.text
    else if p.AnyName? then |s| > 0 && '.' !in s
    else |s| > 0 && AllDigits(s)
  }

  predicate AllDigits(s: string)
  {
    forall i :: 0 <= i < |s| ==> IsDigit(s[i])
  }

  predicate PatternMatches(pattern: seq<Piece>, pieces: seq<string>)
  {
    |pattern| == |pieces| && forall i :: 0 <= i < |pieces| ==> PieceMatches(pattern[i], pieces[i])
  }

  /** The component a key belongs to: `application` or `extensions.<name>`. */
  const Components: seq<seq<Piece>> := [[Lit("application")], [Lit("extensions"), AnyName]]

  /** What follows the component in each path-valued key. */
  const PathFields: seq<seq<Piece>> := [
    [Lit("web")],
    [Lit("web"), Lit("src")],
    [Lit("actions")],
    [Lit("unitTest")],
    [Lit("e2eTest")],
    [Lit("dist")],
    [Lit("runtimeManifest"), Lit("packages"), AnyName, Lit("actions"), AnyName, Lit("function")],
    [Lit("runtimeManifest"), Lit("packages"), AnyName, Lit("actions"), AnyName, Lit("include"), Digits, Lit("0")]
  ]

  /** Every path field behind one component prefix. */
  function Prefixed(component: seq<Piece>): (r: seq<seq<Piece>>)
    ensures |r| == |PathFields|
    ensures forall f :: 0 <= f < |PathFields| ==> r[f] == component + PathFields[f]
  {
    [component + PathFields[0], component + PathFields[1], component + PathFields[2], component + PathFields[3],
     component + PathFields[4], component + PathFields[5], component + PathFields[6], component + PathFields[7]]
  }

  /** The PATH_KEYS table: every component prefix followed by every path field. */
  const Table: seq<seq<Piece>> := Prefixed(Components[0]) + Prefixed(Components[1])

  /** Some pattern of the list matches the pieces. */
  predicate MatchesSome(patterns: seq<seq<Piece>>, pieces: seq<string>)
  {
    |patterns| > 0 && (PatternMatches(patterns[0], pieces) || MatchesSome(patterns[1..], pieces))
  }

  lemma {:induction false} MatchesSomeIff(patterns: seq<seq<Piece>>, pieces: seq<string>)
    ensures MatchesSome(patterns, pieces) <==> exists i :: 0 <= i < |patterns| && PatternMatches(patterns[i], pieces)
  {
    if |patterns| > 0 {
      MatchesSomeIff(patterns[1..], pieces);
      if exists i :: 0 <= i < |patterns| && PatternMatches(patterns[i], pieces) {
        var i :| 0 <= i < |patterns| && PatternMatches(patterns[i], pieces);
        if i > 0 {
          assert patterns[1..][i - 1] == patterns[i];
        }
      }
    }
  }

  /** The dotted merged key names a path-valued field: `PATH_KEYS.filter(reg => key.match(reg)).length`. */
  predicate IsPathKey(dotted: string)
  {
    MatchesSome(Table, Split(dotted, '.'))
  }

  /** The last piece of every path-valued key is one of the path field names, or the 0 of an include tuple. */
  lemma PathKeyLastPiece(dotted: string)
    requires IsPathKey(dotted)
    ensures Split(dotted, '.')[0] in {"application", "extensions"}
    ensures Split(dotted, '.')[|Split(dotted, '.')| - 1] in {"web", "src", "actions", "unitTest", "e2eTest", "dist", "function", "0"}
  {
    var pieces := Split(dotted, '.');
    MatchesSomeIff(Table, pieces);
    var i :| 0 <= i < |Table| && PatternMatches(Table[i], pieces);
    var c, f := TableEntry(i);
    ComponentHead(c);
    FieldTail(f);
    var pattern := Components[c] + PathFields[f];
    assert pattern[0] == Components[c][0];
    assert pattern[|pattern| - 1] == PathFields[f][|PathFields[f]| - 1];
    assert PieceMatches(pattern[0], pieces[0]);
    assert PieceMatches(pattern[|pieces| - 1], pieces[|pieces| - 1]);
  }

  /** Entry `i` of the table is some component followed by some path field. */
  lemma TableEntry(i: nat) returns (c: nat, f: nat)
    requires i < |Table|
    ensures c < |Components| && f < |PathFields|
    ensures Table[i] == Components[c] + PathFields[f]
  {
    assert |Table| == 2 * |PathFields|;
    if i < |PathFields| {
      c, f := 0, i;
    } else {
      c, f := 1, i - |PathFields|;
    }
    TableAt(c, f);
  }

  lemma ComponentHead(c: nat)
    requires c < |Components|
    ensures |Components[c]| > 0 && Components[c][0].Lit? && Components[c][0].text in {"application", "extensions"}
  {
  }

  lemma FieldTail(f: nat)
    requires f < |PathFields|
    ensures var p := PathFields[f];
      |p| > 0 && p[|p| - 1].Lit? && p[|p| - 1].text in {"web", "src", "actions", "unitTest", "e2eTest", "dist", "function", "0"}
  {
  }

  /**
   * The include directive is never a path-valued key, wherever it sits: the
   * merged key of a directive is its parent's key with `.$include` appended,
   * minus the leading dot.
   */
  lemma DirectiveIsNotPathKey(parentFull: string)
    ensures !IsPathKey((parentFull + ".$include")[1..])
  {
    var dotted := (parentFull + ".$include")[1..];
    if |parentFull| == 0 {
      assert dotted == "$include";
      SplitPrefix("$include", "", '.');
      assert "$include" + "" == "$include";
    } else {
      assert dotted == parentFull[1..] + "." + "$include";
      SplitLastPiece(parentFull[1..], "$include", '.');
    }
    if IsPathKey(dotted) {
      PathKeyLastPiece(dotted);
      assert false;
    }
  }

  /**
   * For key paths whose pieces hold no dot, matching the dotted string is
   * matching the pieces themselves: the dotted spelling loses nothing.
   */
  lemma IsPathKeyOfPieces(path: seq<string>)
    requires |path| > 0
    requires forall i :: 0 <= i < |path| ==> '.' !in path[i]
    ensures IsPathKey(Join(path, '.')) <==> exists i :: 0 <= i < |Table| && PatternMatches(Table[i], path)
  {
    SplitJoin(path, '.');
    MatchesSomeIff(Table, path);
  }

  /** Entry `c * |PathFields| + f` of the table is component `c` followed by path field `f`. */
  lemma TableAt(c: nat, f: nat)
    requires c < |Components| && f < |PathFields|
    ensures c * |PathFields| + f < |Table|
    ensures Table[c * |PathFields| + f] == Components[c] + PathFields[f]
  {
    var first := Prefixed(Components[0]);
    assert |Table| == 2 * |PathFields|;
    if c == 0 {
      assert Table[f] == first[f];
    } else {
      assert Table[|PathFields| + f] == Prefixed(Components[1])[f];
    }
  }

  /** A key matching one entry of the table is a path-valued key. */
  lemma TableEntryIsPathKey(i: nat, path: seq<string>)
    requires i < |Table| && |path| > 0
    requires forall x :: 0 <= x < |path| ==> '.' !in path[x]
    requires PatternMatches(Table[i], path)
    ensures IsPathKey(Join(path, '.'))
  {
    SplitJoin(path, '.');
    MatchesSomeIff(Table, path);
    assert Split(Join(path, '.'), '.') == path;
  }

  /** A component prefix followed by a path field matches their concatenated patterns. */
  lemma ConcatMatches(c: seq<Piece>, f: seq<Piece>, component: seq<string>, field: seq<string>)
    requires PatternMatches(c, component) && PatternMatches(f, field)
    ensures PatternMatches(c + f, component + field)
  {
    var pattern, path := c + f, component + field;
    forall x | 0 <= x < |path|
      ensures PieceMatches(pattern[x], path[x])
    {
      if x < |component| {
        assert pattern[x] == c[x] && path[x] == component[x];
      } else {
        assert pattern[x] == f[x - |component|] && path[x] == field[x - |component|];
      }
    }
  }

  /** A component prefix followed by one of its path fields is a path-valued key. */
  lemma FieldIsPathKey(c: nat, f: nat, component: seq<string>, field: seq<string>)
    requires c < |Components| && f < |PathFields|
    requires PatternMatches(Components[c], component) && PatternMatches(PathFields[f], field)
    requires SeparatorFree(component, '.') && SeparatorFree(field, '.')
    ensures IsPathKey(Join(component + field, '.'))
  {
    var path := component + field;
    ConcatMatches(Components[c], PathFields[f], component, field);
    TableAt(c, f);
    SeparatorFreeAppend(component, field, '.');
    TableEntryIsPathKey(c * |PathFields| + f, path);
  }

  /** The action file of a manifest action of the application is a path-valued key. */
  lemma FunctionIsPathKey(pkg: string, action: string)
    requires |pkg| > 0 && '.' !in pkg && |action| > 0 && '.' !in action
    ensures IsPathKey(Join(["application", "runtimeManifest", "packages", pkg, "actions", action, "function"], '.'))
  {
    var field := ["runtimeManifest", "packages", pkg, "actions", action, "function"];
    assert PatternMatches(Components[0], ["application"]);
    FunctionFieldMatches(pkg, action);
    FieldIsPathKey(0, 6, ["application"], field);
  }

  lemma FunctionFieldMatches(pkg: string, action: string)
    requires |pkg| > 0 && '.' !in pkg && |action| > 0 && '.' !in action
    ensures var field := ["runtimeManifest", "packages", pkg, "actions", action, "function"];
      && PatternMatches(PathFields[6], field)
      && SeparatorFree(field, '.')
      && ["application"] + field == ["application", "runtimeManifest", "packages", pkg, "actions", action, "function"]
  {
    var field := ["runtimeManifest", "packages", pkg, "actions", action, "function"];
    assert '.' !in "runtimeManifest" && '.' !in "packages" && '.' !in "actions" && '.' !in "function";
    forall x | 0 <= x < |field|
      ensures '.' !in field[x]
    {
      if x == 2 {
        assert field[x] == pkg;
      } else if x == 4 {
        assert field[x] == action;
      }
    }
  }

  /** The web source folder of a named extension is a path-valued key. */
  lemma ExtensionWebSrcIsPathKey(name: string)
    requires |name| > 0 && '.' !in name
    ensures IsPathKey(Join(["extensions", name, "web", "src"], '.'))
  {
    assert PatternMatches(Components[1], ["extensions", name]);
    assert PatternMatches(PathFields[1], ["web", "src"]);
    FieldIsPathKey(1, 1, ["extensions", name], ["web", "src"]);
    assert ["extensions", name] + ["web", "src"] == ["extensions", name, "web", "src"];
  }

  /**
   * Only element 0 of an include tuple is a path; the destination name in
   * element 1 is not.
   */
  lemma IncludeDestinationIsNotPathKey(pkg: string, action: string, n: nat)
    requires '.' !in pkg && '.' !in action
    ensures !IsPathKey(Join(["application", "runtimeManifest", "packages", pkg, "actions", action, "include", NatToString(n), "1"], '.'))
  {
    var path := ["application", "runtimeManifest", "packages", pkg, "actions", action, "include", NatToString(n), "1"];
    IncludeTupleFree(pkg, action, n);
    SplitJoin(path, '.');
    if IsPathKey(Join(path, '.')) {
      PathKeyLastPiece(Join(path, '.'));
      assert false;
    }
  }

  lemma IncludeTupleFree(pkg: string, action: string, n: nat)
    requires '.' !in pkg && '.' !in action
    ensures SeparatorFree(["application", "runtimeManifest", "packages", pkg, "actions", action, "include", NatToString(n), "1"], '.')
  {
    var path := ["application", "runtimeManifest", "packages", pkg, "actions", action, "include", NatToString(n), "1"];
    assert '.' !in NatToString(n) by {
      assert forall i :: 0 <= i < |NatToString(n)| ==> NatToString(n)[i] != '.';
    }
    assert '.' !in "application" && '.' !in "runtimeManifest" && '.' !in "packages" && '.' !in "actions";
    assert '.' !in "include" && '.' !in "1";
    forall x | 0 <= x < |path|
      ensures '.' !in path[x]
    {
      if x == 3 {
        assert path[x] == pkg;
      } else if x == 5 {
        assert path[x] == action;
      } else if x == 7 {
        assert path[x] == NatToString(n);
      }
    }
  }
}

=== FILE: posix_path.dfy ===
/**
 * POSIX path handling as the resolver uses it: `path.dirname`, `path.join`,
 * `path.normalize` and `path.resolve` on forward-slash strings. A path is
 * split into segments at '/', the segments are normalised (empty and "."
 * segments dropped, ".." cancelling the segment before it) and joined again.
 */
module PosixPath {
  import opened Strings

  predicate IsAbsolute(p: string) {
    |p| > 0 && p[0] == '/'
  }

  /**
   * A segment list in normal form: no empty, "." or slash-bearing segment,
   * and ".." only in a leading run, and only when the path may climb above
   * its start (relative paths).
   */
  ghost predicate Normal(segs: seq<string>, aboveRoot: bool)
  {
    forall i :: 0 <= i < |segs| ==>
      && segs[i] != ""
      && segs[i] != "."
      && '/' !in segs[i]
      && (segs[i] == ".." ==> aboveRoot && forall j :: 0 <= j < i ==> segs[j] == "..")
  }

  /** One step of normalisation: fold segment `s` into the normal prefix `acc`. */
  function NormStep(acc: seq<string>, s: string, aboveRoot: bool): (r: seq<string>)
  {
    if s == "" || s == "." then acc
    else if s == ".." then
      if |acc| > 0 && acc[|acc| - 1] != ".." then acc[..|acc| - 1]
      else if aboveRoot then acc + [".."]
      else acc
    else acc + [s]
  }

  /** Folds every segment of `rest`, left to right, into the accumulator `acc`. */
  function NormFrom(acc: seq<string>, rest: seq<string>, aboveRoot: bool): (r: seq<string>)
    requires Normal(acc, aboveRoot)
    requires forall i :: 0 <= i < |rest| ==> '/' !in rest[i]
    ensures Normal(r, aboveRoot)
    decreases |rest|
  {
    if |rest| == 0 then acc
    else
      var next := NormStep(acc, rest[0], aboveRoot);
      NormStepNormal(acc, rest[0], aboveRoot);
      NormFrom(next, rest[1..], aboveRoot)
  }

  /** One step keeps the accumulator in normal form. */
  lemma NormStepNormal(acc: seq<string>, s: string, aboveRoot: bool)
    requires Normal(acc, aboveRoot) && '/' !in s
    ensures Normal(NormStep(acc, s, aboveRoot), aboveRoot)
  {
    if s == ".." && |acc| > 0 && acc[|acc| - 1] != ".." {
      assert Normal(acc[..|acc| - 1], aboveRoot);
    } else if s == ".." && aboveRoot {
      if |acc| > 0 {
        assert acc[|acc| - 1] == "..";
        assert forall j :: 0 <= j < |acc| ==> acc[j] == "..";
      }
    }
  }

  /** Normal form of a segment list. */
  function NormalizeSegments(segs: seq<string>, aboveRoot: bool): (r: seq<string>)
    requires forall i :: 0 <= i < |segs| ==> '/' !in segs[i]
    ensures Normal(r, aboveRoot)
  {
    NormFrom([], segs, aboveRoot)
  }

  /** Segments that are already in normal form are left as they are. */
  lemma {:induction false} NormFromNormal(acc: seq<string>, rest: seq<string>, aboveRoot: bool)
    requires Normal(acc + rest, aboveRoot)
    ensures Normal(acc, aboveRoot)
    ensures forall i :: 0 <= i < |rest| ==> '/' !in rest[i]
    ensures NormFrom(acc, rest, aboveRoot) == acc + rest
    decreases |rest|
  {
    assert forall i :: 0 <= i < |acc| ==> acc[i] == (acc + rest)[i];
    assert forall i :: 0 <= i < |rest| ==> rest[i] == (acc + rest)[|acc| + i];
    if |rest| > 0 {
      var s := rest[0];
      if s == ".." {
        assert (acc + rest)[|acc|] == "..";
        assert forall j :: 0 <= j < |acc| ==> acc[j] == (acc + rest)[j] == "..";
        assert NormStep(acc, s, aboveRoot) == acc + [s];
      } else {
        assert NormStep(acc, s, aboveRoot) == acc + [s];
      }
      assert (acc + [s]) + rest[1..] == acc + rest;
      NormFromNormal(acc + [s], rest[1..], aboveRoot);
    }
  }

  /** Normalising a list in normal form is the identity. */
  lemma NormalizeNormal(segs: seq<string>, aboveRoot: bool)
    requires Normal(segs, aboveRoot)
    ensures forall i :: 0 <= i < |segs| ==> '/' !in segs[i]
    ensures NormalizeSegments(segs, aboveRoot) == segs
  {
    assert [] + segs == segs;
    NormFromNormal([], segs, aboveRoot);
  }

  /** Empty segments (doubled or trailing slashes) do not change the normal form. */
  lemma {:induction false} NormFromTrailingEmpty(acc: seq<string>, rest: seq<string>, aboveRoot: bool)
    requires Normal(acc, aboveRoot)
    requires forall i :: 0 <= i < |rest| ==> '/' !in rest[i]
    ensures NormFrom(acc, rest + [""], aboveRoot) == NormFrom(acc, rest, aboveRoot)
    decreases |rest|
  {
    if |rest| == 0 {
      assert rest + [""] == [""];
    } else {
      assert (rest + [""])[0] == rest[0];
      assert (rest + [""])[1..] == rest[1..] + [""];
      var next := NormStep(acc, rest[0], aboveRoot);
      assert NormFrom(acc, rest, aboveRoot) == NormFrom(next, rest[1..], aboveRoot);
      NormFromTrailingEmpty(next, rest[1..], aboveRoot);
    }
  }

  /** The string form of a normalised path body (no leading slash). */
  function Body(p: string, aboveRoot: bool): seq<string>
  {
    NormalizeSegments(Split(p, '/'), aboveRoot)
  }

  /** `path.normalize(p)` of Node's posix module. */
  function Normalize(p: string): (r: string)
    ensures |r| > 0
    ensures IsAbsolute(r) <==> IsAbsolute(p)
  {
    if |p| == 0 then "."
    else
      var absolute := p[0] == '/';
      var trailing := p[|p| - 1] == '/';
      var body := Join(Body(p, !absolute), '/');
      if |body| == 0 then
        (if absolute then "/" else if trailing then "./" else ".")
      else
        var r := (if absolute then "/" else "") + body + (if trailing then "/" else "");
        assert !absolute ==> r[0] == body[0];
        assert !absolute ==> body[0] != '/' by {
          if !absolute {
            BodyStartsWithoutSlash(Body(p, true));
          }
        }
        r
  }

  /** A join of normal segments never begins with a slash. */
  lemma BodyStartsWithoutSlash(segs: seq<string>)
    requires forall i :: 0 <= i < |segs| ==> segs[i] != "" && '/' !in segs[i]
    requires |Join(segs, '/')| > 0
    ensures Join(segs, '/')[0] != '/'
  {
    assert |segs| > 0;
    assert segs[0][0] in segs[0];
    if |segs| > 1 {
      assert Join(segs, '/') == segs[0] + ['/'] + Join(segs[1..], '/');
    }
  }

  /** `path.join(a, b)` of Node's posix module: empty arguments are skipped. */
  function PathJoin(a: string, b: string): (r: string)
    ensures |r| > 0
    ensures |a| > 0 ==> (IsAbsolute(r) <==> IsAbsolute(a))
  {
    if |a| == 0 && |b| == 0 then "."
    else if |a| == 0 then Normalize(b)
    else if |b| == 0 then Normalize(a)
    else Normalize(a + "/" + b)
  }

  /** Scans `p` backwards from index `i` for the slash ending the directory part. */
  function DirEnd(p: string, i: int, matchedSlash: bool): (end: int)
    requires i < |p|
    ensures end == -1 || (1 <= end <= i && p[end] == '/')
    decreases i
  {
    if i < 1 then -1
    else if p[i] == '/' then
      (if !matchedSlash then i else DirEnd(p, i - 1, matchedSlash))
    else DirEnd(p, i - 1, false)
  }

  /** `path.dirname(p)` of Node's posix module. */
  function Dirname(p: string): (r: string)
    ensures |r| > 0
    ensures IsAbsolute(r) <==> IsAbsolute(p)
  {
    if |p| == 0 then "."
    else
      var hasRoot := p[0] == '/';
      var end := DirEnd(p, |p| - 1, true);
      if end == -1 then (if hasRoot then "/" else ".")
      else if hasRoot && end == 1 then "//"
      else p[..end]
  }

  /**
   * The right-to-left scan of `path.resolve`: prepends non-empty arguments
   * until one is absolute. Returns the concatenation and whether it is absolute.
   */
  function Gather(args: seq<string>, acc: string): (r: (string, bool))
    ensures r.1 ==> IsAbsolute(r.0)
    decreases |args|
  {
    if |args| == 0 then (acc, false)
    else
      var a := args[|args| - 1];
      if |a| == 0 then Gather(args[..|args| - 1], acc)
      else if IsAbsolute(a) then (a + "/" + acc, true)
      else Gather(args[..|args| - 1], a + "/" + acc)
  }

  /**
   * `path.resolve(...args)` of Node's posix module, with the process working
   * directory `cwd` as the implicit leftmost argument.
   */
  function Resolve(cwd: string, args: seq<string>): (r: string)
    ensures |r| > 0
  {
    var (p, absolute) := Gather(args, "");
    var (full, fullAbsolute) :=
      if absolute then (p, true)
      else if |cwd| == 0 then (p, false)
      else (cwd + "/" + p, IsAbsolute(cwd));
    var body := Join(NormalizeSegments(Split(full, '/'), !fullAbsolute), '/');
    if fullAbsolute then "/" + body
    else if |body| == 0 then "."
    else body
  }

  /**
   * Resolving an absolute value ignores every argument to its left and the
   * working directory: the result is the value's own normal form.
   */
  lemma ResolveAbsoluteValue(cwd: string, dir: string, v: string)
    requires IsAbsolute(v)
    ensures Resolve(cwd, [dir, v]) == "/" + Join(NormalizeSegments(Split(v + "/", '/'), false), '/')
  {
    assert Gather([dir, v], "") == (v + "/" + "", true);
    assert v + "/" + "" == v + "/";
  }

  /**
   * The result of `path.resolve` is absolute whenever the working directory is.
   */
  lemma ResolveIsAbsolute(cwd: string, args: seq<string>)
    requires IsAbsolute(cwd)
    ensures IsAbsolute(Resolve(cwd, args))
  {
  }

  /**
   * Resolving a path already in absolute normal form gives it back: with
   * `S` normal, "/" + join(S) resolves to itself against any directory.
   */
  lemma {:induction false} ResolveNormalAbsolute(cwd: string, dir: string, segs: seq<string>)
    requires Normal(segs, false)
    ensures Resolve(cwd, [dir, "/" + Join(segs, '/')]) == "/" + Join(segs, '/')
  {
    var v := "/" + Join(segs, '/');
    ResolveAbsoluteValue(cwd, dir, v);
    NormalizeNormal(segs, false);
    if |segs| == 0 {
      assert v + "/" == "//";
      assert Split("//", '/') == ["", "", ""] by {
        assert "//"[1..] == "/";
        assert "/"[1..] == "";
      }
      assert NormFrom([], ["", "", ""], false) == [];
    } else {
      var parts := [""] + segs + [""];
      JoinAppend([""], segs, '/');
      JoinAppend([""] + segs, [""], '/');
      assert Join([""], '/') == "";
      assert Join(parts, '/') == v + "/";
      assert SeparatorFree(parts, '/') by {
        forall i | 0 <= i < |parts|
          ensures '/' !in parts[i]
        {
          if 0 < i < |parts| - 1 {
            assert parts[i] == segs[i - 1];
          }
        }
      }
      SplitJoin(parts, '/');
      assert NormFrom([], parts, false) == NormFrom([], segs, false) by {
        assert parts[0] == "";
        assert parts[1..] == segs + [""];
        assert NormFrom([], parts, false) == NormFrom([], segs + [""], false);
        NormFromTrailingEmpty([], segs, false);
      }
    }
  }

  /**
   * Absolute-mode idempotence: resolving an already resolved absolute path,
   * against any directory, changes nothing.
   */
  lemma ResolveIdempotent(cwd: string, dir1: string, dir2: string, v: string)
    requires IsAbsolute(cwd) || IsAbsolute(v)
    ensures Resolve(cwd, [dir2, Resolve(cwd, [dir1, v])]) == Resolve(cwd, [dir1, v])
  {
    var r := Resolve(cwd, [dir1, v]);
    var (p, absolute) := Gather([dir1, v], "");
    var (full, fullAbsolute) :=
      if absolute then (p, true)
      else if |cwd| == 0 then (p, false)
      else (cwd + "/" + p, IsAbsolute(cwd));
    var segs := NormalizeSegments(Split(full, '/'), !fullAbsolute);
    if !fullAbsolute {
      assert false;
    }
    assert r == "/" + Join(segs, '/');
    ResolveNormalAbsolute(cwd, dir2, segs);
  }

  // paths made of plain segments

  /** Segments normalisation keeps as they are: none is empty, ".", ".." or holds a slash. */
  predicate Plain(segs: seq<string>)
  {
    forall i :: 0 <= i < |segs| ==> segs[i] != "" && segs[i] != "." && segs[i] != ".." && '/' !in segs[i]
  }

  /** The segments of a directory as `path.dirname` writes it: "." when there is none. */
  function DirSegments(d: seq<string>): seq<string>
  {
    if d == [] then ["."] else d
  }

  /** Plain segments are appended to a normal accumulator one by one. */
  lemma NormFromPlain(acc: seq<string>, rest: seq<string>, aboveRoot: bool)
    requires Normal(acc, aboveRoot) && Plain(rest)
    ensures NormFrom(acc, rest, aboveRoot) == acc + rest
  {
    assert forall i :: 0 <= i < |acc| ==> (acc + rest)[i] == acc[i];
    assert forall i :: 0 <= i < |rest| ==> (acc + rest)[|acc| + i] == rest[i];
    NormFromNormal(acc, rest, aboveRoot);
  }

  /** An empty or "." segment is dropped. */
  lemma NormFromSkip(acc: seq<string>, s: string, rest: seq<string>, aboveRoot: bool)
    requires Normal(acc, aboveRoot) && (s == "" || s == ".")
    requires forall i :: 0 <= i < |rest| ==> '/' !in rest[i]
    ensures forall i :: 0 <= i < |[s] + rest| ==> '/' !in ([s] + rest)[i]
    ensures NormFrom(acc, [s] + rest, aboveRoot) == NormFrom(acc, rest, aboveRoot)
  {
    assert ([s] + rest)[1..] == rest;
  }

  /** Normalising a concatenation normalises its second part from where the first left off. */
  lemma {:induction false} NormFromAppend(acc: seq<string>, a: seq<string>, b: seq<string>, aboveRoot: bool)
    requires Normal(acc, aboveRoot)
    requires forall i :: 0 <= i < |a| ==> '/' !in a[i]
    requires forall i :: 0 <= i < |b| ==> '/' !in b[i]
    ensures forall i :: 0 <= i < |a + b| ==> '/' !in (a + b)[i]
    ensures NormFrom(acc, a + b, aboveRoot) == NormFrom(NormFrom(acc, a, aboveRoot), b, aboveRoot)
    decreases |a|
  {
    assert forall i :: 0 <= i < |b| ==> (a + b)[|a| + i] == b[i];
    if |a| == 0 {
      assert a + b == b;
    } else {
      assert (a + b)[0] == a[0] && (a + b)[1..] == a[1..] + b;
      NormStepNormal(acc, a[0], aboveRoot);
      NormFromAppend(NormStep(acc, a[0], aboveRoot), a[1..], b, aboveRoot);
    }
  }

  lemma PlainAppend(a: seq<string>, b: seq<string>)
    requires Plain(a) && Plain(b)
    ensures Plain(a + b)
  {
    assert forall i :: 0 <= i < |b| ==> (a + b)[|a| + i] == b[i];
  }

  /** A directory followed by a plain value normalises to the directory's segments and the value's. */
  lemma NormDirValue(acc: seq<string>, d: seq<string>, v: seq<string>, aboveRoot: bool)
    requires Normal(acc, aboveRoot) && Plain(d) && Plain(v)
    ensures forall i :: 0 <= i < |DirSegments(d) + v| ==> '/' !in (DirSegments(d) + v)[i]
    ensures NormFrom(acc, DirSegments(d) + v, aboveRoot) == acc + d + v
  {
    if d == [] {
      NormFromSkip(acc, ".", v, aboveRoot);
      NormFromPlain(acc, v, aboveRoot);
      assert acc + d + v == acc + v;
    } else {
      PlainAppend(d, v);
      NormFromPlain(acc, d + v, aboveRoot);
      assert acc + (d + v) == acc + d + v;
    }
  }

  /** A join of non-empty segments without slashes is not empty and neither begins nor ends with a slash. */
  lemma {:induction false} JoinPlainEnds(segs: seq<string>)
    requires |segs| > 0
    requires forall i :: 0 <= i < |segs| ==> segs[i] != "" && '/' !in segs[i]
    ensures |Join(segs, '/')| > 0
    ensures Join(segs, '/')[0] != '/' && Join(segs, '/')[|Join(segs, '/')| - 1] != '/'
    decreases |segs|
  {
    assert segs[0][0] in segs[0];
    if |segs| == 1 {
      assert segs[0][|segs[0]| - 1] in segs[0];
    } else {
      JoinPlainEnds(segs[1..]);
    }
  }

  /** Scanning back over a file name stops at the slash before it. */
  lemma {:induction false} DirEndAtSlash(p: string, i: int, k: int, matchedSlash: bool)
    requires 1 <= k < i < |p| && p[k] == '/'
    requires forall j :: k < j <= i ==> p[j] != '/'
    ensures DirEnd(p, i, matchedSlash) == k
    decreases i
  {
    if i - 1 > k {
      DirEndAtSlash(p, i - 1, k, false);
    }
  }

  /** Scanning back over a path without slashes finds no directory part. */
  lemma {:induction false} DirEndNoSlash(p: string, i: int, matchedSlash: bool)
    requires i < |p|
    requires forall j :: 0 <= j <= i ==> p[j] != '/'
    ensures DirEnd(p, i, matchedSlash) == -1
    decreases i
  {
    if i >= 1 {
      DirEndNoSlash(p, i - 1, false);
    }
  }

  /** The directory of `d/f` is `d`, and "." when `f` stands alone. */
  lemma DirnameOfFile(d: seq<string>, f: string)
    requires Plain(d) && Plain([f])
    ensures Dirname(Join(d + [f], '/')) == Join(DirSegments(d), '/')
  {
    assert [f][0] == f;
    if d == [] {
      assert d + [f] == [f];
      DirnameOfName(f);
    } else {
      DirnameUnder(d, f);
    }
  }

  /** A bare file name lies in the current directory. */
  lemma DirnameOfName(f: string)
    requires f != "" && '/' !in f
    ensures Dirname(f) == "."
  {
    DirEndNoSlash(f, |f| - 1, true);
  }

  /** Below a directory, the directory part ends at the slash before the name. */
  lemma DirnameUnder(d: seq<string>, f: string)
    requires Plain(d) && d != [] && f != "" && '/' !in f
    ensures Dirname(Join(d + [f], '/')) == Join(d, '/')
  {
    var p := Join(d + [f], '/');
    JoinAppend(d, [f], '/');
    JoinPlainEnds(d);
    var k := |Join(d, '/')|;
    assert forall j :: k < j < |p| ==> p[j] == f[j - k - 1];
    DirEndAtSlash(p, |p| - 1, k, true);
    assert p[..k] == Join(d, '/');
  }

  /** `path.join` of a directory and a plain value: the directory's segments followed by the value's. */
  lemma JoinDirValue(d: seq<string>, v: seq<string>)
    requires Plain(d) && Plain(v) && |v| > 0
    ensures PathJoin(Join(DirSegments(d), '/'), Join(v, '/')) == Join(d + v, '/')
  {
    var s := Join(DirSegments(d) + v, '/');
    DirValueBody(d, v);
    NonEmptySegments(d, v);
    JoinPlainEnds(DirSegments(d) + v);
    JoinPlainEnds(d + v);
    NormalizeRelative(s, d + v);
    JoinOfDirValue(d, v);
  }

  /** Joining the directory and the value with a slash is joining their segments. */
  lemma JoinOfDirValue(d: seq<string>, v: seq<string>)
    requires Plain(d) && Plain(v) && |v| > 0
    ensures PathJoin(Join(DirSegments(d), '/'), Join(v, '/')) == Normalize(Join(DirSegments(d) + v, '/'))
  {
    NonEmptySegments(d, v);
    JoinPlainEnds(DirSegments(d));
    JoinPlainEnds(v);
    JoinAppend(DirSegments(d), v, '/');
  }

  /** The joined directory and value split back into their segments, which normalise to the plain ones. */
  lemma DirValueBody(d: seq<string>, v: seq<string>)
    requires Plain(d) && Plain(v)
    ensures Body(Join(DirSegments(d) + v, '/'), true) == d + v
  {
    DirValueSplit(d, v);
    BodyOf(Join(DirSegments(d) + v, '/'), DirSegments(d) + v, true);
    DirValueNormal(d, v);
  }

  lemma DirValueSplit(d: seq<string>, v: seq<string>)
    requires Plain(d) && Plain(v)
    ensures Split(Join(DirSegments(d) + v, '/'), '/') == DirSegments(d) + v
  {
    NonEmptySegments(d, v);
    SplitJoin(DirSegments(d) + v, '/');
  }

  lemma DirValueNormal(d: seq<string>, v: seq<string>)
    requires Plain(d) && Plain(v)
    ensures forall i :: 0 <= i < |DirSegments(d) + v| ==> '/' !in (DirSegments(d) + v)[i]
    ensures NormalizeSegments(DirSegments(d) + v, true) == d + v
  {
    NormDirValue([], d, v, true);
    EmptyPrefix(d + v);
  }

  lemma EmptyPrefix(s: seq<string>)
    ensures [] + s == s
  {
  }

  lemma BodyOf(s: string, parts: seq<string>, aboveRoot: bool)
    requires Split(s, '/') == parts
    ensures Body(s, aboveRoot) == NormalizeSegments(parts, aboveRoot)
  {
  }

  /** A relative path that does not end in a slash normalises to the join of its normal segments. */
  lemma NormalizeRelative(s: string, kept: seq<string>)
    requires |s| > 0 && s[0] != '/' && s[|s| - 1] != '/'
    requires Body(s, true) == kept && |Join(kept, '/')| > 0
    ensures Normalize(s) == Join(kept, '/')
  {
  }

  /** The segments of a directory and a plain value, with or without the ".", are non-empty and slash-free. */
  lemma NonEmptySegments(d: seq<string>, v: seq<string>)
    requires Plain(d) && Plain(v)
    ensures forall i :: 0 <= i < |DirSegments(d)| ==> DirSegments(d)[i] != "" && '/' !in DirSegments(d)[i]
    ensures forall i :: 0 <= i < |DirSegments(d) + v| ==> (DirSegments(d) + v)[i] != "" && '/' !in (DirSegments(d) + v)[i]
    ensures forall i :: 0 <= i < |d + v| ==> (d + v)[i] != "" && '/' !in (d + v)[i]
  {
    assert forall i :: 0 <= i < |v| ==> (DirSegments(d) + v)[|DirSegments(d)| + i] == v[i];
    assert forall i :: 0 <= i < |v| ==> (d + v)[|d| + i] == v[i];
  }

  /**
   * The segments `path.resolve` splits `cwd/dir/value/` into, with `cwd`
   * written "/" + join(c): a leading empty segment for the root (two when
   * `c` is empty) and a trailing one.
   */
  function RootedSegments(c: seq<string>, d: seq<string>, v: seq<string>): seq<string>
  {
    [""] + (if c == [] then [""] else c) + DirSegments(d) + v + [""]
  }

  /** The rooted segments normalise to the plain ones. */
  lemma NormRooted(c: seq<string>, d: seq<string>, v: seq<string>)
    requires Plain(c) && Plain(d) && Plain(v)
    ensures SeparatorFree(RootedSegments(c, d, v), '/')
    ensures NormFrom([], RootedSegments(c, d, v), false) == c + d + v
  {
    var cs := if c == [] then [""] else c;
    var tail := DirSegments(d) + v;
    var inner := [""] + (cs + tail);
    NormDirValue(c, d, v, false);
    NormFromAppend([], cs, tail, false);
    NormFromSkip([], "", cs + tail, false);
    NormFromTrailingEmpty([], inner, false);
    SeparatorFreeAppend(inner, [""], '/');
    RootedRegroup(c, d, v);
    if c == [] {
      NormFromSkip([], "", [], false);
      assert [""] + [] == [""];
    } else {
      NormFromPlain([], c, false);
      assert [] + c == c;
    }
  }

  lemma RootedRegroup(c: seq<string>, d: seq<string>, v: seq<string>)
    ensures RootedSegments(c, d, v) == [""] + ((if c == [] then [""] else c) + (DirSegments(d) + v)) + [""]
  {
  }

  /** The rooted segments join to `cwd/dir/value/`. */
  lemma JoinRooted(c: seq<string>, d: seq<string>, v: seq<string>)
    requires |v| > 0
    ensures Join(RootedSegments(c, d, v), '/') ==
      ("/" + Join(c, '/')) + "/" + (Join(DirSegments(d), '/') + "/" + (Join(v, '/') + "/" + ""))
  {
    var cs := if c == [] then [""] else c;
    var ds := DirSegments(d);
    var a1 := [""] + cs;
    JoinRoot(c);
    JoinAppend(a1, ds, '/');
    JoinAppend(a1 + ds, v, '/');
    JoinAppend(a1 + ds + v, [""], '/');
    assert RootedSegments(c, d, v) == a1 + ds + v + [""];
    Reassociate("/" + Join(c, '/'), Join(ds, '/'), Join(v, '/'));
  }

  /** A leading empty segment puts the root in front of the join. */
  lemma JoinRoot(c: seq<string>)
    ensures Join([""] + (if c == [] then [""] else c), '/') == "/" + Join(c, '/')
  {
    JoinAppend([""], if c == [] then [""] else c, '/');
  }

  lemma Reassociate(a: string, b: string, c: string)
    ensures a + "/" + b + "/" + c + "/" + "" == a + "/" + (b + "/" + (c + "/" + ""))
  {
  }

  /**
   * `path.resolve(cwd, dir, value)` for a working directory "/" + join(c),
   * a directory and a plain value: the three in order, as one absolute path.
   */
  lemma ResolveDirValue(c: seq<string>, d: seq<string>, v: seq<string>)
    requires Plain(c) && Plain(d) && Plain(v) && |v| > 0
    ensures Resolve("/" + Join(c, '/'), [Join(DirSegments(d), '/'), Join(v, '/')]) == "/" + Join(c + d + v, '/')
  {
    var cwd, dir, value := "/" + Join(c, '/'), Join(DirSegments(d), '/'), Join(v, '/');
    NonEmptySegments(d, v);
    JoinPlainEnds(DirSegments(d));
    JoinPlainEnds(v);
    GatherRelative(dir, value);
    ResolveUnderAbsolute(cwd, [dir, value], dir + "/" + (value + "/" + ""));
    JoinRooted(c, d, v);
    NormRooted(c, d, v);
    SplitJoin(RootedSegments(c, d, v), '/');
  }

  /** Two relative arguments are gathered in order, each followed by a slash. */
  lemma GatherRelative(dir: string, value: string)
    requires |dir| > 0 && !IsAbsolute(dir) && |value| > 0 && !IsAbsolute(value)
    ensures Gather([dir, value], "") == (dir + "/" + (value + "/" + ""), false)
  {
    assert [dir, value][..1] == [dir] && [dir][..0] == [];
    assert Gather([dir, value], "") == Gather([dir], value + "/" + "");
  }

  /** Relative arguments are resolved below an absolute working directory. */
  lemma ResolveUnderAbsolute(cwd: string, args: seq<string>, p: string)
    requires IsAbsolute(cwd) && Gather(args, "") == (p, false)
    ensures Resolve(cwd, args) == "/" + Join(NormalizeSegments(Split(cwd + "/" + p, '/'), false), '/')
  {
  }
}

=== FILE: projection.dfy ===
/**
 * The small pure pieces of the final configuration: the package name and
 * version defaults with the OpenWhisk package name derived from them, the
 * distribution subfolder of a configuration, the sorted list of what the
 * project implements, the `operations` every extension must declare, and
 * the S3 settings of a configuration with a frontend.
 */
module Projection {
  import opened Results
  import opened Strings
  import opened ConfigTree
  import Legacy

  // package.json defaults

  const DefaultName: string := "unnamed-app"
  const DefaultVersion: string := "0.1.0"

  /** `name.split('/')` on a `name` that is not a string throws a TypeError. */
  datatype PackageError = NameNotString

  /** The last element of a non-empty list: `parts.pop()`. */
  function LastOf(parts: seq<string>): string
    requires |parts| > 0
  {
    parts[|parts| - 1]
  }

  /**
   * The package name without its npm scope: the text after the last `/`,
   * or `unnamed-app` when the name is falsy.
   */
  function UnqualifiedName(name: Value): (r: Result<string, PackageError>)
    ensures r.Err? <==> Truthy(name) && !name.Str?
    ensures !Truthy(name) ==> r == Ok(DefaultName)
    ensures Truthy(name) && name.Str? ==> r.Ok? && AfterLastSlash(r.value, name.s)
  {
    if !Truthy(name) then Ok(DefaultName)
    else if !name.Str? then Err(NameNotString)
    else
      SplitLastSuffix(name.s, '/');
      Ok(LastOf(Split(name.s, '/')))
  }

  /**
   * `r` is the text after the last `/` of `s`: a slash-free suffix of `s`
   * that is either all of `s` or preceded by a slash.
   */
  predicate AfterLastSlash(r: string, s: string)
  {
    && |r| <= |s| && s[|s| - |r|..] == r
    && '/' !in r
    && (|r| < |s| ==> s[|s| - |r| - 1] == '/')
  }

  /** `version || '0.1.0'`. */
  function Version(version: Value): (r: Value)
    ensures Truthy(r)
    ensures Truthy(version) ==> r == version
    ensures !Truthy(version) ==> r == Str(DefaultVersion)
  {
    if Truthy(version) then version else Str(DefaultVersion)
  }

  /** `String(v)` as a template literal renders it. */
  function Render(v: Value): string
  {
    match v
    case Undefined => "undefined"
    case Null => "null"
    case Bool(b) => if b then "true" else "false"
    case Num(n) => IntToString(n)
    case Str(s) => s
    case Arr(items) =>
      // `Array.prototype.join` renders `null` and `undefined` elements as empty
      Join(seq(|items|, i requires 0 <= i < |items| => if items[i].Null? || items[i].Undefined? then "" else Render(items[i])), ',')
    case Obj(_) => "[object Object]"
  }

  datatype Package = Package(name: string, version: Value, owPackage: string)

  /**
   * The defaults `loadCommonConfig` applies to `package.json`, and the
   * OpenWhisk package name `<name>-<version>` built from them.
   */
  function PackageDefaults(name: Value, version: Value): (r: Result<Package, PackageError>)
    ensures r.Err? <==> UnqualifiedName(name).Err?
    ensures r.Ok? ==> r.value.name == UnqualifiedName(name).value && r.value.version == Version(version)
    ensures r.Ok? ==> |r.value.name| < |r.value.owPackage| && r.value.owPackage[..|r.value.name| + 1] == r.value.name + "-"
    ensures r.Ok? ==> r.value.owPackage == r.value.name + "-" + Render(r.value.version)
  {
    var unqualified :- UnqualifiedName(name);
    var v := Version(version);
    var owPackage := unqualified + "-" + Render(v);
    assert owPackage[..|unqualified| + 1] == unqualified + "-";
    Ok(Package(unqualified, v, owPackage))
  }

  // distribution subfolder

  /** `configName.replace(/\//g, '-')`: every slash becomes a dash. */
  function SubfolderName(configName: string): (r: string)
    ensures |r| == |configName|
    ensures '/' !in r
    ensures forall i :: 0 <= i < |r| && configName[i] != '/' ==> r[i] == configName[i]
  {
    seq(|configName|, i requires 0 <= i < |configName| => if configName[i] == '/' then '-' else configName[i])
  }

  // the implements list

  /** `a <= b` in the code-unit order `Array.prototype.sort` uses on strings. */
  predicate NotAfter(a: string, b: string)
    decreases |a|
  {
    |a| == 0 || (|b| > 0 && (a[0] < b[0] || (a[0] == b[0] && NotAfter(a[1..], b[1..]))))
  }

  /** Every adjacent pair is in order. */
  predicate Sorted(s: seq<string>)
  {
    forall i :: 0 < i < |s| ==> NotAfter(s[i - 1], s[i])
  }

  /** Inserts `x` before the first element it does not come after. */
  function Insert(x: string, s: seq<string>): (r: seq<string>)
    requires Sorted(s)
    ensures Sorted(r)
    ensures multiset(r) == multiset(s) + multiset{x}
    ensures |r| == |s| + 1 && (r[0] == x || (|s| > 0 && r[0] == s[0]))
    decreases |s|
  {
    if |s| == 0 || NotAfter(x, s[0]) then [x] + s
    else
      NotAfterTotal(x, s[0]);
      var rest := Insert(x, s[1..]);
      assert s == [s[0]] + s[1..];
      [s[0]] + rest
  }

  /** Insertion sort. */
  function Sort(s: seq<string>): (r: seq<string>)
    ensures Sorted(r)
    ensures multiset(r) == multiset(s)
    decreases |s|
  {
    if |s| == 0 then []
    else
      assert s == [s[0]] + s[1..];
      Insert(s[0], Sort(s[1..]))
  }

  /** The order is total: of two strings one comes first. */
  lemma {:induction false} NotAfterTotal(a: string, b: string)
    ensures NotAfter(a, b) || NotAfter(b, a)
    decreases |a|
  {
    if |a| > 0 && |b| > 0 && a[0] == b[0] {
      NotAfterTotal(a[1..], b[1..]);
    }
  }

  /** The order is transitive. */
  lemma {:induction false} NotAfterTransitive(a: string, b: string, c: string)
    requires NotAfter(a, b) && NotAfter(b, c)
    ensures NotAfter(a, c)
    decreases |a|
  {
    if |a| > 0 && a[0] == b[0] && b[0] == c[0] {
      NotAfterTransitive(a[1..], b[1..], c[1..]);
    }
  }

  /** In a sorted list every element comes no later than every element after it. */
  lemma {:induction false} SortedPairwise(s: seq<string>, i: nat, j: nat)
    requires Sorted(s) && i <= j < |s|
    ensures NotAfter(s[i], s[j])
    decreases j - i
  {
    if i == j {
      NotAfterReflexive(s[i]);
    } else {
      SortedPairwise(s, i, j - 1);
      NotAfterTransitive(s[i], s[j - 1], s[j]);
    }
  }

  lemma {:induction false} NotAfterReflexive(a: string)
    ensures NotAfter(a, a)
    decreases |a|
  {
    if |a| > 0 {
      NotAfterReflexive(a[1..]);
    }
  }

  /** The failure when nothing is implemented and that is not allowed. */
  function NoImplementationMessage(cwd: string): string
  {
    "Couldn't find configuration in '" + cwd + "', make sure to add at least one extension or a standalone app"
  }

  /**
   * The `implements` list: the keys of every built configuration, sorted.
   * It fails when it is empty, unless an empty list is allowed.
   */
  function Implements(keys: seq<string>, allowNoImpl: bool, cwd: string): (r: Result<seq<string>, string>)
    ensures r.Err? <==> !allowNoImpl && |keys| == 0
    ensures r.Err? ==> r.error == NoImplementationMessage(cwd)
    ensures r.Ok? ==> Sorted(r.value) && multiset(r.value) == multiset(keys)
  {
    var impl := Sort(keys);
    if !allowNoImpl && |impl| <= 0 then Err(NoImplementationMessage(cwd)) else Ok(impl)
  }

  // extension operations

  /**
   * Why building an extension's configuration fails before its operations
   * are accepted: it has no truthy `operations`; it is `null` or `undefined`,
   * so neither its keys nor its `operations` can be read; it is indexed but
   * the index has no entry for its first own key, so the defining file of
   * that key cannot be read; its `web` is `null`, so `web.src` cannot be
   * read; or one of its path settings is no string, so `path.resolve`
   * rejects it (all but the first are `TypeError`s).
   */
  datatype ExtensionError =
    | MissingOperations(extName: string)
    | ExtensionIsNothing(extName: string)
    | ConfigFileUnknown(extName: string)
    | WebIsNull(extName: string)
    | PathNotString(extName: string, setting: string)

  function ExtensionMessage(e: ExtensionError): string
    requires e.MissingOperations?
  {
    "Missing 'operations' config field for extension point " + e.extName
  }

  const ExtensionsKey: string := "extensions"

  /**
   * The index key of configuration `name`: `application` for the one named
   * like the application, `extensions.<name>` for any other.
   */
  function ExtensionKey(name: string): string
  {
    if name == Legacy.ApplicationKey then Legacy.ApplicationKey else ExtensionsKey + "." + name
  }

  /** `Object.keys(ext)[0]` as a property name: `undefined` when there is no own key. */
  function FirstOwnKey(ext: Value): string
  {
    match ext
    case Obj(fs) => if |fs| > 0 then fs[0].0 else "undefined"
    case Arr(items) => if |items| > 0 then "0" else "undefined"
    case Str(s) => if |s| > 0 then "0" else "undefined"
    case _ => "undefined"
  }

  /** The index key the defining file is read from: the extension key followed by its first own key. */
  function FirstKeyEntry(name: string, ext: Value): string
  {
    ExtensionKey(name) + "." + FirstOwnKey(ext)
  }

  /**
   * `path.resolve` accepts a path setting: a truthy setting must be a string,
   * and a falsy one falls back to the default, which exists only when there
   * is one (`resolveToRoot` gives `undefined` for an empty defining file).
   */
  predicate PathResolves(setting: Value, hasDefault: bool)
  {
    if Truthy(setting) then setting.Str? else hasDefault
  }

  /**
   * The web source folder is accepted: a string `web` is taken as it is, an
   * object or array `web` contributes its `src`, anything else the default.
   */
  predicate WebResolves(web: Value, hasDefault: bool)
  {
    if web.Str? then true
    else if web.Obj? || web.Arr? then PathResolves(Property(web, "src"), hasDefault)
    else hasDefault
  }

  /**
   * The first path setting of an indexed extension that cannot be resolved,
   * in the order the settings are read; `file` is the defining file.
   */
  function PathFailure(name: string, ext: Value, file: string): Option<ExtensionError>
  {
    var hasDefault := file != "";
    if Property(ext, "web").Null? then Some(WebIsNull(name))
    else if !PathResolves(Property(ext, "unitTest"), hasDefault) then Some(PathNotString(name, "unitTest"))
    else if !PathResolves(Property(ext, "e2eTest"), hasDefault) then Some(PathNotString(name, "e2eTest"))
    else if !PathResolves(Property(ext, "dist"), true) then Some(PathNotString(name, "dist"))
    else if !PathResolves(Property(ext, "actions"), hasDefault) then Some(PathNotString(name, "actions"))
    else if !WebResolves(Property(ext, "web"), hasDefault) then Some(PathNotString(name, "web"))
    else None
  }

  /**
   * What stops extension `name` from getting a configuration with operations,
   * if anything. An extension the index does not know gets an empty
   * configuration, so only its `operations` are read.
   */
  function BuildFailure(index: Index, name: string, ext: Value): Option<ExtensionError>
  {
    if ext.Null? || ext.Undefined? then Some(ExtensionIsNothing(name))
    else if ExtensionKey(name) in index && FirstKeyEntry(name, ext) !in index then Some(ConfigFileUnknown(name))
    else if ExtensionKey(name) in index && PathFailure(name, ext, index[FirstKeyEntry(name, ext)].file).Some? then
      PathFailure(name, ext, index[FirstKeyEntry(name, ext)].file)
    else if !Truthy(Property(ext, "operations")) then Some(MissingOperations(name))
    else None
  }

  /** The extension's configuration can be built and declares its operations. */
  predicate Declared(index: Index, ext: (string, Value))
  {
    BuildFailure(index, ext.0, ext.1).None?
  }

  /** Extension `i` is the first one that does not declare its operations. */
  predicate FirstUndeclared(index: Index, exts: Fields, i: int)
  {
    0 <= i < |exts| && !Declared(index, exts[i]) && forall j :: 0 <= j < i ==> Declared(index, exts[j])
  }

  /** Each extension in order with its operations, failing at the first whose configuration cannot be built. */
  function CheckOperations(index: Index, exts: Fields): (r: Result<Fields, ExtensionError>)
    ensures r.Ok? <==> forall i :: 0 <= i < |exts| ==> Declared(index, exts[i])
    ensures r.Ok? ==>
      && |r.value| == |exts|
      && forall i :: 0 <= i < |exts| ==> r.value[i] == (exts[i].0, Property(exts[i].1, "operations"))
    decreases |exts|
  {
    if |exts| == 0 then Ok([])
    else
      var (name, ext) := exts[0];
      var failure := BuildFailure(index, name, ext);
      if failure.Some? then Err(failure.value)
      else
        match CheckOperations(index, exts[1..])
        case Err(e) =>
          assert forall i :: 1 <= i < |exts| ==> exts[i] == exts[1..][i - 1];
          Err(e)
        case Ok(rest) =>
          assert forall i :: 1 <= i < |exts| ==> exts[i] == exts[1..][i - 1];
          Ok([(name, Property(ext, "operations"))] + rest)
  }

  /** The check fails with the failure of the first extension that does not declare its operations. */
  lemma {:induction false} FailsAtFirstUndeclared(index: Index, exts: Fields, i: int)
    requires FirstUndeclared(index, exts, i)
    ensures CheckOperations(index, exts) == Err(BuildFailure(index, exts[i].0, exts[i].1).value)
    decreases i
  {
    if i > 0 {
      assert FirstUndeclared(index, exts[1..], i - 1) by {
        assert forall j :: 0 <= j < i - 1 ==> exts[1..][j] == exts[j + 1];
        assert Declared(index, exts[0]);
      }
      FailsAtFirstUndeclared(index, exts[1..], i - 1);
      assert exts[1..][i - 1] == exts[i];
    }
  }

  /** The `operations` of every extension under `extensions`, which may be absent. */
  function ExtensionOperations(index: Index, extensions: Value): (r: Result<Fields, ExtensionError>)
    ensures !Truthy(extensions) ==> r == Ok([])
    ensures r.Ok? <==> !Truthy(extensions) || forall i :: 0 <= i < |Spread(extensions)| ==> Declared(index, Spread(extensions)[i])
  {
    if Truthy(extensions) then CheckOperations(index, Spread(extensions)) else Ok([])
  }

  // S3 settings of a configuration with a frontend

  const DefaultTvmUrl: string := "https://firefly-tvm.adobe.io"

  /** Credentials, built only when the key id, the secret and the bucket are all set. */
  function S3Creds(single: Value): (r: Option<Value>)
    ensures r.Some? <==>
      Truthy(Property(single, "awsaccesskeyid")) && Truthy(Property(single, "awssecretaccesskey")) && Truthy(Property(single, "s3bucket"))
    ensures r.Some? ==>
      && Property(r.value, "accessKeyId") == Property(single, "awsaccesskeyid")
      && Property(r.value, "secretAccessKey") == Property(single, "awssecretaccesskey")
      && Property(Property(r.value, "params"), "Bucket") == Property(single, "s3bucket")
  {
    var id, secret, bucket := Property(single, "awsaccesskeyid"), Property(single, "awssecretaccesskey"), Property(single, "s3bucket");
    if Truthy(id) && Truthy(secret) && Truthy(bucket) then
      var params: Fields := [("Bucket", bucket)];
      var creds: Fields := [("accessKeyId", id), ("secretAccessKey", secret), ("params", Obj(params))];
      LookupFirst(params);
      LookupFirst(creds);
      LookupCons(creds);
      LookupFirst(creds[1..]);
      LookupCons(creds[1..]);
      LookupFirst(creds[2..]);
      assert creds[1..][1..] == creds[2..];
      Some(Obj(creds))
    else None
  }

  /** The token vending machine URL, kept only when it differs from the default (and then even when it is `undefined`). */
  function TvmUrl(single: Value): (r: Option<Value>)
    ensures r.Some? <==> Property(single, "tvmurl") != Str(DefaultTvmUrl)
    ensures r.Some? ==> r.value == Property(single, "tvmurl")
  {
    var url := Property(single, "tvmurl");
    if url != Str(DefaultTvmUrl) then Some(url) else None
  }

  /** The `creds` and `tvmUrl` fields of `s3`; only a configuration with a frontend has them. */
  function S3Settings(single: Value, hasFrontend: bool): (r: Fields)
    ensures !hasFrontend ==> r == []
    ensures hasFrontend ==> Lookup(r, "creds") == S3Creds(single) && Lookup(r, "tvmUrl") == TvmUrl(single)
  {
    if !hasFrontend then []
    else
      var creds := if S3Creds(single).Some? then [("creds", S3Creds(single).value)] else [];
      var tvm := if TvmUrl(single).Some? then [("tvmUrl", TvmUrl(single).value)] else [];
      OptionalFields(S3Creds(single), TvmUrl(single));
      creds + tvm
  }

  /** Two fields each written only when present are each read back as written. */
  lemma OptionalFields(c: Option<Value>, t: Option<Value>)
    ensures var r := (if c.Some? then [("creds", c.value)] else []) + (if t.Some? then [("tvmUrl", t.value)] else []);
      Lookup(r, "creds") == c && Lookup(r, "tvmUrl") == t
  {
    var r := (if c.Some? then [("creds", c.value)] else []) + (if t.Some? then [("tvmUrl", t.value)] else []);
    if |r| > 0 {
      LookupFirst(r);
      LookupCons(r);
      if |r| > 1 {
        LookupFirst(r[1..]);
      }
    }
  }
}

=== FILE: projection_proofs.dfy ===
/**
 * What the small projections promise beyond their contracts: the package
 * name is exactly the text after the last slash, the subfolder name is the
 * configuration name split at slashes and joined with dashes, and the
 * implements list is the one sorted arrangement of the keys.
 */
module ProjectionProofs {
  import opened Results
  import opened Strings
  import opened ConfigTree
  import opened Projection

  // package name

  /** Only one string is the text after the last slash. */
  lemma AfterLastSlashUnique(r1: string, r2: string, s: string)
    requires AfterLastSlash(r1, s) && AfterLastSlash(r2, s)
    ensures r1 == r2
  {
    if |r1| < |r2| {
      SlashInLonger(r1, r2, s);
    } else if |r2| < |r1| {
      SlashInLonger(r2, r1, s);
    } else {
      assert r1 == s[|s| - |r1|..] == r2;
    }
  }

  /** A longer suffix reaches back over the slash that precedes a shorter candidate. */
  lemma SlashInLonger(short: string, long: string, s: string)
    requires AfterLastSlash(short, s) && |short| < |long| <= |s| && s[|s| - |long|..] == long
    ensures '/' in long
  {
    var at := |s| - |short| - 1;
    assert long[at - (|s| - |long|)] == s[at];
  }

  /** A scoped name loses its scope: `@scope/name` becomes `name`. */
  lemma ScopeDropped(scope: string, name: string)
    requires '/' !in name
    ensures UnqualifiedName(Str(scope + "/" + name)) == Ok(name)
  {
    var s := scope + "/" + name;
    assert s[|s| - |name|..] == name;
    assert s[|s| - |name| - 1] == '/';
    AfterLastSlashUnique(UnqualifiedName(Str(s)).value, name, s);
  }

  /** Unqualifying a non-empty unqualified name changes nothing. */
  lemma UnqualifiedNameIdempotent(name: Value)
    requires UnqualifiedName(name).Ok? && |UnqualifiedName(name).value| > 0
    ensures UnqualifiedName(Str(UnqualifiedName(name).value)) == UnqualifiedName(name)
  {
    var r := UnqualifiedName(name).value;
    if Truthy(name) {
      assert '/' !in r;
    } else {
      assert '/' !in DefaultName;
    }
    SplitNoSeparator(r, '/');
  }

  /** An empty `package.json` gives `unnamed-app`, version `0.1.0`, package `unnamed-app-0.1.0`. */
  lemma DefaultPackage()
    ensures PackageDefaults(Undefined, Undefined) == Ok(Package("unnamed-app", Str("0.1.0"), "unnamed-app-0.1.0"))
  {
    assert UnqualifiedName(Undefined) == Ok("unnamed-app");
    assert Render(Version(Undefined)) == "0.1.0";
    assert "unnamed-app" + "-" + "0.1.0" == "unnamed-app-0.1.0";
  }

  /** The package name ends with the version as written when it is a non-empty string. */
  lemma PackageVersion(name: Value, version: string)
    requires PackageDefaults(name, Str(version)).Ok? && |version| > 0
    ensures var p := PackageDefaults(name, Str(version)).value;
      p.owPackage == p.name + "-" + version
  {
  }

  /** A numeric version is rendered in decimal: version `2` of `app` gives package `app-2`, and `-3` gives `app--3`. */
  lemma NumericVersion()
    ensures PackageDefaults(Str("app"), Num(2)) == Ok(Package("app", Num(2), "app-2"))
    ensures PackageDefaults(Str("app"), Num(-3)).value.owPackage == "app--3"
  {
    assert UnqualifiedName(Str("app")) == Ok("app") by {
      SplitNoSeparator("app", '/');
    }
    assert NatToString(2) == "2" && NatToString(3) == "3";
    assert "app" + "-" + "2" == "app-2";
    assert "app" + "-" + ("-" + "3") == "app--3";
  }

  // distribution subfolder

  /** The subfolder name is the configuration name's slash-separated pieces joined with dashes. */
  lemma {:induction false} SubfolderJoinSplit(configName: string)
    ensures SubfolderName(configName) == Join(Split(configName, '/'), '-')
    decreases |configName|
  {
    var s := configName;
    if |s| > 0 {
      var rest := Split(s[1..], '/');
      SubfolderJoinSplit(s[1..]);
      var c := if s[0] == '/' then '-' else s[0];
      assert SubfolderName(s) == [c] + SubfolderName(s[1..]);
      if s[0] == '/' {
        assert Split(s, '/') == [""] + rest;
        assert ([""] + rest)[1..] == rest;
      } else {
        var parts := Split(s, '/');
        assert parts == [[s[0]] + rest[0]] + rest[1..];
        if |rest| > 1 {
          assert parts[1..] == rest[1..];
        }
      }
    }
  }

  // implements

  /** Two strings in order both ways are equal. */
  lemma {:induction false} NotAfterAntisymmetric(a: string, b: string)
    requires NotAfter(a, b) && NotAfter(b, a)
    ensures a == b
    decreases |a|
  {
    if |a| > 0 {
      NotAfterAntisymmetric(a[1..], b[1..]);
      assert a == [a[0]] + a[1..] && b == [b[0]] + b[1..];
    }
  }

  /** A sorted list is fixed by its elements: two sorted arrangements of the same strings are equal. */
  lemma {:induction false} SortedUnique(a: seq<string>, b: seq<string>)
    requires Sorted(a) && Sorted(b) && multiset(a) == multiset(b)
    ensures a == b
    decreases |a|
  {
    assert |a| == |multiset(a)| == |multiset(b)| == |b|;
    if |a| > 0 {
      SortedHeads(a, b);
      SameTails(a, b);
      SortedTail(a);
      SortedTail(b);
      SortedUnique(a[1..], b[1..]);
      assert a == [a[0]] + a[1..] && b == [b[0]] + b[1..];
    }
  }

  /** Two sorted arrangements of the same strings start with the same string. */
  lemma SortedHeads(a: seq<string>, b: seq<string>)
    requires Sorted(a) && Sorted(b) && multiset(a) == multiset(b) && |a| > 0
    ensures |b| > 0 && a[0] == b[0]
  {
    assert a[0] in multiset(b);
    var i :| 0 <= i < |b| && b[i] == a[0];
    assert b[0] in multiset(a);
    var j :| 0 <= j < |a| && a[j] == b[0];
    SortedPairwise(b, 0, i);
    SortedPairwise(a, 0, j);
    NotAfterAntisymmetric(a[0], b[0]);
  }

  lemma SameTails(a: seq<string>, b: seq<string>)
    requires |a| > 0 && |b| > 0 && a[0] == b[0] && multiset(a) == multiset(b)
    ensures multiset(a[1..]) == multiset(b[1..])
  {
    assert a == [a[0]] + a[1..] && b == [b[0]] + b[1..];
    assert multiset(a) == multiset{a[0]} + multiset(a[1..]);
    assert multiset(b) == multiset{b[0]} + multiset(b[1..]);
    assert multiset(a[1..]) == multiset(a) - multiset{a[0]} == multiset(b) - multiset{b[0]} == multiset(b[1..]);
  }

  lemma SortedTail(s: seq<string>)
    requires Sorted(s) && |s| > 0
    ensures Sorted(s[1..])
  {
    forall i | 0 < i < |s[1..]|
      ensures NotAfter(s[1..][i - 1], s[1..][i])
    {
      assert s[1..][i - 1] == s[i] && s[1..][i] == s[i + 1];
    }
  }

  /** The implements list is the one sorted arrangement of the configuration keys. */
  lemma ImplementsIsTheSortedKeys(keys: seq<string>, allowNoImpl: bool, cwd: string, sorted: seq<string>)
    requires Implements(keys, allowNoImpl, cwd).Ok?
    requires Sorted(sorted) && multiset(sorted) == multiset(keys)
    ensures Implements(keys, allowNoImpl, cwd).value == sorted
  {
    SortedUnique(Implements(keys, allowNoImpl, cwd).value, sorted);
  }

  // extension operations

  /**
   * An indexed extension with no own keys — `{}`, `[]`, a number or a boolean —
   * cannot find its defining file, because `extensions.<name>.undefined` is no
   * key the index holds; that stops the check before any later extension.
   */
  lemma NoOwnKeysFails(index: Index, name: string, ext: Value, rest: Fields)
    requires !ext.Null? && !ext.Undefined? && KeysOf(ext) == []
    requires ExtensionKey(name) in index && ExtensionKey(name) + ".undefined" !in index
    ensures CheckOperations(index, [(name, ext)] + rest) == Err(ConfigFileUnknown(name))
  {
    assert ([(name, ext)] + rest)[0] == (name, ext);
    FirstOwnKeyListed(ext);
    assert ExtensionKey(name) + "." + "undefined" == ExtensionKey(name) + ".undefined";
    assert BuildFailure(index, name, ext) == Some(ConfigFileUnknown(name));
  }

  /** The first own key is the first key `Object.keys` lists, spelled as a property name. */
  lemma FirstOwnKeyListed(ext: Value)
    ensures |KeysOf(ext)| > 0 ==> FirstOwnKey(ext) == SegName(KeysOf(ext)[0])
    ensures |KeysOf(ext)| == 0 ==> FirstOwnKey(ext) == "undefined"
  {
    assert NatToString(0) == "0";
  }

  /**
   * When no extension is indexed, only the extension's own value matters: it
   * is declared exactly when it is neither `null` nor `undefined` and its
   * `operations` are truthy.
   */
  lemma UnindexedDeclared(index: Index, exts: Fields)
    requires forall i :: 0 <= i < |exts| ==> ExtensionKey(exts[i].0) !in index
    ensures CheckOperations(index, exts).Ok? <==>
      forall i :: 0 <= i < |exts| ==> !exts[i].1.Null? && !exts[i].1.Undefined? && Truthy(Property(exts[i].1, "operations"))
  {
    assert forall i :: 0 <= i < |exts| ==> (Declared(index, exts[i]) <==>
      !exts[i].1.Null? && !exts[i].1.Undefined? && Truthy(Property(exts[i].1, "operations")));
  }

  /**
   * An extension named like the application is looked up under the
   * application's own index key: when `application` is indexed but not with
   * the extension's first key, its defining file cannot be read, whatever the
   * index holds under `extensions.application`.
   */
  lemma ApplicationNamedIndexed(index: Index, ext: Value, rest: Fields)
    requires ext.Obj? && |ext.fields| > 0
    requires "application" in index && "application." + ext.fields[0].0 !in index
    ensures CheckOperations(index, [("application", ext)] + rest) == Err(ConfigFileUnknown("application"))
  {
    assert ([("application", ext)] + rest)[0] == ("application", ext);
    assert FirstKeyEntry("application", ext) == "application." + ext.fields[0].0;
  }

  /**
   * An extension named like the application that the index does not know
   * under `application` gets an empty configuration, so it fails only for its
   * missing `operations`, whatever the index holds under `extensions.application`.
   */
  lemma ApplicationNamedUnindexed(index: Index, ext: Value, rest: Fields)
    requires !ext.Null? && !ext.Undefined? && !Truthy(Property(ext, "operations"))
    requires "application" !in index
    ensures CheckOperations(index, [("application", ext)] + rest) == Err(MissingOperations("application"))
  {
    assert ([("application", ext)] + rest)[0] == ("application", ext);
    assert ExtensionKey("application") == "application";
  }

  /**
   * A top-level `application` with `actions`, next to an extension named
   * `application` that declares its operations: the extension reads the
   * application's index entries and finds none for `operations`.
   */
  lemma ApplicationNamedExample()
    ensures var index := map[
        "application" := Entry("app.config.yaml", "application"),
        "application.actions" := Entry("app.config.yaml", "application.actions"),
        "extensions.application" := Entry("app.config.yaml", "extensions.application"),
        "extensions.application.operations" := Entry("app.config.yaml", "extensions.application.operations")];
      CheckOperations(index, [("application", Obj([("operations", Obj([("view", Arr([]))]))]))])
        == Err(ConfigFileUnknown("application"))
  {
    var index := map[
        "application" := Entry("app.config.yaml", "application"),
        "application.actions" := Entry("app.config.yaml", "application.actions"),
        "extensions.application" := Entry("app.config.yaml", "extensions.application"),
        "extensions.application.operations" := Entry("app.config.yaml", "extensions.application.operations")];
    var ext := Obj([("operations", Obj([("view", Arr([]))]))]);
    assert "application.operations" !in index by {
      assert "application.operations"[12] != "application.actions"[12];
      assert "application.operations"[0] != "extensions.application"[0];
      assert "application.operations"[0] != "extensions.application.operations"[0];
    }
    assert "application." + ext.fields[0].0 == "application.operations";
    ApplicationNamedIndexed(index, ext, []);
    assert [("application", ext)] + [] == [("application", ext)];
  }

  /**
   * An indexed extension whose `web` is `null` fails reading `web.src`, even
   * with its `operations` declared.
   */
  lemma WebNullFails(index: Index, name: string, ext: Value, rest: Fields)
    requires !ext.Null? && !ext.Undefined?
    requires ExtensionKey(name) in index && FirstKeyEntry(name, ext) in index
    requires Property(ext, "web").Null?
    ensures CheckOperations(index, [(name, ext)] + rest) == Err(WebIsNull(name))
  {
    assert ([(name, ext)] + rest)[0] == (name, ext);
    assert PathFailure(name, ext, index[FirstKeyEntry(name, ext)].file) == Some(WebIsNull(name));
  }

  /**
   * Path settings that are strings or absent, with a `web` that is a string,
   * absent, or an object whose `src` is a string or absent, all resolve once
   * the defining file is known.
   */
  lemma StringSettingsResolve(name: string, ext: Value, file: string)
    requires file != ""
    requires StringOrAbsent(Property(ext, "unitTest")) && StringOrAbsent(Property(ext, "e2eTest"))
    requires StringOrAbsent(Property(ext, "dist")) && StringOrAbsent(Property(ext, "actions"))
    requires var web := Property(ext, "web");
      StringOrAbsent(web) || (web.Obj? && StringOrAbsent(Property(web, "src")))
    ensures PathFailure(name, ext, file) == None
  {
  }

  /** A setting that is a string or not given at all. */
  predicate StringOrAbsent(v: Value)
  {
    v.Str? || v.Undefined?
  }

  /**
   * A truthy `actions` that is no string stops an indexed extension whose
   * earlier settings resolve, even with its `operations` declared; a falsy
   * one, `0` included, falls back to the default instead.
   */
  lemma NonStringActionsFails(index: Index, name: string, ext: Value, rest: Fields)
    requires !ext.Null? && !ext.Undefined?
    requires ExtensionKey(name) in index && FirstKeyEntry(name, ext) in index
    requires var hasDefault := index[FirstKeyEntry(name, ext)].file != "";
      && !Property(ext, "web").Null?
      && PathResolves(Property(ext, "unitTest"), hasDefault)
      && PathResolves(Property(ext, "e2eTest"), hasDefault)
      && PathResolves(Property(ext, "dist"), true)
    requires Truthy(Property(ext, "actions")) && !Property(ext, "actions").Str?
    ensures CheckOperations(index, [(name, ext)] + rest) == Err(PathNotString(name, "actions"))
  {
    assert ([(name, ext)] + rest)[0] == (name, ext);
    assert PathFailure(name, ext, index[FirstKeyEntry(name, ext)].file) == Some(PathNotString(name, "actions"));
  }

  /** A zero `actions` is falsy, so the default actions folder is taken and nothing fails. */
  lemma ZeroActionsResolves(name: string, file: string)
    requires file != ""
    ensures PathFailure(name, Obj([("actions", Num(0))]), file) == None
  {
  }

  // S3

  /** A custom URL is kept, the default one is dropped, and a missing one is kept as `undefined`. */
  lemma TvmUrlCases()
    ensures TvmUrl(Obj([("tvmurl", Str("customurl"))])) == Some(Str("customurl"))
    ensures TvmUrl(Obj([("tvmurl", Str("https://firefly-tvm.adobe.io"))])) == None
    ensures TvmUrl(Obj([])) == Some(Undefined)
  {
    LookupFirst([("tvmurl", Str("customurl"))]);
    LookupFirst([("tvmurl", Str("https://firefly-tvm.adobe.io"))]);
  }
}

=== FILE: resolver.dfy ===
/**
 * The include resolver of `coalesce` (src/index.js). It walks the root
 * configuration document with a last-in-first-out work list. Every visited key
 * gets a provenance entry. Objects and arrays are descended into. String
 * leaves under a path-valued key are rewritten relative to the root. Each
 * `$include` directive is replaced by the keys of the document it names.
 *
 * Documents are a map from their POSIX path to their parsed tree; a path is
 * "on disk" exactly when it is a key of that map. A work item addresses the
 * object it came from by its location in the current tree: the resolver never
 * replaces an object node, it only deletes the directive, rewrites string
 * leaves and adds keys, so the location stays valid.
 */
module Resolver {
  import opened Results
  import opened Strings
  import opened PosixPath
  import opened ConfigTree
  import opened PathKeys

  /** The key that names a document to splice into its object. */
  const Directive: string := "$include"

  /** The directive as one segment of a merged key, with its leading dot. */
  const DirectiveSegment: string := ".$include"

  /** The documents the resolver can load, by path. */
  type Docs = map<string, Value>

  /** The files included on the way to a key, the root first; never empty. */
  type Chain = c: seq<string> | |c| > 0 witness [""]

  function Last(c: Chain): string
  {
    c[|c| - 1]
  }

  /**
   * One entry of the work list: key `key` of the object or array at `loc`,
   * reached through the files of `chain`. `parentFull` is the merged key of
   * that parent and `parentRel` its key relative to the defining file, both
   * spelled with a leading dot (".a.b"), or empty at the top of a file.
   */
  datatype Item = Item(loc: seq<Seg>, key: Seg, chain: Chain, parentFull: string, parentRel: string)

  /** The merged key of an item, `fullKeyParent.concat('.' + key)`. */
  function FullKey(it: Item): string
  {
    it.parentFull + "." + SegName(it.key)
  }

  /** The key relative to the defining file, with its leading dot. */
  function RelKey(it: Item): string
  {
    it.parentRel + "." + SegName(it.key)
  }

  /** `s.slice(1)`. */
  function Drop1(s: string): string
  {
    if |s| == 0 then s else s[1..]
  }

  /** The index key of an item: its merged key without the leading dot. */
  function IndexKey(it: Item): string
  {
    FullKey(it)[1..]
  }

  /** `buildStackEntries`: one item per key, in key order, under the given parent. */
  function Items(keys: seq<Seg>, loc: seq<Seg>, chain: Chain, parentFull: string, parentRel: string): (r: seq<Item>)
    ensures |r| == |keys|
    ensures forall i :: 0 <= i < |r| ==> r[i] == Item(loc, keys[i], chain, parentFull, parentRel)
  {
    seq(|keys|, i requires 0 <= i < |keys| => Item(loc, keys[i], chain, parentFull, parentRel))
  }

  /** The keys of `ks` that also occur in `keep`, in the order of `ks`. */
  function KeepOnly(ks: seq<string>, keep: seq<string>): (r: seq<string>)
    ensures forall k :: k in r <==> k in ks && k in keep
    ensures |r| <= |ks|
  {
    if |ks| == 0 then []
    else if ks[0] in keep then [ks[0]] + KeepOnly(ks[1..], keep)
    else KeepOnly(ks[1..], keep)
  }

  function AsKeys(names: seq<string>): (r: seq<Seg>)
    ensures |r| == |names|
    ensures forall i :: 0 <= i < |r| ==> r[i] == Key(names[i])
  {
    seq(|names|, i requires 0 <= i < |names| => Key(names[i]))
  }

  /**
   * `fullKey.split('.$include').join('')`: every occurrence of the directive
   * segment removed, scanning left to right.
   */
  function StripDirective(s: string): (r: string)
    ensures |r| <= |s|
    decreases |s|
  {
    if |s| >= |DirectiveSegment| && s[..|DirectiveSegment|] == DirectiveSegment then
      StripDirective(s[|DirectiveSegment|..])
    else if |s| == 0 then ""
    else [s[0]] + StripDirective(s[1..])
  }

  /** Some occurrence of the directive segment starts at position `i` of `s`. */
  predicate DirectiveAt(s: string, i: nat)
  {
    i + |DirectiveSegment| <= |s| && s[i..i + |DirectiveSegment|] == DirectiveSegment
  }

  /**
   * `resolveToRoot`: a path written in file `from` made relative to the root
   * (`path.join` with the file's directory) or absolute (`path.resolve`,
   * against the working directory `cwd`). `None` is `undefined`, returned
   * when either argument is empty.
   */
  function ResolveToRoot(value: string, from: string, absolute: bool, cwd: string): (r: Option<string>)
    ensures r.None? <==> value == "" || from == ""
    ensures r.Some? && absolute && IsAbsolute(cwd) ==> IsAbsolute(r.value)
    ensures r.Some? && !absolute ==> (IsAbsolute(r.value) <==> IsAbsolute(from))
  {
    if value == "" || from == "" then None
    else if absolute then
      assert IsAbsolute(cwd) ==> IsAbsolute(Resolve(cwd, [Dirname(from), value])) by {
        if IsAbsolute(cwd) {
          ResolveIsAbsolute(cwd, [Dirname(from), value]);
        }
      }
      Some(Resolve(cwd, [Dirname(from), value]))
    else Some(PathJoin(Dirname(from), value))
  }

  /** `undefined` or a string, as a tree value. */
  function OptionalString(o: Option<string>): Value
  {
    match o
    case None => Undefined
    case Some(s) => Str(s)
  }

  /** Why resolution stopped. */
  datatype Error =
    | Cycle(files: seq<string>)
    | Unresolvable(file: string)
    | NotAnObject(file: string)
    | NullTarget(file: string)
    | IncludeNotString
    | OutOfFuel

  /** The message of each error the resolver itself throws. */
  function Message(e: Error): string
    requires e.Cycle? || e.Unresolvable? || e.NotAnObject?
  {
    match e
    case Cycle(files) =>
      "Detected '" + Directive + "' cycle: '" + Join(files, ',') + "', please make sure that your configuration has no cycles."
    case Unresolvable(file) =>
      "'" + Directive + ": " + file + "' cannot be resolved, please make sure the file exists."
    case NotAnObject(file) =>
      "'" + Directive + ": " + file + "' does not resolve to an object. Including an array or primitive type config is not supported."
  }

  /** The resolver's state: the tree being resolved, the index, the include cache and the work list. */
  datatype State = State(tree: Value, index: Index, cache: map<string, Value>, stack: seq<Item>)

  /** The top of a non-empty work list. */
  function Top(st: State): Item
    requires |st.stack| > 0
  {
    st.stack[|st.stack| - 1]
  }

  /** The work list without its top. */
  function Pop(st: State): seq<Item>
    requires |st.stack| > 0
  {
    st.stack[..|st.stack| - 1]
  }

  /** The object or array an item came from, `parentObj`. */
  function ParentOf(tree: Value, it: Item): Value
  {
    Get(tree, it.loc).GetOr(Undefined)
  }

  /** The node an item reads: `parentObj[key]`, `undefined` when there is none. */
  function ValueOf(tree: Value, it: Item): Value
  {
    Read(ParentOf(tree, it), it.key).GetOr(Undefined)
  }

  /** The file a directive in `from` names: its value joined to the directory of `from`. */
  function IncludeTarget(from: string, value: string): string
  {
    PathJoin(Dirname(from), value)
  }

  /**
   * The document an include loads: the cached tree when there is one, else the
   * file itself.
   */
  function LoadDoc(cache: map<string, Value>, docs: Docs, file: string): Value
    requires file in cache || file in docs
  {
    if file in cache then cache[file] else docs[file]
  }

  /**
   * One iteration of the work loop: pop an item, record its provenance, then
   * descend into an object or array, rewrite a path-valued string, or splice
   * in the document a directive names.
   */
  function Step(st: State, docs: Docs, absolute: bool, cwd: string): (r: Result<State, Error>)
    requires |st.stack| > 0
    ensures r.Err? ==> Top(st).key == Key(Directive) && !IsObjectLike(ValueOf(st.tree, Top(st)))
    ensures r.Ok? ==> IndexKey(Top(st)) in r.value.index
    ensures r.Ok? ==> r.value.index[IndexKey(Top(st))] == Entry(Last(Top(st).chain), Drop1(RelKey(Top(st))))
    ensures r.Ok? ==> forall k :: k != IndexKey(Top(st)) ==>
      (k in r.value.index <==> k in st.index) && (k in st.index ==> r.value.index[k] == st.index[k])
    ensures r.Ok? ==> |r.value.stack| >= |st.stack| - 1 && r.value.stack[..|st.stack| - 1] == Pop(st)
  {
    var it := Top(st);
    var file := Last(it.chain);
    var index := st.index[IndexKey(it) := Entry(file, Drop1(RelKey(it)))];
    var value := ValueOf(st.tree, it);
    if IsObjectLike(value) then
      var children := Items(KeysOf(value), it.loc + [it.key], it.chain, FullKey(it), RelKey(it));
      Ok(State(st.tree, index, st.cache, Pop(st) + children))
    else if it.key != Key(Directive) then
      var tree :=
        if value.Str? && IsPathKey(IndexKey(it)) then
          SetAt(st.tree, it.loc + [it.key], OptionalString(ResolveToRoot(value.s, file, absolute, cwd)))
        else st.tree;
      Ok(State(tree, index, st.cache, Pop(st)))
    else if !value.Str? then
      Err(IncludeNotString)
    else
      // A directive is never path-valued, so the rewrite above leaves it alone.
      assert !IsPathKey(IndexKey(it)) by {
        assert FullKey(it) == it.parentFull + DirectiveSegment;
        DirectiveIsNotPathKey(it.parentFull);
      }
      KeyedParent(st.tree, it);
      Include(State(st.tree, index, st.cache, Pop(st)), docs, it, ParentOf(st.tree, it).fields, value.s)
  }

  /** Only an object has a named key holding a string. */
  lemma KeyedParent(tree: Value, it: Item)
    requires it.key.Key? && ValueOf(tree, it).Str?
    ensures ParentOf(tree, it).Obj?
  {
  }

  /**
   * The directive handling of one item whose value is the string `value` in
   * the object with fields `local`: cycle check, existence check, type check,
   * splice and re-enqueue.
   */
  function Include(st: State, docs: Docs, it: Item, local: Fields, value: string): (r: Result<State, Error>)
    ensures r.Ok? ==> r.value.index == st.index
    ensures r.Ok? ==> |r.value.stack| >= |st.stack| && r.value.stack[..|st.stack|] == st.stack
  {
    var target := IncludeTarget(Last(it.chain), value);
    if target in it.chain then
      Err(Cycle(it.chain + [target]))
    else if target !in st.cache && target !in docs then
      Err(Unresolvable(target))
    else
      var loaded := LoadDoc(st.cache, docs, target);
      if !loaded.Obj? && !loaded.Null? then
        Err(NotAnObject(target))
      else if loaded.Null? then
        Err(NullTarget(target))
      else
        var merged := Splice(Remove(local, Directive), loaded.fields);
        var chain := it.chain + [target];
        var again := AsKeys(KeepOnly(Keys(merged), Keys(loaded.fields)));
        var pushed := Items(again, it.loc, chain, StripDirective(FullKey(it)), "");
        assert (st.stack + pushed)[..|st.stack|] == st.stack;
        Ok(State(
          SetAt(st.tree, it.loc, Obj(merged)),
          st.index,
          st.cache[target := loaded],
          st.stack + pushed))
  }

  /** One iteration of the loop, for fixed documents and options. */
  function Iteration(docs: Docs, absolute: bool, cwd: string): State --> Result<State, Error>
  {
    (st: State) requires |st.stack| > 0 => Step(st, docs, absolute, cwd)
  }

  /**
   * `while (traverseStack.length > 0)`: iterate `step` until the work list is
   * empty or an iteration fails, for at most `fuel` iterations.
   */
  function Loop(st: State, step: State --> Result<State, Error>, fuel: nat): (r: Result<State, Error>)
    requires forall s: State :: |s.stack| > 0 ==> step.requires(s)
    ensures r.Ok? ==> |r.value.stack| == 0
    decreases fuel
  {
    if |st.stack| == 0 then Ok(st)
    else if fuel == 0 then Err(OutOfFuel)
    else
      var next :- step(st);
      Loop(next, step, fuel - 1)
  }

  /** The work loop of the resolver. */
  function Run(st: State, docs: Docs, absolute: bool, cwd: string, fuel: nat): Result<State, Error>
  {
    Loop(st, Iteration(docs, absolute, cwd), fuel)
  }

  /** The state before the first iteration: every key of the root document on the work list. */
  function Initial(root: string, doc: Value): State
  {
    State(doc, map[], map[], Items(KeysOf(doc), [], [root], "", ""))
  }

  /** The resolved configuration and its provenance index. */
  datatype Coalesced = Coalesced(config: Value, index: Index)

  /** `coalesce(appConfigFile, { absolutePaths })`. */
  function Coalesce(root: string, docs: Docs, absolute: bool, cwd: string, fuel: nat): (r: Result<Coalesced, Error>)
    ensures root !in docs ==> r == Ok(Coalesced(Obj([]), map[]))
  {
    if root !in docs then Ok(Coalesced(Obj([]), map[]))
    else
      var done :- Run(Initial(root, docs[root]), docs, absolute, cwd, fuel);
      Ok(Coalesced(done.tree, done.index))
  }
}

=== FILE: resolver_proofs.dfy ===
/**
 * What one iteration and the whole work loop of the include resolver
 * guarantee: which directives fail and with which error, how a splice merges
 * the included document, which items an include puts back on the work list,
 * which leaves a rewrite may touch, and what the provenance index records.
 */
module ResolverProofs {
  import opened Results
  import opened Strings
  import opened PosixPath
  import opened ConfigTree
  import opened PathKeys
  import opened Resolver

  /** Every cached document is the document on disk under the same path. */
  ghost predicate CacheCoherent(cache: map<string, Value>, docs: Docs)
  {
    forall f :: f in cache ==> f in docs && cache[f] == docs[f]
  }

  /**
   * Only an include directive can fail, and it fails exactly as follows: a
   * non-string value; a target already on the chain (a cycle, reported with
   * the whole chain and the repeated file); a target that is neither cached nor
   * on disk; a target that is not an object, or is null. With a coherent cache,
   * "cached or on disk" is "on disk".
   */
  lemma StepFailures(st: State, docs: Docs, absolute: bool, cwd: string)
    requires |st.stack| > 0
    requires CacheCoherent(st.cache, docs)
    ensures var it := Top(st); var v := ValueOf(st.tree, it); var r := Step(st, docs, absolute, cwd);
      && (r.Err? ==> it.key == Key(Directive) && !IsObjectLike(v))
      && (it.key == Key(Directive) && !IsObjectLike(v) && !v.Str? ==> r == Err(IncludeNotString))
      && (it.key == Key(Directive) && v.Str? ==>
            var target := IncludeTarget(Last(it.chain), v.s);
            && (target in it.chain ==> r == Err(Cycle(it.chain + [target])))
            && (target !in it.chain && target !in docs ==> r == Err(Unresolvable(target)))
            && (target !in it.chain && target in docs && !docs[target].Obj? && !docs[target].Null? ==>
                  r == Err(NotAnObject(target)))
            && (target !in it.chain && target in docs && docs[target].Null? ==> r == Err(NullTarget(target)))
            && (target !in it.chain && target in docs && docs[target].Obj? ==> r.Ok?))
  {
  }

  /** Every object of every document has distinct keys, as a parsed YAML mapping does. */
  ghost predicate DocsUnique(docs: Docs)
  {
    forall f :: f in docs && docs[f].Obj? ==> UniqueKeys(docs[f].fields)
  }

  /** The document a successful directive on top of the work list names. */
  function TargetOf(st: State): string
    requires |st.stack| > 0
    requires ValueOf(st.tree, Top(st)).Str?
  {
    IncludeTarget(Last(Top(st).chain), ValueOf(st.tree, Top(st)).s)
  }

  /**
   * A successful include splices the named document into the object holding
   * the directive. The object's own keys other than the directive come first,
   * in their order, and keep their values. Keys only the document has are
   * added with the document's values; the directive itself is gone unless the
   * document has one of its own. Values are taken whole, never merged deeper,
   * and nothing outside that object changes.
   */
  lemma StepSplice(st: State, docs: Docs, absolute: bool, cwd: string)
    requires |st.stack| > 0
    requires CacheCoherent(st.cache, docs) && DocsUnique(docs)
    requires Top(st).key == Key(Directive) && ValueOf(st.tree, Top(st)).Str?
    requires ParentOf(st.tree, Top(st)).Obj? && UniqueKeys(ParentOf(st.tree, Top(st)).fields)
    requires Step(st, docs, absolute, cwd).Ok?
    ensures var it := Top(st); var r := Step(st, docs, absolute, cwd).value;
      var parent := ParentOf(st.tree, it).fields; var local := Remove(parent, Directive);
      && TargetOf(st) in docs && docs[TargetOf(st)].Obj?
      && var loaded := docs[TargetOf(st)].fields;
      && Get(r.tree, it.loc).Some? && Get(r.tree, it.loc).value.Obj?
      && var m := Get(r.tree, it.loc).value.fields;
      && UniqueKeys(m)
      && (Directive in Keys(m) <==> Directive in Keys(loaded))
      && |m| >= |local| && Keys(m)[..|local|] == Keys(local)
      && (forall k :: k in Keys(m) <==> (k in Keys(parent) && k != Directive) || k in Keys(loaded))
      && (forall k :: k in Keys(parent) && k != Directive ==> Lookup(m, k) == Lookup(parent, k))
      && (forall k :: (k !in Keys(parent) || k == Directive) ==> Lookup(m, k) == Lookup(loaded, k))
      && (forall q :: Diverge(it.loc, q) ==> Get(r.tree, q) == Get(st.tree, q))
  {
    var it := Top(st);
    var parent := ParentOf(st.tree, it).fields;
    var local := Remove(parent, Directive);
    var target := TargetOf(st);
    var loaded := docs[target].fields;
    var merged := Splice(local, loaded);
    var r := Step(st, docs, absolute, cwd).value;
    StepInclude(st, docs, absolute, cwd);
    GetSetAt(st.tree, it.loc, Obj(merged));
    SpliceSpec(local, loaded);
    forall q | Diverge(it.loc, q)
      ensures Get(r.tree, q) == Get(st.tree, q)
    {
      GetSetAtOther(st.tree, it.loc, q, Obj(merged));
    }
  }

  /**
   * Removing every directive segment from a merged key that ends in one gives
   * what removing them from the key without it gives: the segment cannot
   * overlap what comes before, because a dot occurs in it only at its start.
   */
  lemma {:induction false} StripDirectiveAppend(p: string)
    ensures StripDirective(p + DirectiveSegment) == StripDirective(p)
    decreases |p|
  {
    var n := |DirectiveSegment|;
    var s := p + DirectiveSegment;
    if |p| == 0 {
      assert s == DirectiveSegment;
      assert s[n..] == "";
    } else if |p| >= n && p[..n] == DirectiveSegment {
      assert s[..n] == p[..n];
      assert s[n..] == p[n..] + DirectiveSegment;
      StripDirectiveAppend(p[n..]);
    } else {
      assert s[..n] != DirectiveSegment by {
        if |p| >= n {
          assert s[..n] == p[..n];
        } else {
          // The segment's second half would have to start with its leading dot.
          assert s[|p|] == '.';
          assert DirectiveSegment[|p|] != '.';
        }
      }
      assert s[0] == p[0];
      assert s[1..] == p[1..] + DirectiveSegment;
      StripDirectiveAppend(p[1..]);
    }
  }

  /** A merged key without any directive segment is left as it is. */
  lemma {:induction false} StripDirectiveFree(p: string)
    requires forall i: nat :: !DirectiveAt(p, i)
    ensures StripDirective(p) == p
    decreases |p|
  {
    if |p| > 0 {
      StripDirectiveCons(p);
      NoDirectiveInTail(p);
      StripDirectiveFree(p[1..]);
      assert [p[0]] + p[1..] == p;
    }
  }

  /** Where no segment starts, the first character is kept. */
  lemma StripDirectiveCons(p: string)
    requires |p| > 0 && !DirectiveAt(p, 0)
    ensures StripDirective(p) == [p[0]] + StripDirective(p[1..])
  {
    if |p| >= |DirectiveSegment| {
      assert p[0..|DirectiveSegment|] == p[..|DirectiveSegment|];
    }
  }

  lemma NoDirectiveInTail(p: string)
    requires |p| > 0 && forall i: nat :: !DirectiveAt(p, i)
    ensures forall i: nat :: !DirectiveAt(p[1..], i)
  {
    forall i: nat
      ensures !DirectiveAt(p[1..], i)
    {
      assert !DirectiveAt(p, i + 1);
      if i + |DirectiveSegment| <= |p[1..]| {
        assert p[1..][i..i + |DirectiveSegment|] == p[i + 1..i + 1 + |DirectiveSegment|];
      }
    }
  }

  /**
   * The state after a successful include: the object holding the directive
   * replaced by the splice, the document cached as loaded, and the merged
   * object's keys that the document has (all of them) put back on the work
   * list above the rest (see RequeuedItems).
   */
  lemma StepInclude(st: State, docs: Docs, absolute: bool, cwd: string)
    requires |st.stack| > 0
    requires CacheCoherent(st.cache, docs) && DocsUnique(docs)
    requires Top(st).key == Key(Directive) && ValueOf(st.tree, Top(st)).Str?
    requires ParentOf(st.tree, Top(st)).Obj? && UniqueKeys(ParentOf(st.tree, Top(st)).fields)
    requires Step(st, docs, absolute, cwd).Ok?
    ensures TargetOf(st) in docs && docs[TargetOf(st)].Obj?
    ensures var it := Top(st); var r := Step(st, docs, absolute, cwd).value;
      var loaded := docs[TargetOf(st)].fields;
      var merged := Splice(Remove(ParentOf(st.tree, it).fields, Directive), loaded);
      && r.tree == SetAt(st.tree, it.loc, Obj(merged))
      && r.cache == st.cache[TargetOf(st) := docs[TargetOf(st)]]
      && (forall k :: k in Keys(loaded) ==> k in Keys(merged))
      && r.stack == Pop(st) + Items(AsKeys(KeepOnly(Keys(merged), Keys(loaded))), it.loc,
                                    it.chain + [TargetOf(st)], StripDirective(FullKey(it)), "")
  {
    SpliceSpec(Remove(ParentOf(st.tree, Top(st)).fields, Directive), docs[TargetOf(st)].fields);
  }

  /**
   * The items an include puts back on the work list, one per key of the
   * merged object that the included document has. Each sits in the object
   * that held the directive, has the target appended to its chain, has its
   * relative key reset to the top of the included file, and files its merged
   * key under the directive's merged key with every directive segment
   * removed, which is the object's own merged key when that holds no
   * directive.
   */
  lemma RequeuedItems(it: Item, target: string, merged: Fields, loaded: Fields)
    requires it.key == Key(Directive)
    requires forall k :: k in Keys(loaded) ==> k in Keys(merged)
    ensures var added := Items(AsKeys(KeepOnly(Keys(merged), Keys(loaded))), it.loc, it.chain + [target], StripDirective(FullKey(it)), "");
      && (forall i :: 0 <= i < |added| ==>
            && added[i].loc == it.loc
            && added[i].chain == it.chain + [target]
            && Drop1(RelKey(added[i])) == SegName(added[i].key)
            && added[i].parentFull == StripDirective(it.parentFull)
            && ((forall j: nat :: !DirectiveAt(it.parentFull, j)) ==> added[i].parentFull == it.parentFull)
            && added[i].key.Key? && added[i].key.name in Keys(loaded))
      && (forall k :: k in Keys(loaded) ==> exists i :: 0 <= i < |added| && added[i].key == Key(k))
  {
    var again := KeepOnly(Keys(merged), Keys(loaded));
    var added := Items(AsKeys(again), it.loc, it.chain + [target], StripDirective(FullKey(it)), "");
    assert FullKey(it) == it.parentFull + DirectiveSegment;
    StripDirectiveAppend(it.parentFull);
    if forall j: nat :: !DirectiveAt(it.parentFull, j) {
      StripDirectiveFree(it.parentFull);
    }
    forall k | k in Keys(loaded)
      ensures exists i :: 0 <= i < |added| && added[i].key == Key(k)
    {
      var x :| 0 <= x < |again| && again[x] == k;
      assert added[x].key == Key(k);
    }
  }

  /**
   * A leaf that is not a directive is changed only when it is a string under a
   * path-valued merged key; then it becomes the value resolved against its
   * defining file. Nothing else in the tree changes and the tree keeps its
   * shape.
   */
  lemma StepRewrite(st: State, docs: Docs, absolute: bool, cwd: string)
    requires |st.stack| > 0
    requires Top(st).key != Key(Directive) && !IsObjectLike(ValueOf(st.tree, Top(st)))
    ensures Step(st, docs, absolute, cwd).Ok?
    ensures var it := Top(st); var v := ValueOf(st.tree, it); var r := Step(st, docs, absolute, cwd).value;
      var at := it.loc + [it.key];
      && r.stack == Pop(st) && r.cache == st.cache
      && Shape(r.tree) == Shape(st.tree)
      && (forall q :: Diverge(at, q) ==> Get(r.tree, q) == Get(st.tree, q))
      && (!(v.Str? && IsPathKey(IndexKey(it))) ==> r.tree == st.tree)
      && (v.Str? && IsPathKey(IndexKey(it)) && Get(st.tree, at).Some? ==>
            Get(r.tree, at) == Some(OptionalString(ResolveToRoot(v.s, Last(it.chain), absolute, cwd))))
  {
    var it := Top(st);
    var v := ValueOf(st.tree, it);
    var at := it.loc + [it.key];
    var r := Step(st, docs, absolute, cwd).value;
    if v.Str? && IsPathKey(IndexKey(it)) {
      var w := OptionalString(ResolveToRoot(v.s, Last(it.chain), absolute, cwd));
      assert r.tree == SetAt(st.tree, at, w);
      GetAppend(st.tree, it.loc, it.key);
      if Get(st.tree, at).Some? {
        assert Get(st.tree, at).value == v;
        GetSetAt(st.tree, at, w);
      }
      SetLeafKeepsShape(st.tree, at, w);
      forall q | Diverge(at, q)
        ensures Get(r.tree, q) == Get(st.tree, q)
      {
        GetSetAtOther(st.tree, at, q, w);
      }
    }
  }

  /**
   * An object or array (or null) is descended into: the tree is unchanged and
   * one item per key (per index, for an array) goes on the work list, one
   * level deeper, on the same chain, with its merged and relative keys
   * extended by the key.
   */
  lemma StepDescend(st: State, docs: Docs, absolute: bool, cwd: string)
    requires |st.stack| > 0
    requires IsObjectLike(ValueOf(st.tree, Top(st)))
    ensures Step(st, docs, absolute, cwd).Ok?
    ensures var it := Top(st); var v := ValueOf(st.tree, it); var r := Step(st, docs, absolute, cwd).value;
      var n := |Pop(st)|;
      && r.tree == st.tree && r.cache == st.cache
      && |r.stack| == n + |KeysOf(v)|
      && (forall i :: n <= i < |r.stack| ==>
            && r.stack[i].key == KeysOf(v)[i - n]
            && r.stack[i].loc == it.loc + [it.key]
            && r.stack[i].chain == it.chain
            && IndexKey(r.stack[i]) == IndexKey(it) + "." + SegName(r.stack[i].key)
            && Drop1(RelKey(r.stack[i])) == Drop1(RelKey(it)) + "." + SegName(r.stack[i].key))
  {
    var it := Top(st);
    var r := Step(st, docs, absolute, cwd).value;
    var n := |Pop(st)|;
    var children := Items(KeysOf(ValueOf(st.tree, it)), it.loc + [it.key], it.chain, FullKey(it), RelKey(it));
    assert r.stack == Pop(st) + children;
    forall i | n <= i < |r.stack|
      ensures IndexKey(r.stack[i]) == IndexKey(it) + "." + SegName(r.stack[i].key)
      ensures Drop1(RelKey(r.stack[i])) == Drop1(RelKey(it)) + "." + SegName(r.stack[i].key)
    {
      assert r.stack[i] == children[i - n];
      ChildKeys(it, children[i - n].key);
    }
  }

  /** A child's merged and relative keys extend its parent's by one dotted segment. */
  lemma ChildKeys(parent: Item, k: Seg)
    ensures var c := Item(parent.loc + [parent.key], k, parent.chain, FullKey(parent), RelKey(parent));
      && IndexKey(c) == IndexKey(parent) + "." + SegName(k)
      && Drop1(RelKey(c)) == Drop1(RelKey(parent)) + "." + SegName(k)
  {
    var full, rel := FullKey(parent), RelKey(parent);
    assert |full| > 0 && |rel| > 0;
    assert (full + "." + SegName(k))[1..] == full[1..] + "." + SegName(k);
    assert (rel + "." + SegName(k))[1..] == rel[1..] + "." + SegName(k);
  }

  /**
   * An ancestry chain as the resolver builds it: the root file first, then
   * distinct documents that exist.
   */
  ghost predicate GoodChain(c: Chain, root: string, docs: Docs)
  {
    && c[0] == root
    && (forall i, j :: 0 <= i < j < |c| ==> c[i] != c[j])
    && (forall i :: 1 <= i < |c| ==> c[i] in docs)
  }

  /**
   * What holds of every state of the work loop: the cache agrees with the
   * documents, every work item's chain is good, and every index entry names
   * the root file or an existing document.
   */
  ghost predicate Invariant(st: State, root: string, docs: Docs)
  {
    && CacheCoherent(st.cache, docs)
    && (forall i :: 0 <= i < |st.stack| ==> GoodChain(st.stack[i].chain, root, docs))
    && (forall k :: k in st.index ==> st.index[k].file == root || st.index[k].file in docs)
  }

  /** The loop starts in a state satisfying the invariant. */
  lemma InitialInvariant(root: string, docs: Docs)
    requires root in docs
    ensures Invariant(Initial(root, docs[root]), root, docs)
  {
    var st := Initial(root, docs[root]);
    forall i | 0 <= i < |st.stack|
      ensures GoodChain(st.stack[i].chain, root, docs)
    {
      assert st.stack[i].chain == [root];
    }
  }

  /**
   * A successful include extends the chain of the items it pushes by a target
   * that exists and is not on the chain yet, and caches that target's document.
   */
  lemma IncludeExtendsChain(st: State, docs: Docs, absolute: bool, cwd: string)
    requires |st.stack| > 0
    requires CacheCoherent(st.cache, docs)
    requires Top(st).key == Key(Directive) && ValueOf(st.tree, Top(st)).Str?
    requires Step(st, docs, absolute, cwd).Ok?
    ensures var r := Step(st, docs, absolute, cwd).value; var target := TargetOf(st);
      && target !in Top(st).chain && target in docs
      && r.cache == st.cache[target := docs[target]]
      && forall i :: |st.stack| - 1 <= i < |r.stack| ==> r.stack[i].chain == Top(st).chain + [target]
  {
  }

  /** Every iteration keeps the invariant. */
  lemma StepInvariant(st: State, root: string, docs: Docs, absolute: bool, cwd: string)
    requires |st.stack| > 0
    requires Invariant(st, root, docs)
    requires Step(st, docs, absolute, cwd).Ok?
    ensures Invariant(Step(st, docs, absolute, cwd).value, root, docs)
  {
    var it := Top(st);
    var r := Step(st, docs, absolute, cwd).value;
    var c := StepPushes(st, root, docs, absolute, cwd);
    ChainsKept(st.stack, r.stack, c, root, docs);
    var last := Last(it.chain);
    assert last == root || last in docs by {
      assert GoodChain(it.chain, root, docs);
      if |it.chain| > 1 {
        assert last == it.chain[|it.chain| - 1];
      }
    }
    IndexKept(st.index, r.index, IndexKey(it), last, root, docs);
  }

  /**
   * One iteration pushes items on one good chain (the popped item's, or that
   * chain extended by the included document) and keeps the cache coherent.
   */
  lemma StepPushes(st: State, root: string, docs: Docs, absolute: bool, cwd: string) returns (c: Chain)
    requires |st.stack| > 0
    requires Invariant(st, root, docs)
    requires Step(st, docs, absolute, cwd).Ok?
    ensures var r := Step(st, docs, absolute, cwd).value;
      && GoodChain(c, root, docs)
      && (forall i :: |st.stack| - 1 <= i < |r.stack| ==> r.stack[i].chain == c)
      && CacheCoherent(r.cache, docs)
  {
    var it := Top(st);
    var v := ValueOf(st.tree, it);
    c := it.chain;
    assert GoodChain(c, root, docs);
    if IsObjectLike(v) {
      StepDescend(st, docs, absolute, cwd);
    } else if it.key != Key(Directive) {
      StepRewrite(st, docs, absolute, cwd);
    } else {
      IncludeExtendsChain(st, docs, absolute, cwd);
      ExtendChain(c, TargetOf(st), root, docs);
      c := c + [TargetOf(st)];
    }
  }

  /** Recording one entry for the root or an existing document keeps every entry's file known. */
  lemma IndexKept(before: Index, after: Index, key: string, file: string, root: string, docs: Docs)
    requires forall k :: k in before ==> before[k].file == root || before[k].file in docs
    requires key in after && after[key].file == file && (file == root || file in docs)
    requires forall k :: k != key ==> (k in after <==> k in before) && (k in before ==> after[k] == before[k])
    ensures forall k :: k in after ==> after[k].file == root || after[k].file in docs
  {
  }

  /** Appending an existing document the chain does not hold keeps it good. */
  lemma ExtendChain(c: Chain, t: string, root: string, docs: Docs)
    requires GoodChain(c, root, docs) && t !in c && t in docs
    ensures GoodChain(c + [t], root, docs)
  {
    var e := c + [t];
    forall i, j | 0 <= i < j < |e|
      ensures e[i] != e[j]
    {
      assert e[i] == c[i];
      if j < |c| {
        assert e[j] == c[j];
      }
    }
    forall i | 1 <= i < |e|
      ensures e[i] in docs
    {
      if i < |c| {
        assert e[i] == c[i];
      }
    }
  }

  /**
   * A stack that keeps all but the top item of a stack of good chains, and
   * pushes items with one good chain, holds only good chains.
   */
  lemma ChainsKept(before: seq<Item>, after: seq<Item>, c: Chain, root: string, docs: Docs)
    requires |before| > 0 && |after| >= |before| - 1 && after[..|before| - 1] == before[..|before| - 1]
    requires forall i :: 0 <= i < |before| ==> GoodChain(before[i].chain, root, docs)
    requires forall i :: |before| - 1 <= i < |after| ==> after[i].chain == c
    requires GoodChain(c, root, docs)
    ensures forall i :: 0 <= i < |after| ==> GoodChain(after[i].chain, root, docs)
  {
    var n := |before| - 1;
    forall i | 0 <= i < |after|
      ensures GoodChain(after[i].chain, root, docs)
    {
      if i < n {
        assert after[..n][i] == after[i] && before[..n][i] == before[i];
      }
    }
  }

  /** A loop whose iterations keep the invariant ends in a state that satisfies it. */
  lemma {:induction false} LoopInvariant(st: State, root: string, docs: Docs, step: State --> Result<State, Error>, fuel: nat)
    requires forall s: State :: |s.stack| > 0 ==> step.requires(s)
    requires forall s: State :: |s.stack| > 0 && Invariant(s, root, docs) && step(s).Ok? ==> Invariant(step(s).value, root, docs)
    requires Invariant(st, root, docs)
    requires Loop(st, step, fuel).Ok?
    ensures Invariant(Loop(st, step, fuel).value, root, docs)
    decreases fuel
  {
    if |st.stack| > 0 {
      LoopInvariant(step(st).value, root, docs, step, fuel - 1);
    }
  }

  /** The whole work loop of the resolver keeps the invariant. */
  lemma RunInvariant(st: State, root: string, docs: Docs, absolute: bool, cwd: string, fuel: nat)
    requires Invariant(st, root, docs)
    requires Run(st, docs, absolute, cwd, fuel).Ok?
    ensures Invariant(Run(st, docs, absolute, cwd, fuel).value, root, docs)
  {
    var step := Iteration(docs, absolute, cwd);
    forall s: State | |s.stack| > 0 && Invariant(s, root, docs) && step(s).Ok?
      ensures Invariant(step(s).value, root, docs)
    {
      StepInvariant(s, root, docs, absolute, cwd);
    }
    LoopInvariant(st, root, docs, step, fuel);
  }

  /**
   * Provenance names only real files: every entry of the resolved index names
   * the root configuration file or an existing document.
   */
  lemma CoalesceIndexFiles(root: string, docs: Docs, absolute: bool, cwd: string, fuel: nat)
    requires Coalesce(root, docs, absolute, cwd, fuel).Ok?
    ensures var c := Coalesce(root, docs, absolute, cwd, fuel).value;
      forall k :: k in c.index ==> c.index[k].file == root || c.index[k].file in docs
  {
    if root in docs {
      InitialInvariant(root, docs);
      RunInvariant(Initial(root, docs[root]), root, docs, absolute, cwd, fuel);
    }
  }

  /**
   * What an iteration does to the index and the work list: it indexes the
   * item it pops, drops no index key, and leaves the rest of the work list
   * below whatever it pushes.
   */
  ghost predicate Advances(s: State, r: Result<State, Error>)
    requires |s.stack| > 0
  {
    r.Ok? ==>
      && IndexKey(Top(s)) in r.value.index
      && s.index.Keys <= r.value.index.Keys
      && |r.value.stack| >= |s.stack| - 1
      && r.value.stack[..|s.stack| - 1] == Pop(s)
  }

  /** Every iteration of the resolver advances. */
  lemma IterationAdvances(docs: Docs, absolute: bool, cwd: string)
    ensures forall s: State :: |s.stack| > 0 ==> Advances(s, Iteration(docs, absolute, cwd)(s))
  {
  }

  /** A loop whose iterations advance loses no index entry. */
  lemma {:induction false} LoopKeepsIndex(st: State, step: State --> Result<State, Error>, fuel: nat)
    requires forall s: State :: |s.stack| > 0 ==> step.requires(s) && Advances(s, step(s))
    requires Loop(st, step, fuel).Ok?
    ensures st.index.Keys <= Loop(st, step, fuel).value.index.Keys
    decreases fuel
  {
    if |st.stack| > 0 {
      LoopKeepsIndex(step(st).value, step, fuel - 1);
    }
  }

  /**
   * A loop whose iterations advance leaves none of its work undone: the
   * merged key of every item on the work list ends up in the index.
   */
  lemma {:induction false} LoopCoversWork(st: State, step: State --> Result<State, Error>, fuel: nat)
    requires forall s: State :: |s.stack| > 0 ==> step.requires(s) && Advances(s, step(s))
    requires Loop(st, step, fuel).Ok?
    ensures forall i :: 0 <= i < |st.stack| ==> IndexKey(st.stack[i]) in Loop(st, step, fuel).value.index
    decreases fuel
  {
    if |st.stack| > 0 {
      var next := step(st).value;
      var n := |st.stack| - 1;
      assert Advances(st, step(st));
      LoopCoversWork(next, step, fuel - 1);
      LoopKeepsIndex(next, step, fuel - 1);
      forall i | 0 <= i < n
        ensures IndexKey(st.stack[i]) in Loop(st, step, fuel).value.index
      {
        assert next.stack[..n][i] == next.stack[i];
      }
    }
  }

  /**
   * The resolver's loop loses no index entry and leaves none of its work
   * undone: every key already indexed and the merged key of every item on the
   * work list are in the final index.
   */
  lemma RunCoversWork(st: State, docs: Docs, absolute: bool, cwd: string, fuel: nat)
    requires Run(st, docs, absolute, cwd, fuel).Ok?
    ensures st.index.Keys <= Run(st, docs, absolute, cwd, fuel).value.index.Keys
    ensures forall i :: 0 <= i < |st.stack| ==> IndexKey(st.stack[i]) in Run(st, docs, absolute, cwd, fuel).value.index
  {
    IterationAdvances(docs, absolute, cwd);
    LoopKeepsIndex(st, Iteration(docs, absolute, cwd), fuel);
    LoopCoversWork(st, Iteration(docs, absolute, cwd), fuel);
  }

  /**
   * Every key of the root document is indexed, under its own name, unless
   * resolution fails.
   */
  lemma CoalesceIndexesRootKeys(root: string, docs: Docs, absolute: bool, cwd: string, fuel: nat)
    requires root in docs
    requires Coalesce(root, docs, absolute, cwd, fuel).Ok?
    ensures forall i :: 0 <= i < |KeysOf(docs[root])| ==>
      SegName(KeysOf(docs[root])[i]) in Coalesce(root, docs, absolute, cwd, fuel).value.index
  {
    var st := Initial(root, docs[root]);
    RunCoversWork(st, docs, absolute, cwd, fuel);
    assert Coalesce(root, docs, absolute, cwd, fuel).value.index == Run(st, docs, absolute, cwd, fuel).value.index;
    forall i | 0 <= i < |KeysOf(docs[root])|
      ensures SegName(KeysOf(docs[root])[i]) in Coalesce(root, docs, absolute, cwd, fuel).value.index
    {
      assert IndexKey(st.stack[i]) == SegName(KeysOf(docs[root])[i]);
    }
  }

  /** A list of distinct elements of a set is no longer than the set is large. */
  lemma {:induction false} DistinctWithin(s: seq<string>, within: set<string>)
    requires forall i, j :: 0 <= i < j < |s| ==> s[i] != s[j]
    requires forall i :: 0 <= i < |s| ==> s[i] in within
    ensures |s| <= |within|
    decreases |s|
  {
    if |s| > 0 {
      var rest := within - {s[0]};
      forall i | 0 <= i < |s| - 1
        ensures s[1..][i] in rest
      {
        assert s[1..][i] == s[i + 1];
      }
      DistinctWithin(s[1..], rest);
    }
  }

  /**
   * Include chains are bounded: a chain holds the root and distinct existing
   * documents, so no chain is longer than the number of documents plus one.
   * The chain of every work item grows by one per include, so this bounds the
   * nesting of includes.
   */
  lemma ChainBounded(c: Chain, root: string, docs: Docs)
    requires GoodChain(c, root, docs)
    ensures |c| <= |docs| + 1
  {
    var tail := c[1..];
    forall i, j | 0 <= i < j < |tail|
      ensures tail[i] != tail[j]
    {
      assert tail[i] == c[i + 1] && tail[j] == c[j + 1];
    }
    forall i | 0 <= i < |tail|
      ensures tail[i] in docs.Keys
    {
      assert tail[i] == c[i + 1];
    }
    DistinctWithin(tail, docs.Keys);
  }

  /**
   * In absolute mode a rewritten path is a fixed point: rewriting it again,
   * from any file, gives it back. So a leaf visited twice (a locally kept key
   * that an include puts back on the work list) ends up the same.
   */
  lemma AbsoluteRewriteIdempotent(v: string, from1: string, from2: string, cwd: string)
    requires IsAbsolute(cwd) && v != "" && from1 != "" && from2 != ""
    ensures var once := ResolveToRoot(v, from1, true, cwd);
      && once.Some?
      && ResolveToRoot(once.value, from2, true, cwd) == once
  {
    ResolveIdempotent(cwd, Dirname(from1), Dirname(from2), v);
  }

  /** A file path of plain segments: its directory's segments and its name are plain. */
  lemma PlainFile(d: seq<string>, f: string)
    requires Plain(d + [f])
    ensures Plain(d) && Plain([f]) && f != ""
  {
    assert (d + [f])[|d|] == f;
    assert forall i :: 0 <= i < |d| ==> (d + [f])[i] == d[i];
  }

  /**
   * Relative mode: a value of plain segments written in the file `d/f` is
   * rewritten to `d/value`, the same place named from the root.
   */
  lemma ResolveToRootRelative(d: seq<string>, f: string, v: seq<string>, cwd: string)
    requires Plain(d + [f]) && Plain(v) && |v| > 0
    ensures ResolveToRoot(Join(v, '/'), Join(d + [f], '/'), false, cwd) == Some(Join(d + v, '/'))
  {
    PlainFile(d, f);
    JoinPlainEnds(v);
    JoinPlainEnds(d + [f]);
    DirnameOfFile(d, f);
    JoinDirValue(d, v);
  }

  /**
   * Absolute mode: with the working directory "/" + join(c), the same value
   * is rewritten to the absolute path of `c/d/value`.
   */
  lemma ResolveToRootAbsolute(c: seq<string>, d: seq<string>, f: string, v: seq<string>)
    requires Plain(c) && Plain(d + [f]) && Plain(v) && |v| > 0
    ensures ResolveToRoot(Join(v, '/'), Join(d + [f], '/'), true, "/" + Join(c, '/')) == Some("/" + Join(c + d + v, '/'))
  {
    PlainFile(d, f);
    JoinPlainEnds(v);
    JoinPlainEnds(d + [f]);
    DirnameOfFile(d, f);
    ResolveDirValue(c, d, v);
  }

  /** An extension's `actions: actions` in `src/dx-excshell-1/ext.config.yaml` becomes `src/dx-excshell-1/actions`. */
  lemma ExtensionActionsFolder(cwd: string)
    ensures ResolveToRoot("actions", "src/dx-excshell-1/ext.config.yaml", false, cwd) == Some("src/dx-excshell-1/actions")
  {
    ExampleSegments();
    ResolveToRootRelative(["src", "dx-excshell-1"], "ext.config.yaml", ["actions"], cwd);
  }

  lemma ExampleSegments()
    ensures Plain(["src", "dx-excshell-1"] + ["ext.config.yaml"]) && Plain(["actions"])
    ensures Join(["actions"], '/') == "actions"
    ensures Join(["src", "dx-excshell-1"] + ["ext.config.yaml"], '/') == "src/dx-excshell-1/ext.config.yaml"
    ensures Join(["src", "dx-excshell-1"] + ["actions"], '/') == "src/dx-excshell-1/actions"
  {
    ExamplePlain();
    ExampleJoin("ext.config.yaml");
    ExampleJoin("actions");
    assert "src/dx-excshell-1/" + "ext.config.yaml" == "src/dx-excshell-1/ext.config.yaml";
    assert "src/dx-excshell-1/" + "actions" == "src/dx-excshell-1/actions";
  }

  lemma ExamplePlain()
    ensures Plain(["src", "dx-excshell-1"] + ["ext.config.yaml"]) && Plain(["actions"])
  {
    assert ["src", "dx-excshell-1"] + ["ext.config.yaml"] == ["src", "dx-excshell-1", "ext.config.yaml"];
  }

  lemma ExampleJoin(last: string)
    ensures Join(["src", "dx-excshell-1"] + [last], '/') == "src/dx-excshell-1/" + last
  {
    assert ["src", "dx-excshell-1"] + [last] == ["src", "dx-excshell-1", last];
    JoinThree("src", "dx-excshell-1", last);
    assert "src" + "/" + "dx-excshell-1" + "/" == "src/dx-excshell-1/";
  }

  lemma JoinThree(a: string, b: string, c: string)
    ensures Join([a, b, c], '/') == a + "/" + b + "/" + c
  {
    assert [a, b, c][1..] == [b, c] && [b, c][1..] == [c];
    assert Join([b, c], '/') == b + "/" + c;
    assert Join([a, b, c], '/') == a + "/" + (b + "/" + c);
  }
}

=== FILE: results.dfy ===
/** Failure-compatible wrappers shared by every module of the model. */
module Results {

  /** A value that may be absent; `None` plays the role of JavaScript's `undefined`. */
  datatype Option<+T> = None | Some(value: T) {

    predicate IsFailure() {
      None?
    }

    function PropagateFailure<U>(): Option<U>
      requires None?
    {
      None
    }

    function Extract(): T
      requires Some?
    {
      value
    }

    function GetOr(default: T): T {
      match this
      case Some(v) => v
      case None => default
    }
  }

  /** The outcome of an operation that either produces a value or throws. */
  datatype Result<+T, +E> = Ok(value: T) | Err(error: E) {

    predicate IsFailure() {
      Err?
    }

    function PropagateFailure<U>(): Result<U, E>
      requires Err?
    {
      Err(error)
    }

    function Extract(): T
      requires Ok?
    {
      value
    }
  }
}

=== FILE: strings.dfy ===
/**
 * Splitting and joining strings at a one-character separator, and decimal
 * rendering of integers. These are the string primitives JavaScript offers as
 * `s.split(c)`, `parts.join(c)` and `String(n)`.
 */
module Strings {

  /** `s.split(sep)`: the maximal separator-free pieces of `s`, in order. */
  function Split(s: string, sep: char): (parts: seq<string>)
    ensures |parts| >= 1
    ensures forall i :: 0 <= i < |parts| ==> sep !in parts[i]
  {
    if |s| == 0 then [""]
    else if s[0] == sep then [""] + Split(s[1..], sep)
    else
      var rest := Split(s[1..], sep);
      [[s[0]] + rest[0]] + rest[1..]
  }

  /** `parts.join(sep)`. */
  function Join(parts: seq<string>, sep: char): string
  {
    if |parts| == 0 then ""
    else if |parts| == 1 then parts[0]
    else parts[0] + [sep] + Join(parts[1..], sep)
  }

  /** No piece contains the separator, so joining loses no information. */
  ghost predicate SeparatorFree(parts: seq<string>, sep: char)
  {
    forall i :: 0 <= i < |parts| ==> sep !in parts[i]
  }

  lemma SeparatorFreeAppend(a: seq<string>, b: seq<string>, sep: char)
    requires SeparatorFree(a, sep) && SeparatorFree(b, sep)
    ensures SeparatorFree(a + b, sep)
  {
    forall x | 0 <= x < |a + b|
      ensures sep !in (a + b)[x]
    {
      if x < |a| {
        assert (a + b)[x] == a[x];
      } else {
        assert (a + b)[x] == b[x - |a|];
      }
    }
  }

  /** Joining the pieces of a split gives back the original string. */
  lemma {:induction false} JoinSplit(s: string, sep: char)
    ensures Join(Split(s, sep), sep) == s
    decreases |s|
  {
    if |s| == 0 {
    } else if s[0] == sep {
      var rest := Split(s[1..], sep);
      JoinSplit(s[1..], sep);
      assert Split(s, sep) == [""] + rest;
      assert ([""] + rest)[1..] == rest;
    } else {
      var rest := Split(s[1..], sep);
      JoinSplit(s[1..], sep);
      var parts := Split(s, sep);
      assert parts == [[s[0]] + rest[0]] + rest[1..];
      if |rest| == 1 {
        assert Join(rest, sep) == rest[0];
      } else {
        assert Join(rest, sep) == rest[0] + [sep] + Join(rest[1..], sep);
        assert parts[1..] == rest[1..];
      }
    }
  }

  /** Splitting a separator-free prefix glued to a rest extends the first piece of the rest. */
  lemma {:induction false} SplitPrefix(a: string, rest: string, sep: char)
    requires sep !in a
    ensures Split(a + rest, sep) == [a + Split(rest, sep)[0]] + Split(rest, sep)[1..]
    decreases |a|
  {
    if |a| == 0 {
      var parts := Split(rest, sep);
      assert a + rest == rest;
      assert a + parts[0] == parts[0];
      assert parts == [parts[0]] + parts[1..];
    } else {
      assert (a + rest)[0] == a[0];
      assert (a + rest)[1..] == a[1..] + rest;
      SplitPrefix(a[1..], rest, sep);
      assert [a[0]] + (a[1..] + Split(rest, sep)[0]) == a + Split(rest, sep)[0];
    }
  }

  /** Splitting after joining separator-free pieces gives back the pieces. */
  lemma {:induction false} SplitJoin(parts: seq<string>, sep: char)
    requires |parts| >= 1
    requires SeparatorFree(parts, sep)
    ensures Split(Join(parts, sep), sep) == parts
    decreases |parts|
  {
    if |parts| == 1 {
      SplitPrefix(parts[0], "", sep);
      assert parts[0] + "" == parts[0];
      assert Split("", sep) == [""];
    } else {
      var tail := Join(parts[1..], sep);
      SplitJoin(parts[1..], sep);
      assert Join(parts, sep) == parts[0] + ([sep] + tail);
      SplitPrefix(parts[0], [sep] + tail, sep);
      assert ([sep] + tail)[1..] == tail;
      assert Split([sep] + tail, sep) == [""] + parts[1..];
      assert parts[0] + "" == parts[0];
    }
  }

  /** Joining two non-empty lists of pieces is joining the two joins with a separator. */
  lemma {:induction false} JoinAppend(a: seq<string>, b: seq<string>, sep: char)
    requires |a| >= 1 && |b| >= 1
    ensures Join(a + b, sep) == Join(a, sep) + [sep] + Join(b, sep)
    decreases |a|
  {
    if |a| == 1 {
      assert (a + b)[1..] == b;
    } else {
      JoinAppend(a[1..], b, sep);
      assert (a + b)[1..] == a[1..] + b;
    }
  }

  /** The last piece of `a + sep + b` is `b` when `b` holds no separator. */
  lemma {:induction false} SplitLastPiece(a: string, b: string, sep: char)
    requires sep !in b
    ensures |Split(a + [sep] + b, sep)| >= 2
    ensures Split(a + [sep] + b, sep)[|Split(a + [sep] + b, sep)| - 1] == b
    decreases |a|
  {
    SplitPrefix(b, "", sep);
    assert b + "" == b;
    if |a| == 0 {
      assert a + [sep] + b == [sep] + b;
      assert ([sep] + b)[1..] == b;
    } else {
      var s := a + [sep] + b;
      assert s[0] == a[0];
      assert s[1..] == a[1..] + [sep] + b;
      SplitLastPiece(a[1..], b, sep);
    }
  }

  /** A string without the separator splits into itself alone. */
  lemma {:induction false} SplitNoSeparator(s: string, sep: char)
    requires sep !in s
    ensures Split(s, sep) == [s]
    decreases |s|
  {
    if |s| > 0 {
      SplitNoSeparator(s[1..], sep);
      assert [s[0]] + s[1..] == s;
    }
  }

  /** The last piece of a split is the text after the last separator, or the whole string when there is none. */
  lemma {:induction false} SplitLastSuffix(s: string, sep: char)
    ensures var parts := Split(s, sep); var last := parts[|parts| - 1];
      && |last| <= |s| && s[|s| - |last|..] == last
      && (|last| < |s| ==> s[|s| - |last| - 1] == sep)
      && (|parts| > 1 ==> |last| < |s|)
    decreases |s|
  {
    if |s| > 0 {
      var rest := Split(s[1..], sep);
      SplitLastSuffix(s[1..], sep);
      if s[0] != sep && |rest| == 1 {
        JoinSplit(s[1..], sep);
        assert Split(s, sep) == [[s[0]] + s[1..]];
        assert [s[0]] + s[1..] == s;
      } else if s[0] != sep {
        assert Split(s, sep)[|Split(s, sep)| - 1] == rest[|rest| - 1];
      }
    }
  }

  /** A join contains the separator only where two pieces meet. */
  lemma {:induction false} JoinFree(parts: seq<string>, sep: char, c: char)
    requires c != sep
    requires forall i :: 0 <= i < |parts| ==> c !in parts[i]
    ensures c !in Join(parts, sep)
    decreases |parts|
  {
    if |parts| > 1 {
      JoinFree(parts[1..], sep, c);
    }
  }

  /** One decimal digit. */
  function DigitChar(d: nat): (c: char)
    requires d < 10
    ensures '0' <= c <= '9'
  {
    "0123456789"[d]
  }

  predicate IsDigit(c: char) {
    '0' <= c <= '9'
  }

  /** `String(n)` for a natural number: its shortest decimal rendering. */
  function NatToString(n: nat): (s: string)
    ensures |s| >= 1
    ensures forall i :: 0 <= i < |s| ==> IsDigit(s[i])
    ensures n < 10 <==> |s| == 1
  {
    if n < 10 then [DigitChar(n)]
    else NatToString(n / 10) + [DigitChar(n % 10)]
  }

  /** Different numbers render differently, so index keys never collide. */
  lemma {:induction false} NatToStringInjective(n: nat, m: nat)
    requires NatToString(n) == NatToString(m)
    ensures n == m
    decreases n
  {
    var s := NatToString(n);
    assert "0123456789"[n % 10] == s[|s| - 1] == "0123456789"[m % 10];
    if n >= 10 && m >= 10 {
      assert NatToString(n / 10) == s[..|s| - 1] == NatToString(m / 10);
      NatToStringInjective(n / 10, m / 10);
    }
  }

  /** `String(n)` for an integer. */
  function IntToString(n: int): (s: string)
    ensures |s| >= 1
    ensures n < 0 <==> s[0] == '-'
  {
    if n < 0 then "-" + NatToString(-n) else NatToString(n)
  }
}
